=== FILE: README.md ===
# mygameui, modelled in Dafny

mygameui is a small widget toolkit drawn with pygame. It has five kinds of control:

- `Control`, the plain control;
- `Button`;
- `CheckBox`;
- `Textbox`;
- `Form`, a window with a title strip, optional dragging and an optional close button.

Controls form a tree. Each control keeps:

- a local rectangle, relative to its parent's rectangle;
- a render rectangle, in screen coordinates;
- the flags `hovered`, `clicked`, `active` and `visible`;
- its child list, in paint order (the end of the list is painted last, so it is in front);
- its callbacks.

Once per frame the program calls `update(events)`:

- the control tracks whether the pointer is over it;
- a press clicks the control and activates it, which brings it to the front of its parent and switches off its siblings;
- a release fires the mouse-up callback;
- a form first drags itself, then offers the frame to its children from front to back and stops at the first child under the pointer;
- a text box edits its text and blinks its cursor.

The themes are cut from one image by nine-slice scaling (`generate_surface_byrect`). The older, single-file generation of the library (`mygameui/controls.py`: `Control`, `Window`, `Button`) is modelled beside the newer one.

How the model is built:

- **The tree is a value.** `ControlTree.Tree` has five fields:
  - `nodes`, the state of each control by id;
  - `controls`, the child lists;
  - `parent`, the parent links;
  - `nextId`, the next free id;
  - `log`, the callbacks fired so far, in order.

  `Coherent` is the tree's invariant. It holds that the links and the lists agree, that no list has a duplicate, that a ghost depth map proves the links acyclic, and that every text box shows the mask of its text.
- **Operations.**
  - Each operation that changes controls step by step (`set_active`, `reset`, `move_ip`, `Control.update`, the drag loop, the editing loop, the form's scan) is a method with loops or recursion.
  - Each such method is proved equal to a ghost function that says the new tree outright. For `update` these are `Updates.Updated`, `Updates.FormUpdated` and `Updates.ScanFrom`, defined together by recursion on the tree as the methods are.
  - Lemmas then state the properties of those functions.
- **The class.** `Controls.Gui` is the object the program holds. Its methods are the library's calls, and each states the new tree and keeps `Coherent`.
- **Callbacks** are entries appended to the log.
  - The close button's callback is the action `Hide(form)`, as the form's lambda is.
  - The pointer position, the tick count and the font's width function are parameters.
- **Legacy.** The older generation is modelled by `Legacy.Window`, a class whose children are a sequence of widget values.

## Model

| member | source | states |
|---|---|---|
| Geometry.Moved | mygameui/controls/control.py:269-279 | `move_ip` shifts a rectangle's origin by the offset and keeps its size |
| Geometry.ContainsMoved | mygameui/controls/form.py:164-167 | moving a rectangle and the point by the same offset keeps the hit test, so a dragged form is hit where it was hit before, shifted |
| Geometry.EmptyContainsNothing | mygameui/controls/control.py:308 | a rectangle without area holds no point |
| Nodes.RenderRect | mygameui/controls/control.py:242-255 | the render rectangle has the local size; it is the local rectangle without a parent and the local rectangle offset by the parent's local origin with one |
| Nodes.HitRelativeToParent | mygameui/controls/form.py:169-171 | a child's render rectangle holds the pointer exactly when its local rectangle holds the pointer taken relative to the parent's origin |
| Nodes.Fresh | mygameui/controls/control.py:32-45 | a new control is drawn at its own rectangle, visible, not hovered, clicked or active, with no callback |
| NineSlice.Grid | mygameui/utils.py:34-86 | the composition has exactly nine tiles |
| NineSlice.GenerateSurfaceByRect | mygameui/utils.py:4-88 | a composition exists exactly when the canvas is at least two corner tiles wide and high; it has the requested size and nine tiles |
| NineSlice.GridTilesCanvas | mygameui/utils.py:34-86 | each canvas point lies in exactly one tile, the one of its row band and column band |
| NineSlice.GridInsideCanvas | mygameui/utils.py:34-86 | every tile lies inside the canvas |
| NineSlice.NineSliceCoversOnce | mygameui/utils.py:4-88 | the nine tiles of a composition cover each canvas point exactly once |
| NineSlice.NineSliceSourcePartition | mygameui/utils.py:28-32 | the source cuts stay inside the source image; the columns and the middle column's rows partition it |
| NineSlice.NineSlicePlacement | mygameui/utils.py:34-86 | the corners are copied unscaled to the four corners; the edges are stretched along one axis and the centre along both, to fill the canvas |
| NineSlice.SideMiddleHeight | mygameui/utils.py:28-32 | the left and right edge cuts are one third of the source high, while the centre cut also takes the remainder, so they differ exactly when the height is not a multiple of three |
| Widgets.Half | mygameui/controls/button.py:63-69 | pygame's `center` halves truncating toward zero, as its C division does: the half is within one of the exact half |
| Widgets.ButtonTheme | mygameui/controls/button.py:33-46 | the three state images are cut from the cells at (48,16), (64,16) and (80,16) at the button's size, and exist exactly when both sides are at least 10 |
| Widgets.CloseButtonImages | mygameui/controls/form.py:119-123 | the close button's normal and clicked images are the same cell and its hover image another |
| Widgets.ButtonImageFor | mygameui/controls/button.py:54-60 | the click image exactly when hovered and clicked, the hover image exactly when hovered and not clicked, the normal image exactly when not hovered |
| Widgets.ButtonDraw | mygameui/controls/button.py:50-70 | nothing is drawn exactly when invisible; otherwise the image of the state at the render rectangle, and text exactly when the text is not empty |
| Widgets.ButtonTextCentred | mygameui/controls/button.py:63-69 | the text's left and right margins differ by at most one pixel |
| Widgets.ButtonTextDropsWhenClicked | mygameui/controls/button.py:66-69 | a clicked button draws its text one pixel lower and at the same x |
| Widgets.CheckBoxDraw | mygameui/controls/checkbox.py:54-65 | the hover or normal cell, the checked cell on top exactly when the value is set, and the label 18 pixels right exactly when there is text |
| Widgets.TextboxTheme | mygameui/controls/textbox.py:89-99 | the normal and active images are cut from the cells at (96,16) and (112,16), and exist exactly when both sides are at least 10 |
| Widgets.TextboxDraw | mygameui/controls/textbox.py:143-155 | the active image exactly when active, at the render rectangle; the shown string is drawn; the cursor exactly when active and in its visible blink phase |
| Widgets.CursorDrawnAtPrefix | mygameui/controls/textbox.py:152-155 | the cursor is drawn one pixel left of the end of the shown prefix up to the index, measured from the text's left edge 8 pixels into the box; past the end it follows the whole shown string |
| Widgets.CursorDrawnMonotone | mygameui/controls/textbox.py:152-155 | with prefix widths that never shrink, a cursor further along the text is drawn no further left |
| Widgets.ClickedCursorAtPointer | mygameui/controls/textbox.py:161-173 | after a left click the cursor is drawn where the click fell: left of the pointer unless at the start, and the pointer lies before the end of the character after the cursor unless it is at the end |
| FormChrome.ChromeTiles | mygameui/controls/form.py:61-118 | the chrome exists exactly when the form is at least 32 wide and high, and has nine tiles |
| FormChrome.ChromeIsNineSlice | mygameui/controls/form.py:61-118 | the chrome puts and stretches each tile as nine-slice scaling of a 48 x 48 image would |
| FormChrome.ChromeLayout | mygameui/controls/form.py:74-118 | the corners are at the four corners and the edges and centre fill the rest; a movable form takes its top row from the cells at x = 48, 64, 80, a fixed one from x = 0, 16, 32; each point of the form lies in one tile |
| FormChrome.CloseButtonRect | mygameui/controls/form.py:54-57 | the close button is 16 x 16 and sits at the top right corner of the form |
| FormChrome.DragStep | mygameui/controls/form.py:157-167 | a release stops moving; a press of button 1 on the strip starts it; the form moves only on a motion while moving, and then it and the strip move by the motion |
| FormChrome.DragKeepsStripOnForm | mygameui/controls/form.py:157-167 | over any events the strip keeps its offset from the form, and both keep their sizes |
| FormChrome.NoPressNoMove | mygameui/controls/form.py:157-167 | a form that is not moving, given no press of button 1 on its strip, does not move |
| FormChrome.DragMovesByDelta | mygameui/controls/form.py:157-167 | the form and its strip move by the sum of the motions made while moving |
| FormChrome.FormPaints | mygameui/controls/form.py:135-151 | an invisible form paints nothing; a visible one paints its chrome first, under everything else |
| FormChrome.PaintOrder | mygameui/controls/form.py:135-151 | a visible form paints the chrome once, the caption exactly when there is one, and each child exactly once in list order, so later children are painted over earlier ones |
| FormChrome.LastPaintedIsFront | mygameui/controls/form.py:150-151 | the last child of the list is painted last, over everything else |
| Forest.RemoveFirst | mygameui/controls/control.py:174 | `list.remove` requires the element present and deletes its first occurrence, leaving one element fewer; its one call site, `set_active`, removes the control from its parent's list, where it always is |
| Forest.RemoveFirstCount | mygameui/controls/control.py:174 | removal takes exactly one occurrence of a present element off the multiset |
| Forest.MoveToEndPermutes | mygameui/controls/control.py:173-175 | removing and appending a member keeps the list's length and elements and ends it with the member |
| Forest.RemoveFirstAt | mygameui/controls/control.py:174 | removing the element at its first position keeps the elements before it and shifts those after it down by one |
| Forest.MoveToEndAt | mygameui/controls/control.py:173-175 | bringing the element at position i to the end keeps the others in their order |
| Forest.NoDupMoveToEnd | mygameui/controls/control.py:173-175 | bringing an element to the end keeps a list free of duplicates |
| Forest.MoveToEndTwice | mygameui/controls/control.py:173-175 | bringing the same element to the end twice is bringing it once |
| Forest.MoveToEndSameElements | mygameui/controls/control.py:173-175 | the reordered list has the same members |
| Forest.AttachWf | mygameui/controls/control.py:259-267 | appending a root that is not above the parent keeps the links acyclic and the lists duplicate-free |
| Forest.WithinTrans | mygameui/controls/control.py:166-170 | being in a subtree is transitive |
| Forest.RootOfWithin | mygameui/controls/control.py:166-170 | every control is in the subtree of its root, which has no parent |
| ControlTree.ParentRect | mygameui/controls/control.py:242-255 | the parent's local rectangle when there is a parent, none otherwise |
| ControlTree.ChildrenOf | mygameui/controls/control.py:259-267 | the children of a control are controls linked to it, one level below it; every control linked to it is listed |
| ControlTree.Empty | mygameui/controls/control.py:32-45 | no control yet, and the empty tree is coherent |
| ControlTree.CreateFresh | mygameui/controls/control.py:32-45 | a created control takes an unused id, has no parent and no children, and the others keep their state |
| ControlTree.CreateCoherent | mygameui/controls/control.py:32-45 | creating a control keeps the tree coherent, with the new control a root |
| ControlTree.AttachAppends | mygameui/controls/control.py:259-267 | `add_control` makes the control the last child, after the existing ones, with its parent set and drawn relative to the parent |
| ControlTree.AttachCoherent | mygameui/controls/control.py:259-267 | adding a root that is not above the parent keeps the tree coherent |
| ControlTree.PutCoherent | mygameui/controls/control.py:143-153 | replacing one control's state by one with the same links keeps the tree coherent |
| ControlTree.FlagsCoherent | mygameui/controls/control.py:298-329 | changing only flags keeps the tree coherent |
| Activation.Deactivated | mygameui/controls/control.py:178-182 | `set_active(False)` changes only the states of controls, not the lists, links, ids or log |
| Activation.BelowDeactivated | mygameui/controls/control.py:179-180 | the children loop changes only states |
| Activation.Cleared | mygameui/controls/control.py:281-289 | `reset` changes only states |
| Activation.Shifted | mygameui/controls/control.py:269-279 | `move_ip` changes only states |
| Activation.Activated | mygameui/controls/control.py:166-182 | `set_active(True)` keeps the controls, the links, the ids and the log |
| Activation.Activate | mygameui/controls/control.py:166-182 | the recursive `set_active(True)` (activate the parent, switch off its children, bring this one to the end, switch on) computes `Activated` |
| Activation.Deactivate | mygameui/controls/control.py:178-182 | the recursive `set_active(False)` computes `Deactivated`: the control and everything below it inactive, nothing else changed |
| Activation.DeactivateChildren | mygameui/controls/control.py:179-180 | the loop over the children computes `BelowDeactivated`: everything strictly below inactive |
| Activation.Reset | mygameui/controls/control.py:281-289 | the recursive `reset` computes `Cleared`: the control and everything below it neither hovered nor active, `clicked` kept |
| Activation.MoveIp | mygameui/controls/control.py:269-279 | the loop of `move_ip` computes `Shifted`: the control moves, and it and its children are drawn against the new rectangles |
| Activation.DeactivatedCoherent | mygameui/controls/control.py:178-182 | `set_active(False)` keeps the tree coherent |
| Activation.ClearedCoherent | mygameui/controls/control.py:281-289 | `reset` keeps the tree coherent |
| Activation.ActivatedCoherent | mygameui/controls/control.py:166-182 | `set_active(True)` keeps the tree coherent: the reordered lists keep their members and have no duplicates |
| Activation.ShiftedCoherent | mygameui/controls/control.py:269-279 | `move_ip` keeps the tree coherent |
| Activation.SetActiveBringsToFront | mygameui/controls/control.py:172-175 | in the parent's list the control moves to the end, the list keeps its length and members, and the others keep their order |
| Activation.FrontOfParent | mygameui/controls/control.py:172-175 | the parent's new list is the old one with the control moved to the end |
| Activation.SetActiveAncestors | mygameui/controls/control.py:166-168 | after `set_active(True)` the control and every control above it are active |
| Activation.SetActiveSiblings | mygameui/controls/control.py:170-171 | the control's siblings end up inactive |
| Activation.SetActiveBelow | mygameui/controls/control.py:170-182 | every control strictly below the activated one ends up inactive |
| Activation.SetActiveOtherTrees | mygameui/controls/control.py:166-182 | the controls of other trees are unchanged |
| Activation.SetActiveExclusive | mygameui/controls/control.py:159-160 | a previously active control is deactivated: afterwards no control of the tree has two active children |
| Activation.SetActiveTwice | mygameui/controls/control.py:166-182 | `set_active(True)` is idempotent |
| FormDrag.DragOne | mygameui/controls/form.py:158-167 | one event of the drag loop keeps the controls, lists and links |
| FormDrag.Dragged | mygameui/controls/form.py:157-167 | the drag loop changes only the form and the render rectangles of its children |
| FormDrag.DraggedState | mygameui/controls/form.py:157-167 | on the tree the drag loop does what `DragAll` does on the form's drag state |
| FormDrag.DraggedChildren | mygameui/controls/form.py:164-167 | each child is where it was while the form has not moved, and drawn against the form's final rectangle once it has |
| FormDrag.DraggedCoherent | mygameui/controls/form.py:157-167 | dragging keeps the tree coherent |
| FormDrag.DraggedKept | mygameui/controls/form.py:157-167 | dragging changes nothing outside the form's subtree |
| FormDrag.DragEvent | mygameui/controls/form.py:158-167 | one event of the loop as the code runs it equals `DragOne` |
| FormDrag.Drag | mygameui/controls/form.py:157-167 | the drag loop as the code runs it equals `Dragged` |
| Setters.WithField | mygameui/controls/control.py:81-127 | one property of the rectangle takes the value; the other three keep theirs |
| Setters.Assign | mygameui/controls/control.py:81-127 | a setter assigns one property of the control's local rectangle and changes nothing else of the tree apart from the control's render rectangle |
| Setters.AssignRender | mygameui/controls/control.py:81-127 | after a setter, the render rectangle is the new local rectangle, offset by the parent's origin when there is a parent; the tree stays coherent |
| Setters.SetVisible | mygameui/controls/control.py:143-153 | the `visible` setter changes that flag of that control only |
| Setters.SetText | mygameui/controls/textbox.py:57-66 | the text becomes the string and the box stays consistent; an equal text changes nothing; the changed-text call is logged exactly when the text differs and a handler is bound |
| Setters.SetPassword | mygameui/controls/textbox.py:78-85 | the flag is set, the shown string is recomputed as the mask of the text, and nothing else changes or fires |
| Setters.PasswordTwice | mygameui/controls/textbox.py:78-85 | toggling `is_password` and back gives the tree back |
| Setters.SetTextCoherent | mygameui/controls/textbox.py:57-66 | the `text` setter keeps the tree coherent |
| Setters.SetPasswordCoherent | mygameui/controls/textbox.py:78-85 | the `is_password` setter keeps the tree coherent |
| Setters.NewButton | mygameui/controls/button.py:22-29 | a button exists exactly when its theme can be cut (both sides at least 10), and is a button at the requested rectangle |
| Setters.NewCheckBox | mygameui/controls/checkbox.py:7-18 | a check box is 16 x 16 at the given position, whatever size was asked, with the given value and no handler |
| Setters.NewTextbox | mygameui/controls/textbox.py:27-43 | a text box exists exactly when its theme can be cut; it shows its initial text, the cursor is at 0, no handler is bound and nothing fired |
| Setters.NewFormShape | mygameui/controls/form.py:28-38 | a form exists exactly when it is at least 32 x 32; its title strip is its top 16 rows; it is not moving; a closable form has exactly one child, the close button, at the top right, whose release hides the form; other forms have no child |
| Setters.SetClosable | mygameui/controls/form.py:46-57 | the flag is stored and nothing else of the form changes; `False` changes nothing else at all |
| Setters.SetClosableAdds | mygameui/controls/form.py:46-57 | `True` appends a new close button to the form's children, even when it has one already, and a release over it hides the form |
| Setters.CloseButtonCoherent | mygameui/controls/form.py:54-57 | adding a close button keeps the tree coherent |
| Setters.Bind | mygameui/controls/control.py:184-202 | binding a callback changes only that control's handlers, not its rectangles or visibility |
| Setters.BindCoherent | mygameui/controls/control.py:184-202 | binding keeps the tree coherent |
| Setters.BoundFires | mygameui/controls/control.py:233-238 | once bound, a release logs the mouse-up call, a new check box value the changed-value call and a new text the changed-text call; an unchanged value or text fires nothing |
| Setters.SetVisibleCoherent | mygameui/controls/control.py:143-153 | the `visible` setter keeps the tree coherent |
| Setters.AssignValueCoherent | mygameui/controls/checkbox.py:26-30 | the `value` setter keeps the tree coherent |
| Setters.NewFormCoherent | mygameui/controls/form.py:28-38 | a new form keeps the tree coherent |
| Setters.SetClosableCoherent | mygameui/controls/form.py:46-57 | the `closable` setter keeps the tree coherent |
| Interaction.KeptTrans | mygameui/controls/control.py:298-329 | two updates of one control in a row keep what each keeps |
| Interaction.KeptNarrow | mygameui/controls/form.py:169-176 | what an update of a child keeps, an update of its parent keeps |
| Interaction.Hover | mygameui/controls/control.py:308-316 | hovered becomes whether the render rectangle holds the pointer; leaving hover clears clicked; nothing else changes |
| Interaction.AssignValue | mygameui/controls/checkbox.py:26-30 | the value is stored; the changed-value call is logged exactly when the value differs and a handler is bound |
| Interaction.ToggleTwice | mygameui/controls/checkbox.py:48-51 | two presses give back the value, with one changed-value call each when bound |
| Interaction.Released | mygameui/controls/control.py:233-238 | a release logs the mouse-up call when one is bound, or hides the close button's form; nothing else changes |
| Interaction.Press | mygameui/controls/control.py:222-231 | the press as the code runs it (check box toggle, `set_active(True)`, mouse-down call) equals `Pressed` |
| Interaction.Step | mygameui/controls/control.py:298-329 | one event of `update` as the code runs it equals `Stepped`, and an invisible control is left alone |
| Interaction.PressedCoherent | mygameui/controls/control.py:222-231 | a press keeps the tree coherent |
| Interaction.SteppedCoherent | mygameui/controls/control.py:298-329 | one event keeps the tree coherent |
| Interaction.SteppedKept | mygameui/controls/control.py:298-329 | one event changes nothing outside the control's subtree but the active flags and the list order above it and the visibility of a close button's form |
| Interaction.PressedOwn | mygameui/controls/control.py:222-231 | a press changes only the control's active flag and a check box's value |
| Interaction.ReleasedOwn | mygameui/controls/control.py:233-238 | a release leaves the control itself alone |
| Interaction.StepOwn | mygameui/controls/control.py:298-329 | an event changes only the hover, click and active flags of the control and a check box's value; hovered follows the pointer; leaving hover clears clicked |
| Interaction.StepPress | mygameui/controls/control.py:318-322 | a press while hovered and not clicked clicks and activates the control, activates its ancestors, switches off everything below it, toggles a check box and logs the changed-value and mouse-down calls in that order |
| Interaction.StepRelease | mygameui/controls/control.py:323-326 | a release while hovered and clicked unclicks the control, logs the mouse-up call or hides the close button's form, and changes nothing else |
| Interaction.StepPressOutside | mygameui/controls/control.py:327-329 | a press away from the control deactivates it and everything below it, and changes nothing else |
| Interaction.StepOnlyHovers | mygameui/controls/control.py:308-329 | any other event only updates hover and logs nothing |
| Interaction.PressedLog | mygameui/controls/checkbox.py:48-51 | a press logs the changed-value call, then the mouse-down call, each when bound |
| Interaction.PressedFlags | mygameui/controls/control.py:222-231 | after a press everything above the control is active and, when it has a parent, everything below it inactive |
| Interaction.StepAll | mygameui/controls/control.py:298-329 | the events in order keep the tree coherent and change only the control's flags and value |
| Interaction.StepAllKept | mygameui/controls/control.py:298-329 | over a list of events nothing outside the control's subtree changes but what one event may change |
| Interaction.StepAllInvisible | mygameui/controls/control.py:305-306 | an invisible control ignores every event |
| Interaction.StepAllHover | mygameui/controls/control.py:308-316 | after at least one event a visible control is hovered exactly when its render rectangle holds the pointer |
| Interaction.StepAllFirst | mygameui/controls/control.py:298-329 | the first event is handled first, and the step keeps the tree coherent |
| Interaction.ControlUpdate | mygameui/controls/control.py:298-329 | the loop over the events equals `StepAll` |
| TextboxLogic.Mask | mygameui/controls/textbox.py:62-65 | the shown string has the text's length; it is all `*` for a password and the text otherwise |
| TextboxLogic.Before | mygameui/controls/textbox.py:176-179 | Python's `s[:i]`: the first i characters, or all of them past the end |
| TextboxLogic.After | mygameui/controls/textbox.py:176-179 | Python's `s[i:]`: what completes `s[:i]` to `s`, and empty past the end |
| TextboxLogic.NewTextbox | mygameui/controls/textbox.py:27-43 | a new box holds the initial text and shows it, is not a password, has the cursor at 0 and shown, and last flipped at the current tick |
| TextboxLogic.AssignText | mygameui/controls/textbox.py:57-66 | the setter fires exactly when the text differs; the new text is the string and a differing string re-masks the shown text |
| TextboxLogic.SetPassword | mygameui/controls/textbox.py:78-85 | the shown string is the mask of the text for the new flag; nothing else changes |
| TextboxLogic.TypeKey | mygameui/controls/textbox.py:173-180 | backspace at 0 does nothing; inside the text it deletes the character before the cursor and steps back; any other key splices its text in at the cursor and steps on, firing exactly when that text is not empty |
| TextboxLogic.TypeThenBackspace | mygameui/controls/textbox.py:173-180 | one character typed and one backspace give the box back |
| TextboxLogic.SingleCharsKeepCursorInText | mygameui/controls/textbox.py:173-180 | keys with one character of text, and backspace, keep the cursor within the text |
| TextboxLogic.EmptyKeyTextLeavesCursorPastEnd | mygameui/controls/textbox.py:179-180 | a key without text (Shift) still moves the cursor on, past the end; the next character is appended and a backspace after it deletes nothing |
| TextboxLogic.CursorAt | mygameui/controls/textbox.py:163-172 | the cursor goes to the first index whose next prefix is at least as wide as the click, and to the end when none is |
| TextboxLogic.PlaceCursor | mygameui/controls/textbox.py:164-172 | the placement loop computes `CursorAt` |
| TextboxLogic.CursorMonotone | mygameui/controls/textbox.py:163-172 | with widths that grow with the prefix, a click further right never puts the cursor further left |
| TextboxLogic.CursorEnds | mygameui/controls/textbox.py:163-172 | a click at or left of the text's start puts the cursor at 0; a click past the whole text puts it at the end |
| TextboxLogic.Click | mygameui/controls/textbox.py:161-172 | a click places the cursor within the shown text and shows it; nothing else changes |
| TextboxLogic.TypeEvent | mygameui/controls/textbox.py:160-180 | only a press while hovered or a key while active does anything; the text changes only on a key while active, and then it fires |
| TextboxLogic.TypeEvents | mygameui/controls/textbox.py:160-180 | the loop keeps the box consistent and fires at most once per event |
| TextboxLogic.TypeEventsAppend | mygameui/controls/textbox.py:160-180 | two batches of events give what one does |
| TextboxLogic.InactiveKeepsText | mygameui/controls/textbox.py:173 | an inactive box keeps its text and fires nothing |
| TextboxLogic.TypingSplices | mygameui/controls/textbox.py:178-180 | typing a string into an active box splices it in at the cursor, moves the cursor past it and fires once per character |
| TextboxLogic.BackspacesDelete | mygameui/controls/textbox.py:174-177 | n backspaces with the cursor at least n into the text delete the n characters before it and fire n times |
| TextboxLogic.TypeThenEraseRestores | mygameui/controls/textbox.py:173-180 | typing a string and erasing it with as many backspaces gives the box back, after two calls per character |
| TextboxLogic.Blink | mygameui/controls/textbox.py:182-186 | only the cursor flag and the flip time change, only while active and 500 ticks on, and then the cursor flips |
| TextboxLogic.BlinkSpacing | mygameui/controls/textbox.py:182-186 | the cursor flips at most once per 500 ticks |
| TextInput.Typing | mygameui/controls/textbox.py:160-180 | the editing loop on a control keeps its box consistent |
| TextInput.EditedNode | mygameui/controls/textbox.py:157-186 | editing changes only the box of the control, and keeps it consistent |
| TextInput.TextCalls | mygameui/controls/textbox.py:66 | one changed-text call per change, and none without a handler |
| TextInput.Edited | mygameui/controls/textbox.py:157-186 | editing keeps the lists, links and ids |
| TextInput.EditedCoherent | mygameui/controls/textbox.py:157-186 | editing keeps the tree coherent |
| TextInput.TextboxUpdatedKept | mygameui/controls/textbox.py:157-186 | the text box update keeps the tree coherent and changes nothing outside the box but the activation flags and list order above it |
| TextInput.StepKeepsActive | mygameui/controls/control.py:318-329 | an event other than a press leaves the control's active flag alone |
| TextInput.NoPressKeepsActive | mygameui/controls/control.py:318-329 | without a press among the events the active flag stays |
| TextInput.InactiveEditKeepsText | mygameui/controls/textbox.py:173 | an inactive box keeps its text through editing and blinking and makes no changed-text call |
| TextInput.InactiveTextboxKeepsText | mygameui/controls/textbox.py:157-186 | an inactive box given no press keeps its text, and only the base update's calls are logged |
| TextInput.TypeLoop | mygameui/controls/textbox.py:160-180 | the loop as the code runs it computes `TypeEvents` and logs one changed-text call per change when notifying |
| TextInput.Edit | mygameui/controls/textbox.py:160-186 | editing then blinking computes `EditedNode` and logs `TextCalls` |
| TextInput.TextboxUpdate | mygameui/controls/textbox.py:157-186 | `Textbox.update` as the code runs it computes `TextboxUpdated` |
| Updates.OthersCleared | mygameui/controls/form.py:172-174 | the reset loop changes only states |
| Updates.ResetOthers | mygameui/controls/form.py:172-174 | the reset loop as the code runs it computes `OthersCleared` |
| Updates.OthersClearedKept | mygameui/controls/form.py:172-174 | resetting the other children keeps the tree coherent and changes nothing outside the form's subtree |
| Updates.Updated | mygameui/controls/form.py:153-176 | `update` for any kind of control keeps the tree coherent and changes nothing outside the control's subtree but the activation flags and list order above it |
| Updates.FormUpdated | mygameui/controls/form.py:153-176 | `Form.update` keeps the tree coherent and changes nothing outside the form's subtree but what any update may change above it |
| Updates.ScanFrom | mygameui/controls/form.py:169-176 | the scan, in which each child runs its own update on the tree the scan reached, keeps the tree coherent and changes nothing outside the form's subtree but what any update may change above it |
| Updates.DragIfMovableKept | mygameui/controls/form.py:157-167 | the drag keeps the tree coherent, changes nothing outside the form's subtree and moves the form as `DragAll` says, and only when it is movable |
| Updates.ScanFromScanned | mygameui/controls/form.py:169-176 | after the scan, the child where it stopped holds the pointer and every child scanned before it does not; once it stopped, every other child's subtree is neither hovered nor active, and the children it never reached are as they were apart from those flags |
| Updates.FormUpdatedDispatched | mygameui/controls/form.py:153-176 | an invisible form is left alone; a visible one drags as `DragAll` says when movable, and its children are then scanned as `ScanFromScanned` says |
| Updates.ScanFromStep | mygameui/controls/form.py:169-176 | one step of the scan: the front child runs its own update; a hit there ends the scan with the others reset, and a miss goes on with the children behind it in the tree that update left |
| Updates.Update | mygameui/controls/form.py:153-176 | `update` as the code runs it computes `Updated` |
| Updates.FormUpdate | mygameui/controls/form.py:153-176 | `Form.update` as the code runs it computes `FormUpdated` |
| Updates.DragIfMovable | mygameui/controls/form.py:157-167 | only a movable form drags, as `Dragged` says, and the tree stays coherent |
| Updates.ScannedNone | mygameui/controls/form.py:169-176 | an empty scan changes nothing |
| Updates.ScannedHit | mygameui/controls/form.py:171-176 | a child under the pointer after its update ends the scan once the others are reset |
| Updates.ScannedMiss | mygameui/controls/form.py:169-171 | a child away from the pointer lets the scan go on to the children behind it |
| Updates.DispatchFrom | mygameui/controls/form.py:169-176 | the scan as the code runs it computes `ScanFrom`, both the tree and the child where it stopped |
| Controls.Gui.constructor | mygameui/controls/control.py:32-45 | no control yet |
| Controls.Gui.NewControl | mygameui/controls/control.py:32-45 | a new plain control under the next id |
| Controls.Gui.NewButton | mygameui/controls/button.py:22-29 | a button under the next id when its theme can be cut, otherwise nothing changes |
| Controls.Gui.NewCheckBox | mygameui/controls/checkbox.py:7-18 | a 16 x 16 check box under the next id |
| Controls.Gui.NewTextbox | mygameui/controls/textbox.py:27-43 | a text box under the next id when its theme can be cut, otherwise nothing changes |
| Controls.Gui.NewForm | mygameui/controls/form.py:28-38 | a form, with its close button when closable, when its chrome can be laid out, otherwise nothing changes |
| Controls.Gui.AddControl | mygameui/controls/control.py:259-267 | the control becomes the last child, after the existing ones, with its parent set |
| Controls.Gui.Assign | mygameui/controls/control.py:81-127 | the rectangle setters, as `Setters.Assign` |
| Controls.Gui.SetVisible | mygameui/controls/control.py:143-153 | the `visible` setter |
| Controls.Gui.Bind | mygameui/controls/control.py:184-202 | the callback binders |
| Controls.Gui.SetActive | mygameui/controls/control.py:157-182 | `set_active`, as `Activated` or `Deactivated` |
| Controls.Gui.Reset | mygameui/controls/control.py:281-289 | `reset`, as `Cleared` |
| Controls.Gui.MoveIp | mygameui/controls/control.py:269-279 | `move_ip`, as `Shifted` |
| Controls.Gui.SetValue | mygameui/controls/checkbox.py:26-30 | the check box `value` setter |
| Controls.Gui.SetText | mygameui/controls/textbox.py:57-66 | the `text` setter |
| Controls.Gui.SetPassword | mygameui/controls/textbox.py:78-85 | the `is_password` setter |
| Controls.Gui.SetClosable | mygameui/controls/form.py:46-57 | the `closable` setter |
| Controls.Gui.Update | mygameui/controls/form.py:153-176 | `update` on any control gives the tree `Updates.Updated` says, keeps it coherent, and changes nothing outside the control's subtree but the activation flags and list order above it |
| Legacy.NewWidget | mygameui/controls.py:9-27 | a new control is drawn at its own rectangle, not hovered or clicked, visible, without parent or callback |
| Legacy.Assigned | mygameui/controls.py:51-97 | one property takes the value and the others keep theirs; the render rectangle has the new size and sits at the rectangle, offset by the parent's origin when there is a parent |
| Legacy.Hover | mygameui/controls.py:175-183 | hovered becomes whether the render rectangle holds the pointer; leaving hover clears clicked |
| Legacy.HandleAll | mygameui/controls.py:185-194 | the event loop changes only clicked, and calls nothing without a callback |
| Legacy.Updated | mygameui/controls.py:165-194 | `update` changes only hovered and clicked |
| Legacy.InvisibleIgnored | mygameui/controls.py:172-173 | an invisible control changes nothing and calls nothing |
| Legacy.NotHoveredIgnoresEvents | mygameui/controls.py:179-185 | away from the pointer the events are not read: only hover changes and nothing is called |
| Legacy.PressOnlyClicks | mygameui/controls.py:187-190 | a press under the pointer sets clicked and nothing else: this generation has no activation and no mouse-down call |
| Legacy.ClickFiresOnce | mygameui/controls.py:185-194 | a press then a release under the pointer calls the mouse-up callback once when bound and leaves the control unclicked; a release alone calls nothing |
| Legacy.UpdateControl | mygameui/controls.py:165-194 | `update` as the code runs it computes `Updated` |
| Legacy.Reset | mygameui/controls.py:156-157 | `reset` clears hovered only |
| Legacy.Front | mygameui/controls.py:213-221 | the scan stops at the last child whose local rectangle holds the pointer, and at none when no child's does |
| Legacy.Fires | mygameui/controls.py:213-215 | every call logged by the scan comes from a child it updated |
| Legacy.UpdatedFrom | mygameui/controls.py:213-215 | the children from position i on are updated and the others unchanged |
| Legacy.FrontIgnoresVisibility | mygameui/controls.py:216 | the hit test reads neither visibility nor the render rectangle, so an invisible child still stops the scan |
| Legacy.DispatchStops | mygameui/controls.py:213-221 | after a stop at child k only k can be hovered, the children before k were never updated, and every call came from k or a child after it |
| Legacy.DispatchMisses | mygameui/controls.py:213-221 | with no child under the pointer every child is updated and none is reset |
| Legacy.ResetOthers | mygameui/controls.py:217-219 | every child but k is reset |
| Legacy.Scan | mygameui/controls.py:213-221 | the scan as the code runs it computes `Dispatched` |
| Legacy.Visit | mygameui/controls.py:214-216 | one step of the scan updates the child, logs its calls and reports whether its local rectangle holds the pointer |
| Legacy.StopAt | mygameui/controls.py:216-221 | ending the scan at a hit gives `Dispatched` |
| Legacy.ButtonPaint | mygameui/controls.py:251-279 | nothing exactly when invisible, otherwise a fill at the render rectangle |
| Legacy.PaintAgreesWithNewer | mygameui/controls.py:264-278 | with all three images the choice is the newer button's |
| Legacy.PaintFallback | mygameui/controls.py:264-279 | without images, black exactly when hovered and clicked, white exactly when hovered and not clicked, grey exactly when not hovered |
| Legacy.WidgetPaint | mygameui/controls.py:159-163 | only a visible button paints, at its render rectangle |
| Legacy.Window.constructor | mygameui/controls.py:196-203 | no child; the caption and the two flags are stored |
| Legacy.Window.AddControl | mygameui/controls.py:205-207 | the child is appended with its parent set and drawn against the window |
| Legacy.Window.AssignChild | mygameui/controls.py:51-97 | a rectangle setter on a child |
| Legacy.Window.SetChildVisible | mygameui/controls.py:113-123 | the `visible` setter on a child |
| Legacy.Window.BindChildMouseUp | mygameui/controls.py:127-135 | `set_on_mouse_up` on a child |
| Legacy.Window.Update | mygameui/controls.py:213-221 | the children and the log become those of `Dispatched` |
| Legacy.Window.Draw | mygameui/controls.py:209-211 | each child is painted in list order |

## Left out

- Pixels, fonts and pygame surfaces are not modelled. A theme image is described by the cells and tiles cut from it, a text by the width function passed in, a draw by a description of what is blitted where.
- The pointer position, the tick count and the font's width function are parameters of the calls that read them.
- The controls are values in an arena keyed by id, so two Python references to one control are two uses of one id. Aliasing between distinct objects does not arise.
- `Control.update` and `Textbox.update` are given the whole event list, but the base class reads its argument as one event (`event.type`), which raises an error on a list. The model hands the base update the events one at a time, in order.
- `Controls.Gui.AddControl` requires a control without a parent that is not above the new parent. The source neither checks nor handles a second parent or a cycle; the tree invariant would break there.
- The `parent` setter is modelled only through `add_control`, the one place the library calls it.
- `_call_actived` and `_on_actived`: no binder sets `_on_actived`, so activation never calls anything.
- A theme too small for the requested size (pygame raises on a negative scale) is modelled as a constructor that returns `None` and creates nothing.
- `set_surface_theme` and `set_surface_image` called again after construction are not modelled. Neither is `Label` (`mygameui/controls/label.py`), which is not part of this model.
- The rectangle setters recompute only the control's own render rectangle. `move_ip` and the drag recompute the control's and its direct children's. Grandchildren keep their old render rectangles, as in the source.
- `Form.update` tests the child's local rectangle against the screen pointer, as written. `Nodes.HitRelativeToParent` states how far that test is from the render rectangle's.
- `Textbox._update_render_rect` is modelled only for the alignment the constructor fixes, `('left', 8)`. The other alignments and the text's vertical position are not modelled.
- The text position of a text box (`Widgets.TextInset`) is always 8 pixels right of the render rectangle. In the source that position exists only once `_update_render_rect` has run (mygameui/controls/textbox.py:122-127), which the constructor does not call; drawing or clicking a text box before a rectangle setter, `move_ip` or `add_control` raises an error there, and the model does not capture that failure.
- Legacy.Window: nested windows and the window's own flags and setters are not modelled (the legacy generation has no `move_ip`). Its children are held by value, so a setter on a child reached through the window is a method of the window.
- The `closable` and `movable` arguments of the legacy window are stored and never read, as in the source.

=== FILE: activation.dfy ===
/** `set_active`, `reset` and `move_ip` of `Control`: walks over the
    control tree that change the flags, the paint order and the render
    rectangles. Each walk is a method over the tree value, proved against a
    declarative description of the state it leaves. */
module Activation {
  import opened Geometry
  import opened Optional
  import opened Nodes
  import opened ControlTree
  import Forest

  // -----------------------------------------------------------------------
  // What the walks leave

  /** `set_active(False)` on `x`: `x` and every control below it are
      inactive; nothing else changes. */
  ghost function Deactivated(t: Tree, depth: map<Id, nat>, x: Id): (r: Tree)
    ensures r.nodes.Keys == t.nodes.Keys && r.controls == t.controls
    ensures r.parent == t.parent && r.nextId == t.nextId && r.log == t.log
  {
    t.(nodes := map y | y in t.nodes :: if Under(t, depth, y, x) then t.nodes[y].(active := false) else t.nodes[y])
  }

  /** The loop `for control in self._controls: control.set_active(False)`:
      every control strictly below `x` is inactive; `x` itself is left. */
  ghost function BelowDeactivated(t: Tree, depth: map<Id, nat>, x: Id): (r: Tree)
    ensures r.nodes.Keys == t.nodes.Keys && r.controls == t.controls
    ensures r.parent == t.parent && r.nextId == t.nextId && r.log == t.log
  {
    t.(nodes := BelowOff(t.nodes, t.parent, depth, x))
  }

  /** The states of `BelowDeactivated`, from the states and the parent links
      alone. */
  ghost function BelowOff(ns: map<Id, Node>, parent: map<Id, Id>, depth: map<Id, nat>, x: Id): (r: map<Id, Node>)
    ensures r.Keys == ns.Keys
  {
    map y | y in ns :: if y != x && Forest.Within(parent, depth, y, x) then ns[y].(active := false) else ns[y]
  }

  /** `reset()` on `x`: `x` and every control below it are neither hovered
      nor active; `clicked` is left as it was. */
  ghost function Cleared(t: Tree, depth: map<Id, nat>, x: Id): (r: Tree)
    ensures r.nodes.Keys == t.nodes.Keys && r.controls == t.controls
    ensures r.parent == t.parent && r.nextId == t.nextId && r.log == t.log
  {
    t.(nodes := map y | y in t.nodes ::
         if Under(t, depth, y, x) then t.nodes[y].(hovered := false, active := false) else t.nodes[y])
  }

  /** `move_ip((dx, dy))` on `x`: `x` moves and is drawn against its
      parent's rectangle as before; each child of `x` is drawn against the
      moved rectangle; nothing else changes. */
  ghost function Shifted(t: Tree, x: Id, dx: int, dy: int): (r: Tree)
    requires x in t.nodes && (x in t.parent ==> t.parent[x] in t.nodes)
    ensures r.nodes.Keys == t.nodes.Keys && r.controls == t.controls
    ensures r.parent == t.parent && r.nextId == t.nextId && r.log == t.log
  {
    var m := Moved(t.nodes[x].rect, dx, dy);
    t.(nodes := map y | y in t.nodes ::
         if y == x then t.nodes[x].(rect := m, render := RenderRect(m, ParentRect(t, x)))
         else if y in t.parent && t.parent[y] == x then t.nodes[y].(render := RenderRect(t.nodes[y].rect, Some(m)))
         else t.nodes[y])
  }

  /** The `active` flag of `y` after `set_active(True)` on `x`. In the tree
      of a control with a parent, exactly `x` and the controls above it are
      active afterwards; a control without a parent only switches itself on. */
  ghost function ActiveAfter(t: Tree, depth: map<Id, nat>, x: Id, y: Id): bool
    requires Ranks(t, depth) && x in t.nodes && y in t.nodes
  {
    if x in t.parent then
      if Forest.RootOf(t.parent, depth, t.controls.Keys, y) == Forest.RootOf(t.parent, depth, t.controls.Keys, x)
      then Under(t, depth, x, y)
      else t.nodes[y].active
    else y == x || t.nodes[y].active
  }

  /** `set_active(True)` on `x`: the flags as `ActiveAfter` says, and in the
      child list of every control strictly above `x` the child towards `x`
      brought to the end, i.e. to the front of the paint order. */
  ghost function Activated(t: Tree, depth: map<Id, nat>, x: Id): (r: Tree)
    requires Ranks(t, depth) && x in t.nodes
    ensures r.nodes.Keys == t.nodes.Keys && r.controls.Keys == t.controls.Keys
    ensures r.parent == t.parent && r.nextId == t.nextId && r.log == t.log
  {
    t.(nodes := ActivatedNodes(t, depth, x), controls := ActivatedControls(t, depth, x))
  }

  /** The states of `Activated`. */
  ghost function ActivatedNodes(t: Tree, depth: map<Id, nat>, x: Id): (ns: map<Id, Node>)
    requires Ranks(t, depth) && x in t.nodes
    ensures ns.Keys == t.nodes.Keys
  {
    map y | y in t.nodes :: t.nodes[y].(active := ActiveAfter(t, depth, x, y))
  }

  /** The child lists of `Activated`. */
  ghost function ActivatedControls(t: Tree, depth: map<Id, nat>, x: Id): (cs: map<Id, seq<Id>>)
    requires Ranks(t, depth) && x in t.nodes
    ensures cs.Keys == t.controls.Keys
  {
    map a | a in t.controls ::
      if a != x && Under(t, depth, x, a)
      then Forest.MoveToEnd(t.controls[a], Forest.Branch(t.parent, depth, t.controls.Keys, x, a))
      else t.controls[a]
  }

  // -----------------------------------------------------------------------
  // The walks

  /** Two node maps with the same controls and the same state for each are
      the same. */
  lemma SameNodes(u: map<Id, Node>, v: map<Id, Node>)
    requires u.Keys == v.Keys && forall y | y in u :: u[y] == v[y]
    ensures u == v
  {
  }

  /** Replacing the entry of a key in use keeps the keys. */
  lemma KeysAfterPut<V>(m: map<Id, V>, x: Id, v: V)
    requires x in m
    ensures m[x := v].Keys == m.Keys
  {
  }

  /** What the descriptions of the walks need: the depths rank the tree,
      every control has a child list and every child is in its parent's. */
  ghost predicate Ranks(t: Tree, depth: map<Id, nat>)
  {
    && t.nodes.Keys == t.controls.Keys
    && Forest.Ranked(t.parent, depth, t.controls.Keys)
    && Forest.Listed(t.parent, t.controls)
  }

  /** `set_active(True)`: a control with a parent first activates the
      parent, switches off every child of the parent (and so everything
      below them), brings itself to the end of the parent's list, and then
      switches itself on; a control without a parent only switches itself
      on. */
  method Activate(t: Tree, ghost depth: map<Id, nat>, ghost bound: nat, x: Id) returns (r: Tree)
    requires Rooted(t, depth, bound) && x in t.nodes
    ensures r == Activated(t, depth, x)
    decreases depth[x]
  {
    if x in t.parent {
      var p := t.parent[x];
      var u := Activate(t, depth, bound, p);
      ActivatedRooted(t, depth, bound, p);
      u := DeactivateChildren(u, depth, bound, p);
      ActivateStepNodes(t, depth, x);
      ActivateStepControls(t, depth, x);
      assert u.nodes == BelowOff(ActivatedNodes(t, depth, p), t.parent, depth, p);
      r := u.(controls := u.controls[p := Forest.MoveToEnd(u.controls[p], x)],
              nodes := u.nodes[x := u.nodes[x].(active := true)]);
    } else {
      r := t.(nodes := t.nodes[x := t.nodes[x].(active := true)]);
      ActivateRoot(t, depth, bound, x);
    }
  }

  /** `set_active(False)`: first the children, recursively, then `x`. */
  method Deactivate(t: Tree, ghost depth: map<Id, nat>, ghost bound: nat, x: Id) returns (r: Tree)
    requires Rooted(t, depth, bound) && x in t.nodes
    ensures r == Deactivated(t, depth, x)
    decreases bound - depth[x], 1
  {
    var u := DeactivateChildren(t, depth, bound, x);
    r := u.(nodes := u.nodes[x := u.nodes[x].(active := false)]);
  }

  /** The loop of `set_active(False)` over the children of `x`. */
  method DeactivateChildren(t: Tree, ghost depth: map<Id, nat>, ghost bound: nat, x: Id) returns (r: Tree)
    requires Rooted(t, depth, bound) && x in t.nodes
    ensures r == BelowDeactivated(t, depth, x)
    decreases bound - depth[x], 0
  {
    var cs := t.controls[x];
    ChildrenOf(t, depth, bound, x);
    var ns := t.nodes;
    var k := 0;
    while k < |cs|
      invariant 0 <= k <= |cs|
      invariant ns == OffUpTo(t, depth, x, k)
    {
      OffStep(t, depth, x, k);
      var u := Deactivate(t.(nodes := ns), depth, bound, cs[k]);
      ns := u.nodes;
      k := k + 1;
    }
    OffAll(t, depth, bound, x);
    r := t.(nodes := ns);
  }

  /** The controls after the loop of `set_active(False)` has handled the
      first `k` children of `x`: those below one of them are inactive. */
  ghost function OffUpTo(t: Tree, depth: map<Id, nat>, x: Id, k: nat): (ns: map<Id, Node>)
    requires Ranks(t, depth) && x in t.controls && k <= |t.controls[x]|
    ensures ns.Keys == t.nodes.Keys
  {
    map y | y in t.nodes ::
      if y != x && Under(t, depth, y, x) && Forest.Branch(t.parent, depth, t.controls.Keys, y, x) in t.controls[x][..k]
      then t.nodes[y].(active := false) else t.nodes[y]
  }

  /** Switching off the next child handles one more child. */
  lemma OffStep(t: Tree, depth: map<Id, nat>, x: Id, k: nat)
    requires Ranks(t, depth) && x in t.controls && k < |t.controls[x]|
    requires t.controls[x][k] in t.parent && t.parent[t.controls[x][k]] == x && t.controls[x][k] != x
    ensures Deactivated(t.(nodes := OffUpTo(t, depth, x, k)), depth, t.controls[x][k]).nodes == OffUpTo(t, depth, x, k + 1)
  {
    var u := Deactivated(t.(nodes := OffUpTo(t, depth, x, k)), depth, t.controls[x][k]).nodes;
    var ns := OffUpTo(t, depth, x, k + 1);
    assert u.Keys == t.nodes.Keys;
    forall y | y in t.nodes ensures u[y] == ns[y] {
      OffStepAt(t, depth, x, k, y);
    }
    SameNodes(u, ns);
  }

  lemma OffStepAt(t: Tree, depth: map<Id, nat>, x: Id, k: nat, y: Id)
    requires Ranks(t, depth) && x in t.controls && k < |t.controls[x]|
    requires t.controls[x][k] in t.parent && t.parent[t.controls[x][k]] == x && t.controls[x][k] != x
    requires y in t.nodes
    ensures Deactivated(t.(nodes := OffUpTo(t, depth, x, k)), depth, t.controls[x][k]).nodes[y] == OffUpTo(t, depth, x, k + 1)[y]
  {
    Forest.InPrefixNext(t.controls[x], k);
    Forest.BelowChild(t.parent, depth, t.controls.Keys, y, x, t.controls[x][k]);
  }

  /** Once every child is handled, everything strictly below `x` is off. */
  lemma OffAll(t: Tree, depth: map<Id, nat>, bound: nat, x: Id)
    requires Rooted(t, depth, bound) && x in t.nodes
    ensures t.(nodes := OffUpTo(t, depth, x, |t.controls[x]|)) == BelowDeactivated(t, depth, x)
  {
    Forest.InPrefixAll(t.controls[x]);
    assert forall y | y in t.nodes && y != x && Under(t, depth, y, x) ::
      Forest.Branch(t.parent, depth, t.controls.Keys, y, x) in t.controls[x];
  }

  /** `reset()`: `x` first, then each child recursively. */
  method Reset(t: Tree, ghost depth: map<Id, nat>, ghost bound: nat, x: Id) returns (r: Tree)
    requires Rooted(t, depth, bound) && x in t.nodes
    ensures r == Cleared(t, depth, x)
    decreases bound - depth[x]
  {
    var cs := t.controls[x];
    ChildrenOf(t, depth, bound, x);
    var ns := t.nodes[x := t.nodes[x].(hovered := false, active := false)];
    var k := 0;
    ClearedFirst(t, depth, bound, x);
    while k < |cs|
      invariant 0 <= k <= |cs|
      invariant ns == ClearedUpTo(t, depth, x, k)
    {
      ClearedStep(t, depth, x, k);
      var u := Reset(t.(nodes := ns), depth, bound, cs[k]);
      ns := u.nodes;
      k := k + 1;
    }
    ClearedAll(t, depth, bound, x);
    r := t.(nodes := ns);
  }

  /** The controls after `reset()` on `x` has cleared `x` and the first `k`
      children of `x` with everything below them. */
  ghost function ClearedUpTo(t: Tree, depth: map<Id, nat>, x: Id, k: nat): (ns: map<Id, Node>)
    requires Ranks(t, depth) && x in t.controls && k <= |t.controls[x]|
    ensures ns.Keys == t.nodes.Keys
  {
    map y | y in t.nodes ::
      if y == x || (Under(t, depth, y, x) && Forest.Branch(t.parent, depth, t.controls.Keys, y, x) in t.controls[x][..k])
      then t.nodes[y].(hovered := false, active := false) else t.nodes[y]
  }

  /** Before the loop only `x` itself is cleared. */
  lemma ClearedFirst(t: Tree, depth: map<Id, nat>, bound: nat, x: Id)
    requires Rooted(t, depth, bound) && x in t.nodes
    ensures t.nodes[x := t.nodes[x].(hovered := false, active := false)] == ClearedUpTo(t, depth, x, 0)
  {
    SameNodes(t.nodes[x := t.nodes[x].(hovered := false, active := false)], ClearedUpTo(t, depth, x, 0));
  }

  /** Resetting the next child handles one more child. */
  lemma ClearedStep(t: Tree, depth: map<Id, nat>, x: Id, k: nat)
    requires Ranks(t, depth) && x in t.controls && k < |t.controls[x]|
    requires t.controls[x][k] in t.parent && t.parent[t.controls[x][k]] == x && t.controls[x][k] != x
    ensures Cleared(t.(nodes := ClearedUpTo(t, depth, x, k)), depth, t.controls[x][k]).nodes == ClearedUpTo(t, depth, x, k + 1)
  {
    var u := Cleared(t.(nodes := ClearedUpTo(t, depth, x, k)), depth, t.controls[x][k]).nodes;
    var ns := ClearedUpTo(t, depth, x, k + 1);
    assert u.Keys == t.nodes.Keys;
    forall y | y in t.nodes ensures u[y] == ns[y] {
      ClearedStepAt(t, depth, x, k, y);
    }
    SameNodes(u, ns);
  }

  lemma ClearedStepAt(t: Tree, depth: map<Id, nat>, x: Id, k: nat, y: Id)
    requires Ranks(t, depth) && x in t.controls && k < |t.controls[x]|
    requires t.controls[x][k] in t.parent && t.parent[t.controls[x][k]] == x && t.controls[x][k] != x
    requires y in t.nodes
    ensures Cleared(t.(nodes := ClearedUpTo(t, depth, x, k)), depth, t.controls[x][k]).nodes[y] == ClearedUpTo(t, depth, x, k + 1)[y]
  {
    Forest.InPrefixNext(t.controls[x], k);
    Forest.BelowChild(t.parent, depth, t.controls.Keys, y, x, t.controls[x][k]);
  }

  /** Once every child is handled, `x` and everything below it is cleared. */
  lemma ClearedAll(t: Tree, depth: map<Id, nat>, bound: nat, x: Id)
    requires Rooted(t, depth, bound) && x in t.nodes
    ensures t.(nodes := ClearedUpTo(t, depth, x, |t.controls[x]|)) == Cleared(t, depth, x)
  {
    Forest.InPrefixAll(t.controls[x]);
    assert forall y | y in t.nodes && y != x && Under(t, depth, y, x) ::
      Forest.Branch(t.parent, depth, t.controls.Keys, y, x) in t.controls[x];
  }

  /** `move_ip`: move `x`, recompute its render rectangle, then each
      child's. */
  method MoveIp(t: Tree, ghost depth: map<Id, nat>, ghost bound: nat, x: Id, dx: int, dy: int) returns (r: Tree)
    requires Rooted(t, depth, bound) && x in t.nodes
    ensures r == Shifted(t, x, dx, dy)
  {
    var m := Moved(t.nodes[x].rect, dx, dy);
    var cs := t.controls[x];
    ChildrenOf(t, depth, bound, x);
    var ns := t.nodes[x := t.nodes[x].(rect := m, render := RenderRect(m, ParentRect(t, x)))];
    var k := 0;
    ShiftedFirst(t, x, dx, dy);
    while k < |cs|
      invariant 0 <= k <= |cs|
      invariant ns == ShiftedUpTo(t, x, dx, dy, k)
    {
      var c := cs[k];
      ShiftedStep(t, x, dx, dy, k);
      ns := ns[c := ns[c].(render := RenderRect(ns[c].rect, Some(m)))];
      k := k + 1;
    }
    ShiftedAll(t, depth, bound, x, dx, dy);
    r := t.(nodes := ns);
  }

  /** The controls after `move_ip` has moved `x` and redrawn its first `k`
      children. */
  ghost function ShiftedUpTo(t: Tree, x: Id, dx: int, dy: int, k: nat): (ns: map<Id, Node>)
    requires x in t.nodes && x in t.controls && k <= |t.controls[x]|
    requires x in t.parent ==> t.parent[x] in t.nodes
    ensures ns.Keys == t.nodes.Keys
  {
    var m := Moved(t.nodes[x].rect, dx, dy);
    map y | y in t.nodes ::
      if y == x then t.nodes[x].(rect := m, render := RenderRect(m, ParentRect(t, x)))
      else if y in t.controls[x][..k] then t.nodes[y].(render := RenderRect(t.nodes[y].rect, Some(m)))
      else t.nodes[y]
  }

  /** Before the loop only `x` itself has moved. */
  lemma ShiftedFirst(t: Tree, x: Id, dx: int, dy: int)
    requires x in t.nodes && x in t.controls && (x in t.parent ==> t.parent[x] in t.nodes)
    ensures var m := Moved(t.nodes[x].rect, dx, dy);
      t.nodes[x := t.nodes[x].(rect := m, render := RenderRect(m, ParentRect(t, x)))] == ShiftedUpTo(t, x, dx, dy, 0)
  {
    var m := Moved(t.nodes[x].rect, dx, dy);
    SameNodes(t.nodes[x := t.nodes[x].(rect := m, render := RenderRect(m, ParentRect(t, x)))], ShiftedUpTo(t, x, dx, dy, 0));
  }

  /** Redrawing the next child handles one more child. */
  lemma ShiftedStep(t: Tree, x: Id, dx: int, dy: int, k: nat)
    requires x in t.nodes && x in t.controls && k < |t.controls[x]|
    requires x in t.parent ==> t.parent[x] in t.nodes
    requires t.controls[x][k] in t.nodes && t.controls[x][k] != x
    ensures var c := t.controls[x][k]; var ns := ShiftedUpTo(t, x, dx, dy, k);
      ns[c := ns[c].(render := RenderRect(ns[c].rect, Some(Moved(t.nodes[x].rect, dx, dy))))]
      == ShiftedUpTo(t, x, dx, dy, k + 1)
  {
    var cs := t.controls[x];
    var c := cs[k];
    var ns := ShiftedUpTo(t, x, dx, dy, k);
    var u := ns[c := ns[c].(render := RenderRect(ns[c].rect, Some(Moved(t.nodes[x].rect, dx, dy))))];
    var ns' := ShiftedUpTo(t, x, dx, dy, k + 1);
    Forest.InPrefixNext(cs, k);
    forall y | y in t.nodes ensures u[y] == ns'[y] {
    }
    SameNodes(u, ns');
  }

  /** Once every child is redrawn, the controls are as `Shifted` says. */
  lemma ShiftedAll(t: Tree, depth: map<Id, nat>, bound: nat, x: Id, dx: int, dy: int)
    requires Rooted(t, depth, bound) && x in t.nodes
    ensures x in t.parent ==> t.parent[x] in t.nodes
    ensures t.(nodes := ShiftedUpTo(t, x, dx, dy, |t.controls[x]|)) == Shifted(t, x, dx, dy)
  {
    ChildrenOf(t, depth, bound, x);
    Forest.InPrefixAll(t.controls[x]);
  }

  // -----------------------------------------------------------------------
  // Why `Activate` meets `Activated`

  /** Two child-list maps with the same controls and the same list for each
      are the same. */
  lemma SameControls(u: map<Id, seq<Id>>, v: map<Id, seq<Id>>)
    requires u.Keys == v.Keys && forall a | a in u :: u[a] == v[a]
    ensures u == v
  {
  }

  /** Reordering the lists as `Activated` does keeps the links agreeing. */
  lemma ActivatedRooted(t: Tree, depth: map<Id, nat>, bound: nat, x: Id)
    requires Rooted(t, depth, bound) && x in t.nodes
    ensures Rooted(Activated(t, depth, x), depth, bound)
  {
    var r := Activated(t, depth, x);
    forall a, y | a in r.controls ensures y in r.controls[a] <==> y in t.controls[a] {
      if a != x && Under(t, depth, x, a) {
        Forest.MoveToEndSameElements(t.controls[a], Forest.Branch(t.parent, depth, t.controls.Keys, x, a), y);
      }
    }
    Forest.ReorderLinkage(t.parent, t.controls, r.controls, depth, bound);
  }

  /** A control without a parent lies below no other control, so switching
      it on reorders nothing. */
  lemma ActivateRoot(t: Tree, depth: map<Id, nat>, bound: nat, x: Id)
    requires Rooted(t, depth, bound) && x in t.nodes && x !in t.parent
    ensures t.(nodes := t.nodes[x := t.nodes[x].(active := true)]) == Activated(t, depth, x)
  {
    ActivateRootControls(t, depth, x);
    ActivateRootNodes(t, depth, x);
  }

  lemma ActivateRootControls(t: Tree, depth: map<Id, nat>, x: Id)
    requires Ranks(t, depth) && x in t.nodes && x !in t.parent
    ensures ActivatedControls(t, depth, x) == t.controls
  {
    var cs := ActivatedControls(t, depth, x);
    forall a | a in t.controls ensures cs[a] == t.controls[a] {
      Forest.RootWithinOnlyItself(t.parent, depth, t.controls.Keys, x, a);
    }
    SameControls(cs, t.controls);
  }

  lemma ActivateRootNodes(t: Tree, depth: map<Id, nat>, x: Id)
    requires Ranks(t, depth) && x in t.nodes && x !in t.parent
    ensures ActivatedNodes(t, depth, x) == t.nodes[x := t.nodes[x].(active := true)]
  {
    KeysAfterPut(t.nodes, x, t.nodes[x].(active := true));
    SameNodes(t.nodes[x := t.nodes[x].(active := true)], ActivatedNodes(t, depth, x));
  }

  /** The flags after the steps of `Activate` for a control with a parent
      `p` are those `Activated` gives. */
  lemma ActivateStepNodes(t: Tree, depth: map<Id, nat>, x: Id)
    requires Ranks(t, depth) && x in t.nodes && x in t.parent
    ensures var w := BelowOff(ActivatedNodes(t, depth, t.parent[x]), t.parent, depth, t.parent[x]);
      x in w && w[x := w[x].(active := true)] == ActivatedNodes(t, depth, x)
  {
    var p := t.parent[x];
    var w := BelowOff(ActivatedNodes(t, depth, p), t.parent, depth, p);
    ActivateStepEach(t, depth, x);
    KeysAfterPut(w, x, w[x].(active := true));
    SameNodes(w[x := w[x].(active := true)], ActivatedNodes(t, depth, x));
  }

  lemma ActivateStepEach(t: Tree, depth: map<Id, nat>, x: Id)
    requires Ranks(t, depth) && x in t.nodes && x in t.parent
    ensures var w := BelowOff(ActivatedNodes(t, depth, t.parent[x]), t.parent, depth, t.parent[x]);
      forall y | y in t.nodes :: w[x := w[x].(active := true)][y] == ActivatedNodes(t, depth, x)[y]
  {
    var p := t.parent[x];
    var w := BelowOff(ActivatedNodes(t, depth, p), t.parent, depth, p);
    forall y | y in t.nodes ensures w[x := w[x].(active := true)][y] == ActivatedNodes(t, depth, x)[y] {
      ActivateStepAt(t, depth, x, y);
    }
  }

  lemma ActivateStepAt(t: Tree, depth: map<Id, nat>, x: Id, y: Id)
    requires Ranks(t, depth) && x in t.nodes && x in t.parent && y in t.nodes
    ensures var w := BelowOff(ActivatedNodes(t, depth, t.parent[x]), t.parent, depth, t.parent[x]);
      w[x := w[x].(active := true)][y] == ActivatedNodes(t, depth, x)[y]
  {
    ActiveAfterStep(t, depth, x, y);
  }

  /** In the flags: `x` is active after `set_active(True)` on it exactly
      when it is `x`, or it is not strictly below the parent `p` and is
      active after `set_active(True)` on `p`. */
  lemma ActiveAfterStep(t: Tree, depth: map<Id, nat>, x: Id, y: Id)
    requires Ranks(t, depth) && x in t.nodes && x in t.parent && y in t.nodes
    ensures var p := t.parent[x];
      ActiveAfter(t, depth, x, y) ==
      (y == x || (!(y != p && Under(t, depth, y, p)) && ActiveAfter(t, depth, p, y)))
  {
    var p := t.parent[x];
    var keys := t.controls.Keys;
    Forest.WithinUp(t.parent, depth, keys, x, y);
    Forest.RootOfWithin(t.parent, depth, keys, x, p);
    if y != x && y != p && Under(t, depth, y, p) {
      Forest.RootOfWithin(t.parent, depth, keys, y, p);
      if Under(t, depth, x, y) {
        Forest.OnlyChildBetween(t.parent, depth, keys, x, y);
      }
    } else if p !in t.parent && Forest.RootOf(t.parent, depth, keys, y) == p {
      assert Under(t, depth, y, p);
    }
  }

  /** The child lists after the steps of `Activate` for a control with a
      parent `p` are those `Activated` gives. */
  lemma ActivateStepControls(t: Tree, depth: map<Id, nat>, x: Id)
    requires Ranks(t, depth) && x in t.nodes && x in t.parent
    ensures var p := t.parent[x]; var cs := ActivatedControls(t, depth, p);
      && p in cs && cs[p] == t.controls[p] && x in cs[p]
      && cs[p := Forest.MoveToEnd(cs[p], x)] == ActivatedControls(t, depth, x)
  {
    var p := t.parent[x];
    var cs := ActivatedControls(t, depth, p);
    ActivateControlsEach(t, depth, x);
    KeysAfterPut(cs, p, Forest.MoveToEnd(cs[p], x));
    SameControls(cs[p := Forest.MoveToEnd(cs[p], x)], ActivatedControls(t, depth, x));
  }

  lemma ActivateControlsEach(t: Tree, depth: map<Id, nat>, x: Id)
    requires Ranks(t, depth) && x in t.nodes && x in t.parent
    ensures var p := t.parent[x]; var cs := ActivatedControls(t, depth, p);
      && p in cs && cs[p] == t.controls[p] && x in cs[p]
      && forall a | a in t.controls :: cs[p := Forest.MoveToEnd(cs[p], x)][a] == ActivatedControls(t, depth, x)[a]
  {
    var p := t.parent[x];
    var cs := ActivatedControls(t, depth, p);
    forall a | a in t.controls ensures cs[p := Forest.MoveToEnd(t.controls[p], x)][a] == ActivatedControls(t, depth, x)[a] {
      ActivateControlsAt(t, depth, x, a);
    }
  }

  lemma ActivateControlsAt(t: Tree, depth: map<Id, nat>, x: Id, a: Id)
    requires Ranks(t, depth) && x in t.nodes && x in t.parent && a in t.controls
    ensures var p := t.parent[x];
      x in t.controls[p]
      && (if a == p then Forest.MoveToEnd(t.controls[p], x) else ActivatedControls(t, depth, p)[a])
         == ActivatedControls(t, depth, x)[a]
  {
    var p := t.parent[x];
    var keys := t.controls.Keys;
    Forest.WithinUp(t.parent, depth, keys, x, a);
    if a == x {
      if Under(t, depth, p, x) {
        Forest.WithinDepth(t.parent, depth, keys, p, x);
      }
    } else if a != p && Under(t, depth, x, a) {
      Forest.BranchOfChild(t.parent, depth, keys, x, a);
    }
  }

  // -----------------------------------------------------------------------
  // What the walks keep and promise

  /** `set_active(False)` keeps the tree coherent. */
  lemma DeactivatedCoherent(t: Tree, depth: map<Id, nat>, bound: nat, x: Id)
    requires Coherent(t, depth, bound)
    ensures Coherent(Deactivated(t, depth, x), depth, bound)
  {
    FlagsCoherent(t, Deactivated(t, depth, x), depth, bound);
  }

  /** `reset()` keeps the tree coherent. */
  lemma ClearedCoherent(t: Tree, depth: map<Id, nat>, bound: nat, x: Id)
    requires Coherent(t, depth, bound)
    ensures Coherent(Cleared(t, depth, x), depth, bound)
  {
    FlagsCoherent(t, Cleared(t, depth, x), depth, bound);
  }

  /** `set_active(True)` keeps the tree coherent: the reordered lists keep
      their members and have no duplicates. */
  lemma ActivatedCoherent(t: Tree, depth: map<Id, nat>, bound: nat, x: Id)
    requires Coherent(t, depth, bound) && x in t.nodes
    ensures Coherent(Activated(t, depth, x), depth, bound)
  {
    var r := Activated(t, depth, x);
    forall a | a in r.controls ensures Forest.NoDup(r.controls[a]) {
      if a != x && Under(t, depth, x, a) {
        Forest.NoDupMoveToEnd(t.controls[a], Forest.Branch(t.parent, depth, t.controls.Keys, x, a));
      }
    }
    ActivatedRooted(t, depth, bound, x);
    FlagsCoherent(t, r, depth, bound);
  }

  /** `move_ip` keeps the tree coherent: every render rectangle keeps its
      control's size, and a control without a parent is still drawn at its
      own rectangle. */
  lemma ShiftedCoherent(t: Tree, depth: map<Id, nat>, bound: nat, x: Id, dx: int, dy: int)
    requires Coherent(t, depth, bound) && x in t.nodes
    ensures x in t.parent ==> t.parent[x] in t.nodes
    ensures Coherent(Shifted(t, x, dx, dy), depth, bound)
  {
    var r := Shifted(t, x, dx, dy);
    forall y | y in r.nodes ensures y < r.nextId && NodeOk(y, r.nodes[y], r.parent) {
      assert NodeOk(y, t.nodes[y], t.parent);
    }
  }

  /** `set_active(True)` on a control with a parent `p` brings it to the
      end of `p`'s list, i.e. to the front: the list keeps its length and
      its members, and the others keep their order. */
  lemma SetActiveBringsToFront(t: Tree, depth: map<Id, nat>, x: Id, i: nat)
    requires Ranks(t, depth) && x in t.nodes && x in t.parent && Forest.NoDup(t.controls[t.parent[x]])
    requires i < |t.controls[t.parent[x]]| && t.controls[t.parent[x]][i] == x
    ensures var s := t.controls[t.parent[x]]; var r := ActivatedControls(t, depth, x)[t.parent[x]];
      && |r| == |s| && r[|r| - 1] == x && multiset(r) == multiset(s)
      && r == s[..i] + s[i + 1..] + [x]
  {
    var p := t.parent[x];
    var s := t.controls[p];
    FrontOfParent(t, depth, x);
    Forest.MoveToEndPermutes(s, x);
    Forest.MoveToEndAt(s, i);
  }

  lemma FrontOfParent(t: Tree, depth: map<Id, nat>, x: Id)
    requires Ranks(t, depth) && x in t.nodes && x in t.parent
    ensures x in t.controls[t.parent[x]]
    ensures ActivatedControls(t, depth, x)[t.parent[x]] == Forest.MoveToEnd(t.controls[t.parent[x]], x)
  {
    var p := t.parent[x];
    Forest.WithinUp(t.parent, depth, t.controls.Keys, x, p);
    Forest.WithinDepth(t.parent, depth, t.controls.Keys, x, p);
    assert Under(t, depth, x, p) && p != x;
    assert Forest.Branch(t.parent, depth, t.controls.Keys, x, p) == x;
  }

  /** After `set_active(True)` on a control with a parent, it and every
      control above it are active. */
  lemma SetActiveAncestors(t: Tree, depth: map<Id, nat>, x: Id, a: Id)
    requires Ranks(t, depth) && x in t.nodes && x in t.parent && a in t.nodes
    requires Under(t, depth, x, a)
    ensures ActivatedNodes(t, depth, x)[a].active
  {
    Forest.RootOfWithin(t.parent, depth, t.controls.Keys, x, a);
  }

  /** After `set_active(True)` on a control with a parent, its siblings are
      inactive. */
  lemma SetActiveSiblings(t: Tree, depth: map<Id, nat>, x: Id, y: Id)
    requires Ranks(t, depth) && x in t.nodes && x in t.parent && y in t.nodes
    requires y in t.parent && t.parent[y] == t.parent[x] && y != x
    ensures !ActivatedNodes(t, depth, x)[y].active
  {
    var keys := t.controls.Keys;
    if Under(t, depth, x, y) {
      Forest.WithinDepth(t.parent, depth, keys, x, y);
    }
  }

  /** After `set_active(True)` on a control with a parent, every control
      strictly below it is inactive. */
  lemma SetActiveBelow(t: Tree, depth: map<Id, nat>, x: Id, y: Id)
    requires Ranks(t, depth) && x in t.nodes && x in t.parent && y in t.nodes
    requires Under(t, depth, y, x) && y != x
    ensures !ActivatedNodes(t, depth, x)[y].active
  {
    var keys := t.controls.Keys;
    Forest.WithinDepth(t.parent, depth, keys, y, x);
    Forest.RootOfWithin(t.parent, depth, keys, y, x);
    if Under(t, depth, x, y) {
      Forest.WithinDepth(t.parent, depth, keys, x, y);
    }
  }

  /** `set_active(True)` leaves the controls of other trees as they were. */
  lemma SetActiveOtherTrees(t: Tree, depth: map<Id, nat>, x: Id, y: Id)
    requires Ranks(t, depth) && x in t.nodes && y in t.nodes
    requires Forest.RootOf(t.parent, depth, t.controls.Keys, y) != Forest.RootOf(t.parent, depth, t.controls.Keys, x)
    ensures ActivatedNodes(t, depth, x)[y] == t.nodes[y]
  {
  }

  /** "Any previously active control is deactivated": after
      `set_active(True)` on a control with a parent, no control of its tree
      has two active children. */
  lemma SetActiveExclusive(t: Tree, depth: map<Id, nat>, x: Id, c: Id, d: Id)
    requires Ranks(t, depth) && x in t.nodes && x in t.parent
    requires c in t.nodes && d in t.nodes && c in t.parent && d in t.parent && t.parent[c] == t.parent[d]
    requires Forest.RootOf(t.parent, depth, t.controls.Keys, c) == Forest.RootOf(t.parent, depth, t.controls.Keys, x)
    requires ActivatedNodes(t, depth, x)[c].active && ActivatedNodes(t, depth, x)[d].active
    ensures c == d
  {
    var keys := t.controls.Keys;
    Forest.RootOfWithin(t.parent, depth, keys, d, t.parent[d]);
    Forest.RootOfWithin(t.parent, depth, keys, c, t.parent[c]);
    Forest.AncestorAtDepthUnique(t.parent, depth, keys, x, c, d);
  }

  /** `set_active(True)` twice on the same control is `set_active(True)`
      once. */
  lemma SetActiveTwice(t: Tree, depth: map<Id, nat>, bound: nat, x: Id)
    requires Shaped(t, depth, bound) && x in t.nodes
    ensures Rooted(Activated(t, depth, x), depth, bound)
    ensures Activated(Activated(t, depth, x), depth, x) == Activated(t, depth, x)
  {
    ActivatedRooted(t, depth, bound, x);
    TwiceNodes(t, depth, bound, x);
    TwiceControls(t, depth, bound, x);
  }

  lemma TwiceNodes(t: Tree, depth: map<Id, nat>, bound: nat, x: Id)
    requires Rooted(t, depth, bound) && x in t.nodes && Ranks(Activated(t, depth, x), depth)
    ensures ActivatedNodes(Activated(t, depth, x), depth, x) == ActivatedNodes(t, depth, x)
  {
    var r := Activated(t, depth, x);
    forall y | y in t.nodes ensures ActivatedNodes(r, depth, x)[y] == ActivatedNodes(t, depth, x)[y] {
      TwiceNodesAt(t, depth, x, y);
    }
    SameNodes(ActivatedNodes(r, depth, x), ActivatedNodes(t, depth, x));
  }

  lemma TwiceNodesAt(t: Tree, depth: map<Id, nat>, x: Id, y: Id)
    requires Ranks(t, depth) && x in t.nodes && Ranks(Activated(t, depth, x), depth) && y in t.nodes
    ensures ActivatedNodes(Activated(t, depth, x), depth, x)[y] == ActivatedNodes(t, depth, x)[y]
  {
    var r := Activated(t, depth, x);
    assert r.controls.Keys == t.controls.Keys;
    assert ActiveAfter(r, depth, x, y) == ActiveAfter(t, depth, x, y);
  }

  lemma TwiceControls(t: Tree, depth: map<Id, nat>, bound: nat, x: Id)
    requires Shaped(t, depth, bound) && x in t.nodes && Ranks(Activated(t, depth, x), depth)
    ensures ActivatedControls(Activated(t, depth, x), depth, x) == ActivatedControls(t, depth, x)
  {
    var r := Activated(t, depth, x);
    forall a | a in t.controls ensures ActivatedControls(r, depth, x)[a] == ActivatedControls(t, depth, x)[a] {
      if a != x && Under(t, depth, x, a) {
        Forest.MoveToEndTwice(t.controls[a], Forest.Branch(t.parent, depth, t.controls.Keys, x, a));
      }
    }
    SameControls(ActivatedControls(r, depth, x), ActivatedControls(t, depth, x));
  }
}

=== FILE: drag.dfy ===
/** The drag loop at the start of `Form.update`, on the control tree: a
    left press in the drag strip starts moving, a release stops it, and
    motion while moving calls `move_ip` on the form (which redraws its
    children) and moves the strip by the same amount. */
module FormDrag {
  import opened Geometry
  import opened Optional
  import opened Nodes
  import opened ControlTree
  import opened Events
  import Activation
  import FormChrome
  import Interaction
  import Forest

  /** A form whose parent, if any, is in the tree. */
  ghost predicate Draggable(t: Tree, x: Id)
  {
    x in t.nodes && t.nodes[x].kind.FormKind? && (x in t.parent ==> t.parent[x] in t.nodes)
  }

  /** Only the form itself and the render rectangles of its children
      change; the lists, the links, the ids and the log stay. */
  ghost predicate DragFrame(t: Tree, r: Tree, x: Id)
    requires x in t.nodes && t.nodes[x].kind.FormKind?
  {
    && r.nodes.Keys == t.nodes.Keys && r.controls == t.controls && r.parent == t.parent
    && r.nextId == t.nextId && r.log == t.log
    && (forall y | y in t.nodes && y != x ::
          r.nodes[y] == if y in t.parent && t.parent[y] == x then t.nodes[y].(render := r.nodes[y].render) else t.nodes[y])
    && r.nodes[x] == t.nodes[x].(rect := r.nodes[x].rect, render := r.nodes[x].render, kind := r.nodes[x].kind)
    && r.nodes[x].kind.FormKind?
    && r.nodes[x].kind == t.nodes[x].kind.(strip := r.nodes[x].kind.strip, moving := r.nodes[x].kind.moving)
  }

  /** The drag state of a form. */
  function StateOf(n: Node): FormChrome.DragState
    requires n.kind.FormKind?
  {
    FormChrome.DragState(n.kind.moving, n.rect, n.kind.strip)
  }

  /** One event of the drag loop. */
  ghost function DragOne(t: Tree, x: Id, pos: Point, e: Event): (r: Tree)
    requires Draggable(t, x)
    ensures r.nodes.Keys == t.nodes.Keys && r.controls == t.controls && r.parent == t.parent
  {
    var n := t.nodes[x];
    var k := n.kind;
    match e
    case MouseDown(b) =>
      if b == 1 && Contains(k.strip, pos) then t.(nodes := t.nodes[x := n.(kind := k.(moving := true))]) else t
    case MouseUp(_) => t.(nodes := t.nodes[x := n.(kind := k.(moving := false))])
    case MouseMotion(dx, dy) =>
      if k.moving then
        var s := Activation.Shifted(t, x, dx, dy);
        s.(nodes := s.nodes[x := s.nodes[x].(kind := k.(strip := Moved(k.strip, dx, dy)))])
      else t
    case _ => t
  }

  /** The drag loop over one frame's events. */
  ghost function Dragged(t: Tree, x: Id, pos: Point, events: seq<Event>): (r: Tree)
    requires Draggable(t, x)
    ensures Draggable(r, x) && DragFrame(t, r, x)
    decreases |events|
  {
    if events == [] then
      assert DragFrame(t, t, x);
      t
    else
      var u := DragOne(t, x, pos, events[0]);
      DragOneFrame(t, x, pos, events[0]);
      var r := Dragged(u, x, pos, events[1..]);
      DragFrameTrans(t, u, r, x);
      r
  }

  lemma DragOneFrame(t: Tree, x: Id, pos: Point, e: Event)
    requires Draggable(t, x)
    ensures Draggable(DragOne(t, x, pos, e), x) && DragFrame(t, DragOne(t, x, pos, e), x)
  {
    var n := t.nodes[x];
    var k := n.kind;
    match e
    case MouseDown(b) =>
      if b == 1 && Contains(k.strip, pos) {
        PutFrame(t, x, n.(kind := k.(moving := true)));
      } else {
        Unchanged(t.nodes, x);
        PutFrame(t, x, n);
      }
    case MouseUp(_) => PutFrame(t, x, n.(kind := k.(moving := false)));
    case MouseMotion(dx, dy) =>
      if k.moving {
        MotionFrame(t, x, dx, dy);
      } else {
        Unchanged(t.nodes, x);
        PutFrame(t, x, n);
      }
    case KeyDown(_, _) => Unchanged(t.nodes, x); PutFrame(t, x, n);
    case OtherEvent => Unchanged(t.nodes, x); PutFrame(t, x, n);
  }

  lemma PutFrame(t: Tree, x: Id, m: Node)
    requires Draggable(t, x) && m.kind.FormKind?
    requires m == t.nodes[x].(kind := m.kind)
    requires m.kind == t.nodes[x].kind.(strip := m.kind.strip, moving := m.kind.moving)
    ensures Draggable(t.(nodes := t.nodes[x := m]), x) && DragFrame(t, t.(nodes := t.nodes[x := m]), x)
  {
  }

  lemma MotionFrame(t: Tree, x: Id, dx: int, dy: int)
    requires Draggable(t, x)
    ensures var k := t.nodes[x].kind;
      var s := Activation.Shifted(t, x, dx, dy);
      var r := s.(nodes := s.nodes[x := s.nodes[x].(kind := k.(strip := Moved(k.strip, dx, dy)))]);
      Draggable(r, x) && DragFrame(t, r, x)
  {
    var k := t.nodes[x].kind;
    var s := Activation.Shifted(t, x, dx, dy);
    var r := s.(nodes := s.nodes[x := s.nodes[x].(kind := k.(strip := Moved(k.strip, dx, dy)))]);
    forall y | y in t.nodes && y != x
      ensures r.nodes[y] == if y in t.parent && t.parent[y] == x then t.nodes[y].(render := r.nodes[y].render) else t.nodes[y]
    {
      assert r.nodes[y] == s.nodes[y];
    }
  }

  lemma DragFrameTrans(t: Tree, u: Tree, r: Tree, x: Id)
    requires x in t.nodes && t.nodes[x].kind.FormKind? && DragFrame(t, u, x) && DragFrame(u, r, x)
    ensures DragFrame(t, r, x)
  {
  }

  /** The drag loop on the tree does what the drag loop on the form's drag
      state does: the same `moving` flag, form rectangle and strip. */
  lemma {:induction false} DraggedState(t: Tree, x: Id, pos: Point, events: seq<Event>)
    requires Draggable(t, x)
    ensures StateOf(Dragged(t, x, pos, events).nodes[x]) == FormChrome.DragAll(StateOf(t.nodes[x]), pos, events)
    decreases |events|
  {
    if events != [] {
      var u := DragOne(t, x, pos, events[0]);
      DragOneState(t, x, pos, events[0]);
      DraggedState(u, x, pos, events[1..]);
    }
  }

  lemma DragOneState(t: Tree, x: Id, pos: Point, e: Event)
    requires Draggable(t, x)
    ensures StateOf(DragOne(t, x, pos, e).nodes[x]) == FormChrome.DragStep(StateOf(t.nodes[x]), pos, e)
  {
    var n := t.nodes[x];
    if e.MouseMotion? && n.kind.moving {
      var s := Activation.Shifted(t, x, e.dx, e.dy);
      assert s.nodes[x].rect == Moved(n.rect, e.dx, e.dy);
    }
  }

  /** Each child of the form is drawn where it was while the form has not
      moved, and once the form has moved, against the form's final
      rectangle. */
  lemma {:induction false} DraggedChildren(t: Tree, x: Id, pos: Point, events: seq<Event>, c: Id)
    requires Draggable(t, x) && c in t.nodes && c in t.parent && t.parent[c] == x && c != x
    ensures var r := Dragged(t, x, pos, events);
      || r.nodes[c].render == RenderRect(t.nodes[c].rect, Some(r.nodes[x].rect))
      || (r.nodes[c].render == t.nodes[c].render && r.nodes[x].rect == t.nodes[x].rect)
    decreases |events|
  {
    if events != [] {
      var u := DragOne(t, x, pos, events[0]);
      DragOneFrame(t, x, pos, events[0]);
      DragOneChild(t, x, pos, events[0], c);
      DraggedChildren(u, x, pos, events[1..], c);
    }
  }

  lemma DragOneChild(t: Tree, x: Id, pos: Point, e: Event, c: Id)
    requires Draggable(t, x) && c in t.nodes && c in t.parent && t.parent[c] == x && c != x
    ensures var r := DragOne(t, x, pos, e);
      || r.nodes[c].render == RenderRect(t.nodes[c].rect, Some(r.nodes[x].rect))
      || (r.nodes[c].render == t.nodes[c].render && r.nodes[x].rect == t.nodes[x].rect)
  {
    var n := t.nodes[x];
    if e.MouseMotion? && n.kind.moving {
      var s := Activation.Shifted(t, x, e.dx, e.dy);
      assert s.nodes[x].rect == Moved(n.rect, e.dx, e.dy);
      assert s.nodes[c].render == RenderRect(t.nodes[c].rect, Some(Moved(n.rect, e.dx, e.dy)));
    }
  }

  /** Dragging keeps the tree coherent. */
  lemma {:induction false} DraggedCoherent(t: Tree, depth: map<Id, nat>, bound: nat, x: Id, pos: Point, events: seq<Event>)
    requires Coherent(t, depth, bound) && x in t.nodes && t.nodes[x].kind.FormKind?
    ensures Coherent(Dragged(t, x, pos, events), depth, bound)
    decreases |events|
  {
    if events != [] {
      DragOneFrame(t, x, pos, events[0]);
      DragOneCoherent(t, depth, bound, x, pos, events[0]);
      DraggedCoherent(DragOne(t, x, pos, events[0]), depth, bound, x, pos, events[1..]);
    }
  }

  lemma DragOneCoherent(t: Tree, depth: map<Id, nat>, bound: nat, x: Id, pos: Point, e: Event)
    requires Coherent(t, depth, bound) && x in t.nodes && t.nodes[x].kind.FormKind?
    ensures Coherent(DragOne(t, x, pos, e), depth, bound)
  {
    var n := t.nodes[x];
    var k := n.kind;
    assert NodeOk(x, n, t.parent);
    match e
    case MouseDown(b) =>
      if b == 1 && Contains(k.strip, pos) {
        PutCoherent(t, depth, bound, x, n.(kind := k.(moving := true)));
      }
    case MouseUp(_) =>
      PutCoherent(t, depth, bound, x, n.(kind := k.(moving := false)));
    case MouseMotion(dx, dy) =>
      if k.moving {
        Activation.ShiftedCoherent(t, depth, bound, x, dx, dy);
        var s := Activation.Shifted(t, x, dx, dy);
        assert NodeOk(x, s.nodes[x], s.parent);
        PutCoherent(s, depth, bound, x, s.nodes[x].(kind := k.(strip := Moved(k.strip, dx, dy))));
      }
    case _ =>
  }

  /** Dragging changes nothing outside the form's subtree. */
  lemma DraggedKept(t: Tree, depth: map<Id, nat>, bound: nat, x: Id, pos: Point, events: seq<Event>)
    requires Coherent(t, depth, bound) && x in t.nodes && t.nodes[x].kind.FormKind?
    ensures Interaction.Kept(t, Dragged(t, x, pos, events), depth, x)
  {
    var r := Dragged(t, x, pos, events);
    forall y | y in t.nodes && !Under(t, depth, y, x)
      ensures r.nodes[y] == t.nodes[y]
    {
      if y in t.parent {
        Forest.WithinUp(t.parent, depth, t.controls.Keys, y, x);
      }
    }
    assert Interaction.NodesKept(t, r, depth, x);
  }

  /** One event of the drag loop, as the code runs it. */
  method DragEvent(t: Tree, ghost depth: map<Id, nat>, ghost bound: nat, x: Id, pos: Point, e: Event)
    returns (r: Tree)
    requires Rooted(t, depth, bound) && Draggable(t, x)
    ensures r == DragOne(t, x, pos, e)
  {
    var n := t.nodes[x];
    var k := n.kind;
    r := t;
    match e {
      case MouseDown(b) =>
        if b == 1 && Contains(k.strip, pos) {
          r := t.(nodes := t.nodes[x := n.(kind := k.(moving := true))]);
        }
      case MouseUp(_) =>
        r := t.(nodes := t.nodes[x := n.(kind := k.(moving := false))]);
      case MouseMotion(dx, dy) =>
        if k.moving {
          r := Activation.MoveIp(t, depth, bound, x, dx, dy);
          r := r.(nodes := r.nodes[x := r.nodes[x].(kind := k.(strip := Moved(k.strip, dx, dy)))]);
        }
      case _ =>
    }
  }

  /** The drag loop of `Form.update`. */
  method Drag(t: Tree, ghost depth: map<Id, nat>, ghost bound: nat, x: Id, pos: Point, events: seq<Event>)
    returns (r: Tree)
    requires Rooted(t, depth, bound) && x in t.nodes && t.nodes[x].kind.FormKind?
    ensures r == Dragged(t, x, pos, events)
  {
    r := t;
    for i := 0 to |events|
      invariant r.nodes.Keys == t.nodes.Keys && r.controls == t.controls && r.parent == t.parent
      invariant Draggable(r, x)
      invariant Dragged(r, x, pos, events[i..]) == Dragged(t, x, pos, events)
    {
      assert events[i..][1..] == events[i + 1..];
      DragOneFrame(r, x, pos, events[i]);
      r := DragEvent(r, depth, bound, x, pos, events[i]);
    }
  }
}

=== FILE: events.dfy ===
/** The pygame events the controls react to, reduced to the fields they
    read: the button of a press or release, the relative motion of the
    mouse, and the key and its text for a key press. */
module Events {

  datatype Key = Backspace | OtherKey(code: int)

  datatype Event =
    | MouseDown(button: int)
    | MouseUp(button: int)
    | MouseMotion(dx: int, dy: int)
    | KeyDown(key: Key, unicode: string)
    | OtherEvent
}

=== FILE: forest.dfy ===
/** The parent/child structure of the control tree, kept apart from the
    controls' own state: a parent link per attached control, an ordered
    child list per control, and a ghost depth per control that makes the
    structure acyclic (a child is one level deeper than its parent) and
    bounds every recursion over it. */
module Forest {

  type Id = nat

  predicate NoDup(s: seq<Id>)
  {
    forall i, j | 0 <= i < j < |s| :: s[i] != s[j]
  }

  /** Depths agree with parent links: roots are at depth 0 and a child sits
      one level below its parent. */
  ghost predicate Ranked(parent: map<Id, Id>, depth: map<Id, nat>, keys: set<Id>)
  {
    && depth.Keys == keys
    && parent.Keys <= keys
    && (forall c | c in parent :: parent[c] in keys && depth[c] == depth[parent[c]] + 1)
    && (forall x | x in keys && x !in parent :: depth[x] == 0)
  }

  /** Every listed child links back to the list's owner. */
  ghost predicate Linked(parent: map<Id, Id>, controls: map<Id, seq<Id>>)
  {
    forall p, i | p in controls && 0 <= i < |controls[p]| ::
      controls[p][i] in parent && parent[controls[p][i]] == p
  }

  /** Every linked child is listed by its parent. */
  ghost predicate Listed(parent: map<Id, Id>, controls: map<Id, seq<Id>>)
  {
    forall c | c in parent :: parent[c] in controls && c in controls[parent[c]]
  }

  ghost predicate Distinct(controls: map<Id, seq<Id>>)
  {
    forall p | p in controls :: NoDup(controls[p])
  }

  /** Ranked, with depths below `bound`, and the child lists agree with the
      parent links: a child is in the list of its parent and nowhere else. */
  ghost predicate Linkage(parent: map<Id, Id>, controls: map<Id, seq<Id>>, depth: map<Id, nat>, bound: nat)
  {
    && Ranked(parent, depth, controls.Keys)
    && (forall x | x in depth :: depth[x] < bound)
    && Listed(parent, controls)
    && Linked(parent, controls)
  }

  /** A well-formed forest: the links agree and each child appears once in
      its parent's list. */
  ghost predicate Wf(parent: map<Id, Id>, controls: map<Id, seq<Id>>, depth: map<Id, nat>, bound: nat)
  {
    Linkage(parent, controls, depth, bound) && Distinct(controls)
  }

  /** The first `k + 1` elements hold what the first `k` hold and the
      element at `k`. */
  lemma InPrefixNext(s: seq<Id>, k: nat)
    requires k < |s|
    ensures forall y :: y in s[..k + 1] <==> y in s[..k] || y == s[k]
  {
    assert s[..k + 1] == s[..k] + [s[k]];
  }

  /** The whole sequence is its longest prefix. */
  lemma InPrefixAll(s: seq<Id>)
    ensures forall y :: y in s[..|s|] <==> y in s
  {
    assert s[..|s|] == s;
  }

  /** `x` is `a` or lies below it: walking up the parent links from `x`
      reaches `a`. */
  ghost predicate Within(parent: map<Id, Id>, depth: map<Id, nat>, x: Id, a: Id)
    decreases if x in depth then depth[x] else 0
  {
    x == a ||
    (x in parent && x in depth && parent[x] in depth && depth[parent[x]] < depth[x]
     && Within(parent, depth, parent[x], a))
  }

  lemma WithinUp(parent: map<Id, Id>, depth: map<Id, nat>, keys: set<Id>, x: Id, a: Id)
    requires Ranked(parent, depth, keys) && x in parent
    ensures Within(parent, depth, x, a) <==> x == a || Within(parent, depth, parent[x], a)
  {
  }

  /** Walking up only reaches shallower controls, and reaches a control of
      the same depth only by staying put. */
  lemma {:induction false} WithinDepth(parent: map<Id, Id>, depth: map<Id, nat>, keys: set<Id>, x: Id, a: Id)
    requires Ranked(parent, depth, keys) && x in keys
    requires Within(parent, depth, x, a)
    ensures a in keys && depth[a] <= depth[x]
    ensures depth[a] == depth[x] ==> x == a
    decreases depth[x]
  {
    if x != a {
      WithinDepth(parent, depth, keys, parent[x], a);
    }
  }

  /** A control has at most one ancestor at each depth: two subtrees rooted
      at the same depth (siblings in particular) are disjoint. */
  lemma {:induction false} AncestorAtDepthUnique(parent: map<Id, Id>, depth: map<Id, nat>, keys: set<Id>, x: Id, a: Id, b: Id)
    requires Ranked(parent, depth, keys) && x in keys
    requires Within(parent, depth, x, a) && Within(parent, depth, x, b)
    requires a in keys && b in keys && depth[a] == depth[b]
    ensures a == b
    decreases depth[x]
  {
    WithinDepth(parent, depth, keys, x, a);
    WithinDepth(parent, depth, keys, x, b);
    if x != a && x != b {
      AncestorAtDepthUnique(parent, depth, keys, parent[x], a, b);
    }
  }

  lemma {:induction false} WithinTrans(parent: map<Id, Id>, depth: map<Id, nat>, keys: set<Id>, x: Id, y: Id, z: Id)
    requires Ranked(parent, depth, keys) && x in keys
    requires Within(parent, depth, x, y) && Within(parent, depth, y, z)
    ensures Within(parent, depth, x, z)
    decreases depth[x]
  {
    if x != y {
      WithinTrans(parent, depth, keys, parent[x], y, z);
    }
  }

  /** A root is below no control but itself. */
  lemma RootWithinOnlyItself(parent: map<Id, Id>, depth: map<Id, nat>, keys: set<Id>, r: Id, a: Id)
    requires Ranked(parent, depth, keys) && r in keys && r !in parent
    ensures Within(parent, depth, r, a) <==> r == a
  {
  }

  /** For `y` strictly below `a`: the child of `a` whose subtree holds `y`. */
  ghost function Branch(parent: map<Id, Id>, depth: map<Id, nat>, keys: set<Id>, y: Id, a: Id): (b: Id)
    requires Ranked(parent, depth, keys) && y in keys
    requires Within(parent, depth, y, a) && y != a
    ensures b in parent && parent[b] == a && Within(parent, depth, y, b)
    decreases depth[y]
  {
    if parent[y] == a then y else Branch(parent, depth, keys, parent[y], a)
  }

  /** Being strictly below `a` is being in the subtree of one of its
      children, and that child is the branch. */
  lemma BelowChild(parent: map<Id, Id>, depth: map<Id, nat>, keys: set<Id>, y: Id, a: Id, c: Id)
    requires Ranked(parent, depth, keys) && y in keys
    requires c in parent && parent[c] == a
    ensures Within(parent, depth, y, c) <==>
              (y != a && Within(parent, depth, y, a) && Branch(parent, depth, keys, y, a) == c)
  {
    if Within(parent, depth, y, c) {
      WithinTrans(parent, depth, keys, y, c, a);
      WithinDepth(parent, depth, keys, y, c);
      var b := Branch(parent, depth, keys, y, a);
      AncestorAtDepthUnique(parent, depth, keys, y, b, c);
    }
  }

  /** The branch below `a` towards a child `x` is the branch towards its
      parent, unless the parent is `a` itself. */
  lemma BranchOfChild(parent: map<Id, Id>, depth: map<Id, nat>, keys: set<Id>, x: Id, a: Id)
    requires Ranked(parent, depth, keys) && x in parent
    requires Within(parent, depth, x, a) && x != a && parent[x] != a
    ensures Within(parent, depth, parent[x], a)
    ensures Branch(parent, depth, keys, x, a) == Branch(parent, depth, keys, parent[x], a)
  {
  }

  /** Strictly below the parent of `x` and above `x` is only `x` itself. */
  lemma {:induction false} OnlyChildBetween(parent: map<Id, Id>, depth: map<Id, nat>, keys: set<Id>, x: Id, y: Id)
    requires Ranked(parent, depth, keys) && x in parent && y in keys
    requires Within(parent, depth, y, parent[x]) && y != parent[x]
    requires Within(parent, depth, x, y)
    ensures y == x
  {
    WithinDepth(parent, depth, keys, x, y);
    WithinDepth(parent, depth, keys, y, parent[x]);
  }

  /** The root of the tree holding `x`. */
  ghost function RootOf(parent: map<Id, Id>, depth: map<Id, nat>, keys: set<Id>, x: Id): (r: Id)
    requires Ranked(parent, depth, keys) && x in keys
    ensures r in keys && r !in parent && Within(parent, depth, x, r)
    decreases depth[x]
  {
    if x in parent then RootOf(parent, depth, keys, parent[x]) else x
  }

  /** A control and everything above it share one root. */
  lemma {:induction false} RootOfWithin(parent: map<Id, Id>, depth: map<Id, nat>, keys: set<Id>, x: Id, a: Id)
    requires Ranked(parent, depth, keys) && x in keys
    requires Within(parent, depth, x, a)
    ensures a in keys && RootOf(parent, depth, keys, x) == RootOf(parent, depth, keys, a)
    decreases depth[x]
  {
    WithinDepth(parent, depth, keys, x, a);
    if x != a {
      RootOfWithin(parent, depth, keys, parent[x], a);
    }
  }

  /** Python's `list.remove(x)`: drops the first occurrence of `x`. */
  function RemoveFirst(s: seq<Id>, x: Id): (r: seq<Id>)
    requires x in s
    ensures |r| == |s| - 1
  {
    assert s == [s[0]] + s[1..];
    if s[0] == x then s[1..] else [s[0]] + RemoveFirst(s[1..], x)
  }

  /** Removing the first occurrence of `x` takes exactly one copy of `x`
      out and keeps every other element. */
  lemma {:induction false} RemoveFirstCount(s: seq<Id>, x: Id)
    requires x in s
    ensures multiset(RemoveFirst(s, x)) == multiset(s) - multiset{x}
  {
    assert s == [s[0]] + s[1..];
    if s[0] != x {
      RemoveFirstCount(s[1..], x);
    }
  }

  /** `remove(x)` then `append(x)`: bring `x` to the front of the paint order. */
  function MoveToEnd(s: seq<Id>, x: Id): (r: seq<Id>)
    requires x in s
  {
    RemoveFirst(s, x) + [x]
  }

  /** Bringing to the front keeps the length and the elements, and puts `x`
      last. */
  lemma MoveToEndPermutes(s: seq<Id>, x: Id)
    requires x in s
    ensures |MoveToEnd(s, x)| == |s|
    ensures MoveToEnd(s, x)[|s| - 1] == x
    ensures multiset(MoveToEnd(s, x)) == multiset(s)
  {
    RemoveFirstCount(s, x);
    assert multiset(MoveToEnd(s, x)) == multiset(RemoveFirst(s, x)) + multiset{x};
  }

  /** Without duplicates, the others keep their relative order: removing the
      first occurrence of `x` is cutting it out at its index. */
  lemma {:induction false} RemoveFirstAt(s: seq<Id>, x: Id, i: nat)
    requires i < |s| && s[i] == x && x !in s[..i]
    ensures RemoveFirst(s, x) == s[..i] + s[i + 1..]
  {
    if i == 0 {
      assert s[..0] + s[1..] == s[1..];
    } else {
      var t := s[1..];
      assert s[0] in s[..i];
      assert t[..i - 1] == s[1..i];
      assert t[i - 1] == x;
      RemoveFirstAt(t, x, i - 1);
      assert t[i..] == s[i + 1..];
      calc {
        RemoveFirst(s, x);
        [s[0]] + RemoveFirst(t, x);
        [s[0]] + (s[1..i] + s[i + 1..]);
        { assert [s[0]] + s[1..i] == s[..i]; }
        s[..i] + s[i + 1..];
      }
    }
  }

  /** Without duplicates, bringing `s[i]` to the end cuts it out at `i`; the
      elements before `i` keep their places. */
  lemma MoveToEndAt(s: seq<Id>, i: nat)
    requires NoDup(s) && i < |s|
    ensures MoveToEnd(s, s[i]) == s[..i] + s[i + 1..] + [s[i]]
    ensures MoveToEnd(s, s[i])[..i] == s[..i]
  {
    assert s[i] !in s[..i];
    RemoveFirstAt(s, s[i], i);
  }

  /** Bringing an element to the end keeps a list free of duplicates. */
  lemma NoDupMoveToEnd(s: seq<Id>, x: Id)
    requires x in s && NoDup(s)
    ensures NoDup(MoveToEnd(s, x))
  {
    var i :| 0 <= i < |s| && s[i] == x;
    MoveToEndAt(s, i);
    var r := MoveToEnd(s, x);
    forall a, b | 0 <= a < b < |r| ensures r[a] != r[b] {
      var ia := MovedFrom(s, i, a);
      var ib := MovedFrom(s, i, b);
      assert ia != ib;
    }
  }

  /** Where the element at `k` after bringing `s[i]` to the end came from;
      distinct places come from distinct places. */
  lemma MovedFrom(s: seq<Id>, i: nat, k: nat) returns (j: nat)
    requires i < |s| && k < |s|
    ensures j < |s| && (s[..i] + s[i + 1..] + [s[i]])[k] == s[j]
    ensures j == if k < i then k else if k < |s| - 1 then k + 1 else i
  {
    j := if k < i then k else if k < |s| - 1 then k + 1 else i;
  }

  /** Bringing an element to the end twice is bringing it once. */
  lemma MoveToEndTwice(s: seq<Id>, x: Id)
    requires NoDup(s) && x in s
    ensures x in MoveToEnd(s, x) && MoveToEnd(MoveToEnd(s, x), x) == MoveToEnd(s, x)
  {
    var r := MoveToEnd(s, x);
    MoveToEndPermutes(s, x);
    NoDupMoveToEnd(s, x);
    MoveToEndAt(r, |r| - 1);
    assert r[..|r| - 1] + r[|r|..] + [r[|r| - 1]] == r;
  }

  /** Bringing an element to the end neither adds nor loses elements. */
  lemma MoveToEndSameElements(s: seq<Id>, x: Id, y: Id)
    requires x in s
    ensures y in MoveToEnd(s, x) <==> y in s
  {
    MoveToEndPermutes(s, x);
    assert y in MoveToEnd(s, x) <==> y in multiset(MoveToEnd(s, x));
  }

  /** Reordering child lists, each keeping exactly its members, keeps the
      links agreeing. */
  lemma ReorderLinkage(parent: map<Id, Id>, controls: map<Id, seq<Id>>, controls': map<Id, seq<Id>>, depth: map<Id, nat>, bound: nat)
    requires Linkage(parent, controls, depth, bound) && controls'.Keys == controls.Keys
    requires forall a, y | a in controls' :: y in controls'[a] <==> y in controls[a]
    ensures Linkage(parent, controls', depth, bound)
  {
    forall q, i | q in controls' && 0 <= i < |controls'[q]|
      ensures controls'[q][i] in parent && parent[controls'[q][i]] == q
    {
      var y := controls'[q][i];
      assert y in controls[q];
    }
  }

  /** Reordering child lists, each keeping exactly its members and having
      no duplicates, keeps the forest well formed. */
  lemma ReorderWf(parent: map<Id, Id>, controls: map<Id, seq<Id>>, controls': map<Id, seq<Id>>, depth: map<Id, nat>, bound: nat)
    requires Wf(parent, controls, depth, bound) && controls'.Keys == controls.Keys
    requires forall a | a in controls' :: NoDup(controls'[a])
    requires forall a, y | a in controls' :: y in controls'[a] <==> y in controls[a]
    ensures Wf(parent, controls', depth, bound)
  {
    ReorderLinkage(parent, controls, controls', depth, bound);
  }

  /** A new control joins as a root of its own, with no children. */
  lemma AddRootWf(parent: map<Id, Id>, controls: map<Id, seq<Id>>, depth: map<Id, nat>, bound: nat, id: Id)
    requires Wf(parent, controls, depth, bound) && id !in controls
    ensures Wf(parent, controls[id := []], depth[id := 0], bound + 1)
  {
    var controls' := controls[id := []];
    forall c | c in parent ensures parent[c] in controls' && c in controls'[parent[c]] {
      assert parent[c] != id;
    }
  }

  /** Nothing but a control itself lies below a control without children. */
  lemma {:induction false} LeafOnlyItself(parent: map<Id, Id>, controls: map<Id, seq<Id>>, depth: map<Id, nat>, bound: nat, x: Id, a: Id)
    requires Wf(parent, controls, depth, bound) && x in controls
    requires a in controls && controls[a] == [] && Within(parent, depth, x, a)
    ensures x == a
    decreases depth[x]
  {
    if x != a {
      assert x in controls[parent[x]];
      LeafOnlyItself(parent, controls, depth, bound, parent[x], a);
    }
  }

  /** The depths after hanging the tree rooted at `c` under `p`: that tree
      moves down by `depth[p] + 1`, everything else stays. */
  ghost function AttachedDepth(parent: map<Id, Id>, depth: map<Id, nat>, p: Id, c: Id): map<Id, nat>
    requires p in depth
  {
    map x | x in depth :: if Within(parent, depth, x, c) then depth[x] + depth[p] + 1 else depth[x]
  }

  lemma RankedAfterAttach(parent: map<Id, Id>, depth: map<Id, nat>, keys: set<Id>, p: Id, c: Id)
    requires Ranked(parent, depth, keys)
    requires p in keys && c in keys && c !in parent
    requires !Within(parent, depth, p, c)
    ensures Ranked(parent[c := p], AttachedDepth(parent, depth, p, c), keys)
  {
    var parent' := parent[c := p];
    var depth' := AttachedDepth(parent, depth, p, c);
    assert depth'.Keys == keys;
    forall x | x in parent' ensures parent'[x] in keys && depth'[x] == depth'[parent'[x]] + 1 {
      if x != c {
        WithinUp(parent, depth, keys, x, c);
      } else {
        RootWithinOnlyItself(parent, depth, keys, c, c);
      }
    }
    forall x | x in keys && x !in parent' ensures depth'[x] == 0 {
      RootWithinOnlyItself(parent, depth, keys, x, c);
    }
  }

  lemma LinkedAfterAttach(parent: map<Id, Id>, controls: map<Id, seq<Id>>, p: Id, c: Id)
    requires Linked(parent, controls)
    requires p in controls && c !in parent
    ensures Linked(parent[c := p], controls[p := controls[p] + [c]])
  {
    var parent' := parent[c := p];
    var controls' := controls[p := controls[p] + [c]];
    forall q, i | q in controls' && 0 <= i < |controls'[q]|
      ensures controls'[q][i] in parent' && parent'[controls'[q][i]] == q
    {
      if q == p && i == |controls[p]| {
      } else {
        assert controls'[q][i] == controls[q][i];
      }
    }
  }

  lemma ListedAfterAttach(parent: map<Id, Id>, controls: map<Id, seq<Id>>, p: Id, c: Id)
    requires Listed(parent, controls)
    requires p in controls
    ensures Listed(parent[c := p], controls[p := controls[p] + [c]])
  {
    var parent' := parent[c := p];
    var controls' := controls[p := controls[p] + [c]];
    forall x | x in parent' ensures parent'[x] in controls' && x in controls'[parent'[x]] {
      if x != c && parent[x] == p {
        assert x in controls[p];
      }
    }
  }

  lemma DistinctAfterAttach(parent: map<Id, Id>, controls: map<Id, seq<Id>>, p: Id, c: Id)
    requires Linked(parent, controls) && Distinct(controls)
    requires p in controls && c !in parent
    ensures Distinct(controls[p := controls[p] + [c]])
  {
    var s := controls[p] + [c];
    forall i, j | 0 <= i < j < |s| ensures s[i] != s[j] {
      assert s[i] == controls[p][i];
      if j < |s| - 1 {
        assert s[j] == controls[p][j];
      }
    }
  }

  /** `add_control`: appending a parentless control `c` that is not above `p`
      to `p`'s children and linking it to `p` keeps the forest well formed,
      with `c`'s tree moved down under `p`. */
  lemma AttachWf(parent: map<Id, Id>, controls: map<Id, seq<Id>>, depth: map<Id, nat>, bound: nat, p: Id, c: Id)
    requires Wf(parent, controls, depth, bound)
    requires p in controls && c in controls && c !in parent
    requires !Within(parent, depth, p, c)
    ensures Wf(parent[c := p], controls[p := controls[p] + [c]],
               AttachedDepth(parent, depth, p, c), bound + depth[p] + 1)
  {
    assert controls[p := controls[p] + [c]].Keys == controls.Keys;
    RankedAfterAttach(parent, depth, controls.Keys, p, c);
    LinkedAfterAttach(parent, controls, p, c);
    ListedAfterAttach(parent, controls, p, c);
    DistinctAfterAttach(parent, controls, p, c);
  }
}

=== FILE: form_chrome.dfy ===
/** The pure parts of `Form`: the nine-patch chrome laid out from the 16-px
    cells of the theme atlas, the drag-move state machine on the title
    strip, and the order in which a form paints. */
module FormChrome {
  import opened Geometry
  import opened Optional
  import opened Events
  import NineSlice

  /** Cell size of the theme atlas and height of the drag strip. */
  const Cell := 16

  /** The nine chrome blits of a `width` x `height` form; the top row comes
      from atlas x offsets 48/64/80 for a movable form and 0/16/32 for a
      fixed one. `None` where pygame refuses: a stretched piece of negative
      size, i.e. a form narrower or lower than two cells. */
  function ChromeTiles(width: int, height: int, movable: bool): (r: Option<seq<NineSlice.Tile>>)
    ensures r.Some? <==> width >= 2 * Cell && height >= 2 * Cell
    ensures r.Some? ==> |r.value| == 9
  {
    if width - 2 * Cell < 0 || height - 2 * Cell < 0 then None
    else
      var g := NineSlice.Grid(Point(0, 0), Cell, Cell, Cell, Cell, Cell, width, height);
      var top := if movable then 48 else 0;
      Some([ g[0].(src := Rect(top, 0, Cell, Cell)),
             g[1].(src := Rect(top + Cell, 0, Cell, Cell)),
             g[2].(src := Rect(top + 2 * Cell, 0, Cell, Cell)) ] + g[3..])
  }

  /** The chrome is laid out like the generic nine-slice of a 48 x 48
      source: same destinations and stretch sizes, blit for blit (only the
      top row's atlas cells move with `movable`). */
  lemma ChromeIsNineSlice(width: int, height: int, movable: bool)
    requires ChromeTiles(width, height, movable).Some?
    ensures var c := ChromeTiles(width, height, movable).value;
      var n := NineSlice.GenerateSurfaceByRect(48, 48, width, height);
      && n.Some?
      && forall i | 0 <= i < 9 :: c[i].dst == n.value.tiles[i].dst && c[i].stretch == n.value.tiles[i].stretch
  {
    var c := ChromeTiles(width, height, movable).value;
    var n := NineSlice.GenerateSurfaceByRect(48, 48, width, height).value;
    forall i | 0 <= i < 9 ensures c[i].dst == n.tiles[i].dst && c[i].stretch == n.tiles[i].stretch {
      if i >= 3 {
        assert c[i] == NineSlice.Grid(Point(0, 0), Cell, Cell, Cell, Cell, Cell, width, height)[i];
      }
    }
  }

  /** Corners at x = 0 and x = width - 16, y = 0 and y = height - 16; edges
      stretched to width - 32 or height - 32; the centre to both; the top
      row cut from 48/64/80 when movable and from 0/16/32 otherwise; and the
      chrome covers the form once. */
  lemma ChromeLayout(width: int, height: int, movable: bool, p: Point)
    requires ChromeTiles(width, height, movable).Some?
    ensures var c := ChromeTiles(width, height, movable).value;
      && c[0].dst == Point(0, 0) && c[2].dst == Point(width - 16, 0)
      && c[6].dst == Point(0, height - 16) && c[8].dst == Point(width - 16, height - 16)
      && c[1].stretch == Some(NineSlice.Size(width - 32, 16)) && c[7].stretch == Some(NineSlice.Size(width - 32, 16))
      && c[3].stretch == Some(NineSlice.Size(16, height - 32)) && c[5].stretch == Some(NineSlice.Size(16, height - 32))
      && c[4].stretch == Some(NineSlice.Size(width - 32, height - 32))
      && [c[0].src.x, c[1].src.x, c[2].src.x] == (if movable then [48, 64, 80] else [0, 16, 32])
      && (0 <= p.x < width && 0 <= p.y < height ==>
            forall i | 0 <= i < 9 ::
              Contains(NineSlice.Drawn(c[i]), p) <==> i == 3 * NineSlice.Band(p.y, 16, height) + NineSlice.Band(p.x, 16, width))
  {
    var c := ChromeTiles(width, height, movable).value;
    if 0 <= p.x < width && 0 <= p.y < height {
      NineSlice.GridTilesCanvas(Point(0, 0), Cell, Cell, Cell, Cell, Cell, width, height, p);
      forall i | 0 <= i < 9
        ensures NineSlice.Drawn(c[i]) == NineSlice.Drawn(NineSlice.Grid(Point(0, 0), Cell, Cell, Cell, Cell, Cell, width, height)[i])
      {
      }
    }
  }

  /** The close button of a form `width` wide: a 16 x 16 control at local
      (width - 16, 0), i.e. flush with the top-right corner. */
  function CloseButtonRect(width: int): (r: Rect)
    ensures r.x + r.w == width && r.y == 0 && r.w == Cell && r.h == Cell
  {
    Rect(width - 16, 0, 16, 16)
  }

  // ---------------------------------------------------------------------
  // Drag-move

  /** The drag state of a form: the `__moving` flag, the form rectangle and
      the drag strip (`movable_rect`). */
  datatype DragState = DragState(moving: bool, rect: Rect, strip: Rect)

  /** One event of the drag loop: a left press inside the strip starts
      moving, a release of any button stops it, and motion while moving
      translates the form and the strip by the same delta. */
  function DragStep(s: DragState, pos: Point, e: Event): (r: DragState)
    ensures e.MouseUp? ==> !r.moving
    ensures e.MouseDown? && e.button == 1 && Contains(s.strip, pos) ==> r.moving
    ensures r.rect != s.rect ==> e.MouseMotion? && s.moving
    ensures e.MouseMotion? && s.moving ==>
              r.rect == Moved(s.rect, e.dx, e.dy) && r.strip == Moved(s.strip, e.dx, e.dy)
  {
    match e
    case MouseDown(b) =>
      if b == 1 && Contains(s.strip, pos) then s.(moving := true) else s
    case MouseUp(_) => s.(moving := false)
    case MouseMotion(dx, dy) =>
      if s.moving then DragState(true, Moved(s.rect, dx, dy), Moved(s.strip, dx, dy)) else s
    case _ => s
  }

  /** The drag loop over one frame's events. */
  function DragAll(s: DragState, pos: Point, events: seq<Event>): DragState
    decreases |events|
  {
    if events == [] then s else DragAll(DragStep(s, pos, events[0]), pos, events[1..])
  }

  /** The drag strip moves with the form: their offset never changes, and
      their sizes do not either. */
  lemma {:induction false} DragKeepsStripOnForm(s: DragState, pos: Point, events: seq<Event>)
    ensures var r := DragAll(s, pos, events);
      && r.strip.x - r.rect.x == s.strip.x - s.rect.x
      && r.strip.y - r.rect.y == s.strip.y - s.rect.y
      && r.rect.w == s.rect.w && r.rect.h == s.rect.h
      && r.strip.w == s.strip.w && r.strip.h == s.strip.h
    decreases |events|
  {
    if events != [] {
      DragKeepsStripOnForm(DragStep(s, pos, events[0]), pos, events[1..]);
    }
  }

  /** A form that is not moving stays where it is unless some event starts
      a drag: without a left press inside the strip, nothing moves. */
  lemma {:induction false} NoPressNoMove(s: DragState, pos: Point, events: seq<Event>)
    requires !s.moving
    requires forall i | 0 <= i < |events| :: !(events[i].MouseDown? && events[i].button == 1)
    ensures DragAll(s, pos, events) == s
    decreases |events|
  {
    if events != [] {
      NoPressNoMove(DragStep(s, pos, events[0]), pos, events[1..]);
    }
  }

  /** The frame's motion summed while moving: the form ends translated by
      exactly this delta. */
  function DragDelta(s: DragState, pos: Point, events: seq<Event>): (d: Point)
    decreases |events|
  {
    if events == [] then Point(0, 0)
    else
      var s' := DragStep(s, pos, events[0]);
      var rest := DragDelta(s', pos, events[1..]);
      if events[0].MouseMotion? && s.moving then Point(events[0].dx + rest.x, events[0].dy + rest.y) else rest
  }

  lemma {:induction false} DragMovesByDelta(s: DragState, pos: Point, events: seq<Event>)
    ensures var r := DragAll(s, pos, events);
      var d := DragDelta(s, pos, events);
      r.rect == Moved(s.rect, d.x, d.y) && r.strip == Moved(s.strip, d.x, d.y)
    decreases |events|
  {
    if events != [] {
      DragMovesByDelta(DragStep(s, pos, events[0]), pos, events[1..]);
    }
  }

  // ---------------------------------------------------------------------
  // Paint order

  datatype Paint =
    | Background(at: Point)
    | Caption(at: Point)
    | Child(id: nat)

  /** `Form.draw`: nothing when invisible; otherwise the chrome at the
      form's own rectangle, the caption (when non-empty) 8 px right and 3 px
      down from it, then the children in list order. The chrome is painted
      first, under everything else. */
  function FormPaints(visible: bool, rect: Rect, caption: string, children: seq<nat>): (r: seq<Paint>)
    ensures !visible ==> r == []
    ensures visible ==> |r| > 0 && r[0] == Background(Point(rect.x, rect.y))
  {
    if !visible then []
    else
      [Background(Point(rect.x, rect.y))]
      + (if |caption| > 0 then [Caption(Point(rect.x + 8, rect.y + 3))] else [])
      + ChildrenPainted(children)
  }

  /** One paint per child, in list order. */
  function ChildrenPainted(children: seq<nat>): (r: seq<Paint>)
    ensures |r| == |children|
  {
    if children == [] then [] else [Child(children[0])] + ChildrenPainted(children[1..])
  }

  /** The children a sequence of paints draws, in the order it draws them. */
  function ChildPaints(ps: seq<Paint>): (ids: seq<nat>)
    ensures |ids| <= |ps|
  {
    if ps == [] then [] else (if ps[0].Child? then [ps[0].id] else []) + ChildPaints(ps[1..])
  }

  lemma {:induction false} ChildPaintsAppend(a: seq<Paint>, b: seq<Paint>)
    ensures ChildPaints(a + b) == ChildPaints(a) + ChildPaints(b)
    decreases |a|
  {
    if a == [] {
      assert a + b == b;
    } else {
      assert (a + b)[0] == a[0];
      assert (a + b)[1..] == a[1..] + b;
      ChildPaintsAppend(a[1..], b);
    }
  }

  lemma {:induction false} ChildrenPaintedAt(children: seq<nat>)
    ensures ChildPaints(ChildrenPainted(children)) == children
    ensures forall i | 0 <= i < |children| :: ChildrenPainted(children)[i] == Child(children[i])
    decreases |children|
  {
    if children != [] {
      ChildrenPaintedAt(children[1..]);
      ChildPaintsAppend([Child(children[0])], ChildrenPainted(children[1..]));
    }
  }

  /** What a visible form paints: the chrome under everything, the caption
      exactly when there is one, and each child exactly once, in list
      order, so a child later in the list is painted over the earlier ones. */
  lemma PaintOrder(rect: Rect, caption: string, children: seq<nat>)
    ensures var r := FormPaints(true, rect, caption, children);
      && ChildPaints(r) == children
      && (Caption(Point(rect.x + 8, rect.y + 3)) in r <==> |caption| > 0)
      && forall i | 0 < i < |r| :: !r[i].Background?
  {
    var cap := if |caption| > 0 then [Caption(Point(rect.x + 8, rect.y + 3))] else [];
    var kids := ChildrenPainted(children);
    var r := FormPaints(true, rect, caption, children);
    assert r == [Background(Point(rect.x, rect.y))] + cap + kids;
    ChildrenPaintedAt(children);
    ChildPaintsAppend([Background(Point(rect.x, rect.y))] + cap, kids);
    ChildPaintsAppend([Background(Point(rect.x, rect.y))], cap);
    assert ChildPaints(cap) == [] by {
      if cap != [] {
        assert cap[1..] == [];
      }
    }
    assert forall i | 0 <= i < |kids| :: kids[i].Child?;
  }

  /** The child painted last, i.e. on top, is the last one in the list: the
      one `set_active` brought to the front most recently. */
  lemma LastPaintedIsFront(visible: bool, rect: Rect, caption: string, children: seq<nat>)
    requires visible && |children| > 0
    ensures var r := FormPaints(visible, rect, caption, children);
      r[|r| - 1] == Child(children[|children| - 1])
      && forall i | 0 <= i < |r| - 1 :: r[i] != Child(children[|children| - 1]) || children[|children| - 1] in children[..|children| - 1]
  {
    var pre := [Background(Point(rect.x, rect.y))]
      + (if |caption| > 0 then [Caption(Point(rect.x + 8, rect.y + 3))] else []);
    var kids := ChildrenPainted(children);
    var r := FormPaints(visible, rect, caption, children);
    assert r == pre + kids;
    ChildrenPaintedAt(children);
    var n := |children|;
    assert r[|r| - 1] == kids[n - 1];
    forall i | 0 <= i < |r| - 1
      ensures r[i] != Child(children[n - 1]) || children[n - 1] in children[..n - 1]
    {
      if i < |pre| {
        assert !r[i].Child?;
      } else {
        var k := i - |pre|;
        assert r[i] == kids[k] == Child(children[k]);
        assert children[k] == children[..n - 1][k];
      }
    }
  }
}

=== FILE: geometry.dfy ===
/** Integer rectangles as the toolkit uses them: position plus size, a
    half-open point test and an in-place translation. */
module Geometry {

  datatype Point = Point(x: int, y: int)

  datatype Rect = Rect(x: int, y: int, w: int, h: int)

  /** `Rect.collidepoint`: the left and top edges are inside, the right and
      bottom edges are not. */
  predicate Contains(r: Rect, p: Point)
  {
    r.x <= p.x < r.x + r.w && r.y <= p.y < r.y + r.h
  }

  /** `Rect.move_ip((dx, dy))` as a value: the same size, shifted. */
  function Moved(r: Rect, dx: int, dy: int): (m: Rect)
    ensures m.w == r.w && m.h == r.h
    ensures m.x - r.x == dx && m.y - r.y == dy
  {
    Rect(r.x + dx, r.y + dy, r.w, r.h)
  }

  /** A point stays inside a rectangle that moves with it. */
  lemma ContainsMoved(r: Rect, p: Point, dx: int, dy: int)
    ensures Contains(Moved(r, dx, dy), Point(p.x + dx, p.y + dy)) == Contains(r, p)
  {
  }

  /** An empty rectangle (zero width or height) contains no point: a 0x0
      control is never hovered. */
  lemma EmptyContainsNothing(r: Rect, p: Point)
    requires r.w <= 0 || r.h <= 0
    ensures !Contains(r, p)
  {
  }
}

=== FILE: gui.dfy ===
/** The controls as the program holds them: one object per window that
    owns the tree of controls and changes it in place. Each method is one
    call of the library (a constructor, a setter, `add_control`,
    `set_active`, `reset`, `move_ip`, `update`) and states the new tree as
    the function of the old one that the other modules describe; the tree
    stays coherent throughout. */
module Controls {
  import opened Geometry
  import opened Optional
  import opened Nodes
  import opened ControlTree
  import opened Events
  import Activation
  import Interaction
  import Setters
  import Updates
  import TextInput

  class Gui {
    /** Every control created so far, with its children and parent. */
    var st: Tree
    /** The depth of each control and a bound on the depths: the witness
        that the parent links form a forest. */
    ghost var depth: map<Id, nat>
    ghost var bound: nat

    ghost predicate Valid()
      reads this
    {
      Coherent(st, depth, bound)
    }

    /** No control yet. */
    constructor ()
      ensures Valid() && st == Empty()
    {
      st := Empty();
      depth := map[];
      bound := 0;
    }

    /** `Control(x, y, width, height)`: a plain control, without parent. */
    method NewControl(rect: Rect) returns (x: Id)
      requires Valid()
      modifies this
      ensures Valid() && x == old(st).nextId && st == Create(old(st), rect, Plain)
    {
      x := st.nextId;
      CreateCoherent(st, depth, bound, rect, Plain);
      depth, bound := depth[x := 0], bound + 1;
      st := Create(st, rect, Plain);
    }

    /** `Button(x, y, width, height, text)`; `None`, with nothing created,
        where the theme cannot be cut to that size. */
    method NewButton(rect: Rect, text: string) returns (x: Option<Id>)
      requires Valid()
      modifies this
      ensures Valid()
      ensures x.Some? <==> Setters.NewButton(old(st), rect, text).Some?
      ensures x.Some? ==> x.value == old(st).nextId && st == Setters.NewButton(old(st), rect, text).value
      ensures x.None? ==> st == old(st)
    {
      var r := Setters.NewButton(st, rect, text);
      if r.None? {
        return None;
      }
      x := Some(st.nextId);
      CreateCoherent(st, depth, bound, rect, r.value.nodes[st.nextId].kind);
      depth, bound := depth[st.nextId := 0], bound + 1;
      st := r.value;
    }

    /** `CheckBox(x, y, value, text)`: always 16 x 16. */
    method NewCheckBox(x: int, y: int, value: bool, text: string) returns (c: Id)
      requires Valid()
      modifies this
      ensures Valid() && c == old(st).nextId && st == Setters.NewCheckBox(old(st), x, y, value, text)
    {
      c := st.nextId;
      CreateCoherent(st, depth, bound, Rect(x, y, 16, 16), CheckBoxKind(value, text, false));
      depth, bound := depth[c := 0], bound + 1;
      st := Setters.NewCheckBox(st, x, y, value, text);
    }

    /** `Textbox(x, y, width, height, text)` at tick `now`; `None`, with
        nothing created, where the theme cannot be cut to that size. */
    method NewTextbox(rect: Rect, text: string, now: int) returns (x: Option<Id>)
      requires Valid()
      modifies this
      ensures Valid()
      ensures x.Some? <==> Setters.NewTextbox(old(st), rect, text, now).Some?
      ensures x.Some? ==> x.value == old(st).nextId && st == Setters.NewTextbox(old(st), rect, text, now).value
      ensures x.None? ==> st == old(st)
    {
      var r := Setters.NewTextbox(st, rect, text, now);
      if r.None? {
        return None;
      }
      x := Some(st.nextId);
      CreateCoherent(st, depth, bound, rect, r.value.nodes[st.nextId].kind);
      depth, bound := depth[st.nextId := 0], bound + 1;
      st := r.value;
    }

    /** `Form(x, y, width, height, caption, closable, movable)`; `None`,
        with nothing created, where the chrome cannot be laid out. */
    method NewForm(rect: Rect, caption: string, closable: bool, movable: bool) returns (x: Option<Id>)
      requires Valid()
      modifies this
      ensures Valid()
      ensures x.Some? <==> Setters.NewForm(old(st), rect, caption, closable, movable).Some?
      ensures x.Some? ==> x.value == old(st).nextId && st == Setters.NewForm(old(st), rect, caption, closable, movable).value
      ensures x.None? ==> st == old(st)
    {
      var r := Setters.NewForm(st, rect, caption, closable, movable);
      if r.None? {
        return None;
      }
      x := Some(st.nextId);
      depth, bound := Setters.NewFormCoherent(st, depth, bound, rect, caption, closable, movable);
      st := r.value;
    }

    /** `p.add_control(c)`, for a control `c` without a parent that is not
        above `p`. */
    method AddControl(p: Id, c: Id)
      requires Valid() && p in st.nodes && c in st.nodes
      requires c !in st.parent && !Under(st, depth, p, c)
      modifies this
      ensures Valid() && st == Attach(old(st), p, c)
      ensures |st.controls[p]| == |old(st).controls[p]| + 1 && st.controls[p][|old(st).controls[p]|] == c
      ensures st.controls[p][..|old(st).controls[p]|] == old(st).controls[p] && st.parent[c] == p
    {
      depth, bound := AttachCoherent(st, depth, bound, p, c);
      AttachAppends(st, p, c);
      st := Attach(st, p, c);
    }

    /** The `x`, `y`, `width` and `height` setters. */
    method Assign(x: Id, f: Setters.Field, v: int)
      requires Valid() && x in st.nodes
      modifies this
      ensures Valid() && x in old(st).nodes
      ensures (x in old(st).parent ==> old(st).parent[x] in old(st).nodes) && st == Setters.Assign(old(st), x, f, v)
    {
      Setters.AssignRender(st, depth, bound, x, f, v);
      st := Setters.Assign(st, x, f, v);
    }

    /** The `visible` setter. */
    method SetVisible(x: Id, v: bool)
      requires Valid() && x in st.nodes
      modifies this
      ensures Valid() && st == Setters.SetVisible(old(st), x, v)
    {
      Setters.SetVisibleCoherent(st, depth, bound, x, v);
      st := Setters.SetVisible(st, x, v);
    }

    /** `set_on_mouse_up`, `set_on_mouse_down`, `set_on_changed_value`,
        `set_on_changed_text`. */
    method Bind(x: Id, h: Setters.Handler)
      requires Valid() && x in st.nodes && Setters.Accepts(st.nodes[x], h)
      modifies this
      ensures Valid() && st == Setters.Bind(old(st), x, h)
    {
      Setters.BindCoherent(st, depth, bound, x, h);
      st := Setters.Bind(st, x, h);
    }

    /** `set_active(value)`. */
    method SetActive(x: Id, value: bool)
      requires Valid() && x in st.nodes
      modifies this
      ensures Valid() && depth == old(depth)
      ensures st == if value then Activation.Activated(old(st), depth, x) else Activation.Deactivated(old(st), depth, x)
    {
      if value {
        Activation.ActivatedCoherent(st, depth, bound, x);
        st := Activation.Activate(st, depth, bound, x);
      } else {
        Activation.DeactivatedCoherent(st, depth, bound, x);
        st := Activation.Deactivate(st, depth, bound, x);
      }
    }

    /** `reset()`. */
    method Reset(x: Id)
      requires Valid() && x in st.nodes
      modifies this
      ensures Valid() && st == Activation.Cleared(old(st), depth, x) && depth == old(depth)
    {
      Activation.ClearedCoherent(st, depth, bound, x);
      st := Activation.Reset(st, depth, bound, x);
    }

    /** `move_ip((dx, dy))`. */
    method MoveIp(x: Id, dx: int, dy: int)
      requires Valid() && x in st.nodes
      modifies this
      ensures Valid() && x in old(st).nodes
      ensures (x in old(st).parent ==> old(st).parent[x] in old(st).nodes) && st == Activation.Shifted(old(st), x, dx, dy)
    {
      Activation.ShiftedCoherent(st, depth, bound, x, dx, dy);
      st := Activation.MoveIp(st, depth, bound, x, dx, dy);
    }

    /** The `value` setter of a check box. */
    method SetValue(x: Id, value: bool)
      requires Valid() && x in st.nodes && st.nodes[x].kind.CheckBoxKind?
      modifies this
      ensures Valid() && st == Interaction.AssignValue(old(st), x, value)
    {
      Setters.AssignValueCoherent(st, depth, bound, x, value);
      st := Interaction.AssignValue(st, x, value);
    }

    /** The `text` setter of a text box. */
    method SetText(x: Id, s: string)
      requires Valid() && x in st.nodes && st.nodes[x].kind.TextboxKind?
      modifies this
      ensures Valid() && st == Setters.SetText(old(st), x, s)
    {
      Setters.SetTextCoherent(st, depth, bound, x, s);
      st := Setters.SetText(st, x, s);
    }

    /** The `is_password` setter of a text box. */
    method SetPassword(x: Id, password: bool)
      requires Valid() && x in st.nodes && st.nodes[x].kind.TextboxKind?
      modifies this
      ensures Valid() && st == Setters.SetPassword(old(st), x, password)
    {
      Setters.SetPasswordCoherent(st, depth, bound, x, password);
      st := Setters.SetPassword(st, x, password);
    }

    /** The `closable` setter of a form. */
    method SetClosable(f: Id, value: bool)
      requires Valid() && f in st.nodes && st.nodes[f].kind.FormKind?
      modifies this
      ensures Valid() && f in old(st).controls && old(st).nextId != f
      ensures st == Setters.SetClosable(old(st), f, value)
    {
      depth, bound := Setters.SetClosableCoherent(st, depth, bound, f, value);
      st := Setters.SetClosable(st, f, value);
    }

    /** `update(events)` on control `x`, with the pointer at `pos`, the
        tick count `now` and the font's width function `width`. */
    method Update(x: Id, pos: Point, events: seq<Event>, now: int, width: string -> int)
      requires Valid() && x in st.nodes
      modifies this
      ensures Valid() && depth == old(depth) && Interaction.Kept(old(st), st, depth, x)
      ensures st == Updates.Updated(old(st), depth, bound, x, pos, events, now, width)
    {
      var r := Updates.Update(st, depth, bound, x, pos, events, now, width);
      st := r;
    }
  }
}

=== FILE: legacy.dfy ===
/** The earlier generation of the controls: a `Control` whose update runs
    the whole event list only while hovered and has no activation, a
    `Window` that holds the children and dispatches to them from the front,
    and a `Button` that falls back to plain colours for missing images.
    The pointer position is a parameter; a fired mouse-up callback is
    logged as the position of the child in the window's list. */
module Legacy {
  import opened Geometry
  import opened Optional
  import opened Events
  import Nodes
  import Widgets
  import Setters
  import opened Lists

  /** Which of the three state images a button was given. */
  datatype Images = Images(normal: bool, hover: bool, click: bool)

  /** A plain control draws nothing; a button has a text and images. */
  datatype Look = PlainLook | ButtonLook(text: string, images: Images)

  /** A control: local and render rectangles, hover, click and visible
      flags, whether it has a parent, whether a mouse-up callback is
      bound, and its look. */
  datatype Widget = Widget(rect: Rect, render: Rect, hovered: bool, clicked: bool, visible: bool,
                           parented: bool, onMouseUp: bool, look: Look)

  /** `Control.__init__` (and `Button.__init__`): drawn at its own
      rectangle, not hovered or clicked, visible, no parent, no callback. */
  function NewWidget(rect: Rect, look: Look): (w: Widget)
    ensures w.render == rect && w.rect == rect && w.look == look && w.visible
    ensures !w.hovered && !w.clicked && !w.parented && !w.onMouseUp
  {
    Widget(rect, rect, false, false, true, false, false, look)
  }

  /** `__update_render_rect`, the same rule as the newer controls: the own
      rectangle without a parent, shifted by the parent's local origin
      with one. */
  function Render(w: Widget, parentRect: Option<Rect>): Rect
  {
    Nodes.RenderRect(w.rect, parentRect)
  }

  /** The `x`, `y`, `width` and `height` setters of a control whose parent,
      if any, has local rectangle `parentRect`. */
  function Assigned(w: Widget, parentRect: Option<Rect>, f: Setters.Field, v: int): (r: Widget)
    requires w.parented <==> parentRect.Some?
    ensures Setters.FieldOf(r.rect, f) == v
    ensures forall g | g != f :: Setters.FieldOf(r.rect, g) == Setters.FieldOf(w.rect, g)
    ensures r.render.w == r.rect.w && r.render.h == r.rect.h
    ensures !w.parented ==> r.render == r.rect
    ensures w.parented ==> r.render.x == r.rect.x + parentRect.value.x && r.render.y == r.rect.y + parentRect.value.y
    ensures r == w.(rect := r.rect, render := r.render)
  {
    var m := Setters.WithField(w.rect, f, v);
    w.(rect := m, render := Nodes.RenderRect(m, parentRect))
  }

  /** A control after an update and the number of mouse-up calls it made. */
  datatype Handled = Handled(w: Widget, fires: nat)

  /** The hover part of `update`: hovered becomes whether the render
      rectangle holds the pointer; leaving hover clears clicked. The newer
      `Control.update` keeps the same rule (`Interaction.Hover`); it is
      stated again here because a legacy control is a `Widget`, not a node
      of the newer tree. */
  function Hover(w: Widget, pos: Point): (r: Widget)
    ensures r.hovered == Contains(w.render, pos)
    ensures r.clicked == (w.clicked && (Contains(w.render, pos) || !w.hovered))
    ensures r == w.(hovered := r.hovered, clicked := r.clicked)
  {
    if Contains(w.render, pos) then w.(hovered := true)
    else if w.hovered then w.(hovered := false, clicked := false)
    else w
  }

  /** One event of the loop `update` runs while hovered: a press of any
      button sets clicked, a release while clicked clears it and calls the
      mouse-up callback when one is bound; nothing else reacts. */
  function Handle(w: Widget, e: Event): Handled
  {
    match e
    case MouseDown(_) => if !w.clicked then Handled(w.(clicked := true), 0) else Handled(w, 0)
    case MouseUp(_) => if w.clicked then Handled(w.(clicked := false), if w.onMouseUp then 1 else 0) else Handled(w, 0)
    case _ => Handled(w, 0)
  }

  /** The event loop of `update`, event by event. */
  function HandleAll(w: Widget, events: seq<Event>): (r: Handled)
    ensures r.w == w.(clicked := r.w.clicked)
    ensures !w.onMouseUp ==> r.fires == 0
    decreases |events|
  {
    if events == [] then Handled(w, 0)
    else
      var h := Handle(w, events[0]);
      var rest := HandleAll(h.w, events[1..]);
      Handled(rest.w, h.fires + rest.fires)
  }

  /** `Control.update(events)` of this generation. */
  function Updated(w: Widget, pos: Point, events: seq<Event>): (r: Handled)
    ensures r.w == w.(hovered := r.w.hovered, clicked := r.w.clicked)
  {
    if !w.visible then Handled(w, 0)
    else
      var h := Hover(w, pos);
      if h.hovered then HandleAll(h, events) else Handled(h, 0)
  }

  /** The update of an invisible control changes nothing and calls
      nothing. */
  lemma InvisibleIgnored(w: Widget, pos: Point, events: seq<Event>)
    requires !w.visible
    ensures Updated(w, pos, events) == Handled(w, 0)
  {
  }

  /** Away from the pointer the events are not looked at: only the hover
      part runs (so leaving hover clears clicked), and nothing is called. */
  lemma NotHoveredIgnoresEvents(w: Widget, pos: Point, events: seq<Event>)
    requires w.visible && !Contains(w.render, pos)
    ensures Updated(w, pos, events) == Handled(w.(hovered := false, clicked := w.clicked && !w.hovered), 0)
  {
  }

  /** Under the pointer a press sets clicked and changes nothing else: in
      this generation there is no activation and no mouse-down callback. */
  lemma PressOnlyClicks(w: Widget, pos: Point, button: int)
    requires w.visible && Contains(w.render, pos)
    ensures Updated(w, pos, [MouseDown(button)]) == Handled(w.(hovered := true, clicked := true), 0)
  {
    var h := Hover(w, pos);
    assert [MouseDown(button)][1..] == [];
    assert HandleAll(h, [MouseDown(button)]) == Handled(HandleAll(Handle(h, MouseDown(button)).w, []).w, 0);
  }

  /** Under the pointer a release after a press calls the mouse-up
      callback exactly once, when bound, and leaves the control hovered and
      not clicked; a release without a press calls nothing. */
  lemma {:induction false} ClickFiresOnce(w: Widget, pos: Point, down: int, up: int)
    requires w.visible && Contains(w.render, pos)
    ensures Updated(w, pos, [MouseDown(down), MouseUp(up)]) ==
            Handled(w.(hovered := true, clicked := false), if w.onMouseUp then 1 else 0)
    ensures !w.clicked ==> Updated(w, pos, [MouseUp(up)]) == Handled(w.(hovered := true), 0)
  {
    var h := Hover(w, pos);
    var es := [MouseDown(down), MouseUp(up)];
    assert es[1..] == [MouseUp(up)] && es[1..][1..] == [];
    assert [MouseUp(up)][1..] == [];
    var a := Handle(h, MouseDown(down)).w;
    assert a == h.(clicked := true);
    calc {
      HandleAll(h, es);
      Handled(HandleAll(a, es[1..]).w, HandleAll(a, es[1..]).fires);
      Handled(Handle(a, MouseUp(up)).w, Handle(a, MouseUp(up)).fires);
    }
    if !w.clicked {
      assert HandleAll(h, [MouseUp(up)]) == Handled(HandleAll(Handle(h, MouseUp(up)).w, []).w, 0);
    }
  }

  /** `Control.update`: the hover test, then, while hovered, the loop
      over the events. */
  method UpdateControl(w: Widget, pos: Point, events: seq<Event>) returns (r: Widget, fires: nat)
    ensures Handled(r, fires) == Updated(w, pos, events)
  {
    r, fires := w, 0;
    if !w.visible {
      return;
    }
    r := Hover(w, pos);
    if !r.hovered {
      return;
    }
    ghost var h := r;
    for i := 0 to |events|
      invariant var rest := HandleAll(r, events[i..]);
        HandleAll(h, events) == Handled(rest.w, fires + rest.fires)
    {
      var e := events[i];
      assert events[i..][1..] == events[i + 1..];
      match e
      case MouseDown(_) =>
        if !r.clicked {
          r := r.(clicked := true);
        }
      case MouseUp(_) =>
        if r.clicked {
          r := r.(clicked := false);
          if r.onMouseUp {
            fires := fires + 1;
          }
        }
      case _ =>
    }
    assert events[|events|..] == [];
  }

  /** `reset` of this generation: only hovered is cleared; clicked stays
      and no child is visited. */
  function Reset(w: Widget): (r: Widget)
    ensures !r.hovered && r.(hovered := w.hovered) == w
  {
    w.(hovered := false)
  }

  // -----------------------------------------------------------------------
  // The window's dispatch

  /** The child `Window.update` stops at when it scans positions `i - 1`
      down to 0: the last one whose local rectangle holds the pointer. */
  function Front(cs: seq<Widget>, pos: Point, i: nat): (r: Option<nat>)
    requires i <= |cs|
    ensures r.Some? ==> r.value < i && Contains(cs[r.value].rect, pos)
    ensures r.Some? ==> forall j | r.value < j < i :: !Contains(cs[j].rect, pos)
    ensures r.None? ==> forall j | 0 <= j < i :: !Contains(cs[j].rect, pos)
  {
    if i == 0 then None
    else if Contains(cs[i - 1].rect, pos) then Some(i - 1)
    else Front(cs, pos, i - 1)
  }

  /** The mouse-up calls of the children at `lo` .. `hi - 1` when each is
      updated, in the order the scan makes them: from `hi - 1` down. */
  function Fires(cs: seq<Widget>, pos: Point, events: seq<Event>, lo: nat, hi: nat): (r: seq<nat>)
    requires lo <= hi <= |cs|
    ensures forall i | 0 <= i < |r| :: lo <= r[i] < hi
    decreases hi - lo
  {
    if lo == hi then []
    else Fires(cs, pos, events, lo + 1, hi) + Repeat(lo, Updated(cs[lo], pos, events).fires)
  }

  /** The children and log after `Window.update`: scanning from the end,
      every child up to and including the first whose local rectangle
      holds the pointer is updated; at that child every other child is
      reset and the scan stops, so the children before it are not updated.
      Without such a child every child is updated and none is reset. */
  datatype Dispatch = Dispatch(children: seq<Widget>, log: seq<nat>)

  function Dispatched(cs: seq<Widget>, log: seq<nat>, pos: Point, events: seq<Event>): (r: Dispatch)
    ensures |r.children| == |cs|
  {
    match Front(cs, pos, |cs|)
    case None => Dispatch(UpdatedFrom(cs, pos, events, 0), log + Fires(cs, pos, events, 0, |cs|))
    case Some(k) =>
      var u := UpdatedFrom(cs, pos, events, k);
      Dispatch(seq(|cs|, j requires 0 <= j < |cs| => if j == k then u[j] else Reset(u[j])),
               log + Fires(cs, pos, events, k, |cs|))
  }

  /** The children once the scan has updated those at `i` and after. */
  function UpdatedFrom(cs: seq<Widget>, pos: Point, events: seq<Event>, i: nat): (r: seq<Widget>)
    requires i <= |cs|
    ensures |r| == |cs| && forall j | 0 <= j < |cs| :: r[j] == if j >= i then Updated(cs[j], pos, events).w else cs[j]
  {
    seq(|cs|, j requires 0 <= j < |cs| => if j >= i then Updated(cs[j], pos, events).w else cs[j])
  }

  /** A child is the one the scan stops at exactly when its local
      rectangle holds the pointer and no later child's does; the test
      reads neither the visibility nor the render rectangle. */
  lemma {:induction false} FrontIgnoresVisibility(cs: seq<Widget>, pos: Point, i: nat, k: nat, v: bool)
    requires i <= |cs| && k < |cs|
    ensures Front(cs[k := cs[k].(visible := v)], pos, i) == Front(cs, pos, i)
  {
    if i > 0 {
      FrontIgnoresVisibility(cs, pos, i - 1, k, v);
    }
  }

  /** After a scan that stopped at `k`, only `k` can still be hovered, the
      children before `k` were not updated (clicked and the rest kept) and
      every call logged came from `k` or a child after it. */
  lemma DispatchStops(cs: seq<Widget>, log: seq<nat>, pos: Point, events: seq<Event>)
    requires Front(cs, pos, |cs|).Some?
    ensures var k := Front(cs, pos, |cs|).value; var r := Dispatched(cs, log, pos, events);
      && (forall j | 0 <= j < |cs| && j != k :: !r.children[j].hovered)
      && (forall j | 0 <= j < k :: r.children[j] == cs[j].(hovered := false))
      && log <= r.log && (forall i | |log| <= i < |r.log| :: k <= r.log[i])
  {
  }

  /** Without a child under the pointer every child is updated and none is
      reset: the children keep the hover their own update gave them. */
  lemma DispatchMisses(cs: seq<Widget>, log: seq<nat>, pos: Point, events: seq<Event>)
    requires Front(cs, pos, |cs|).None?
    ensures var r := Dispatched(cs, log, pos, events);
      forall j | 0 <= j < |cs| :: r.children[j] == Updated(cs[j], pos, events).w
  {
  }

  /** The reset loop of `Window.update`: every child but `k`. */
  method ResetOthers(cs: seq<Widget>, k: nat) returns (r: seq<Widget>)
    ensures |r| == |cs| && forall j | 0 <= j < |cs| :: r[j] == if j == k then cs[j] else Reset(cs[j])
  {
    r := cs;
    for j := 0 to |cs|
      invariant |r| == |cs|
      invariant forall m | 0 <= m < |cs| :: r[m] == if m < j && m != k then Reset(cs[m]) else cs[m]
    {
      if j != k {
        r := r[j := Reset(r[j])];
      }
    }
  }

  /** The scan of `Window.update` over the children `cs`, from the last
      to the first, with the log so far. */
  method Scan(cs: seq<Widget>, log0: seq<nat>, pos: Point, events: seq<Event>) returns (r: Dispatch)
    ensures r == Dispatched(cs, log0, pos, events)
  {
    var children, log := cs, log0;
    var i: nat := |cs|;
    while i > 0
      invariant i <= |cs| && Front(cs, pos, |cs|) == Front(cs, pos, i)
      invariant children == UpdatedFrom(cs, pos, events, i)
      invariant log == log0 + Fires(cs, pos, events, i, |cs|)
      decreases i
    {
      var hit;
      children, log, hit := Visit(cs, log0, pos, events, i, children, log);
      if hit {
        r := StopAt(cs, log0, pos, events, i - 1, children, log);
        return;
      }
      i := i - 1;
    }
    return Dispatch(children, log);
  }

  /** The body of the scan at position `i - 1`: the child is updated, its
      calls logged, and whether its local rectangle holds the pointer is
      returned. */
  method Visit(cs: seq<Widget>, log0: seq<nat>, pos: Point, events: seq<Event>, i: nat,
               children: seq<Widget>, log: seq<nat>) returns (children': seq<Widget>, log': seq<nat>, hit: bool)
    requires 0 < i <= |cs| && children == UpdatedFrom(cs, pos, events, i)
    requires log == log0 + Fires(cs, pos, events, i, |cs|)
    ensures children' == UpdatedFrom(cs, pos, events, i - 1) && log' == log0 + Fires(cs, pos, events, i - 1, |cs|)
    ensures hit == Contains(cs[i - 1].rect, pos)
  {
    var w, fires := UpdateControl(children[i - 1], pos, events);
    children' := children[i - 1 := w];
    log' := log + Repeat(i - 1, fires);
    UpdatedFromStep(cs, pos, events, i);
    hit := Contains(w.rect, pos);
  }

  /** One more child updated. */
  lemma UpdatedFromStep(cs: seq<Widget>, pos: Point, events: seq<Event>, i: nat)
    requires 0 < i <= |cs|
    ensures UpdatedFrom(cs, pos, events, i - 1) == UpdatedFrom(cs, pos, events, i)[i - 1 := Updated(cs[i - 1], pos, events).w]
  {
  }

  /** The end of the scan at `k`: every child but `k` is reset, which
      leaves the state `Dispatched` describes. */
  method StopAt(cs: seq<Widget>, log0: seq<nat>, pos: Point, events: seq<Event>, k: nat,
                u: seq<Widget>, log: seq<nat>) returns (r: Dispatch)
    requires k < |cs| && Contains(cs[k].rect, pos) && Front(cs, pos, |cs|) == Front(cs, pos, k + 1)
    requires u == UpdatedFrom(cs, pos, events, k) && log == log0 + Fires(cs, pos, events, k, |cs|)
    ensures r == Dispatched(cs, log0, pos, events)
  {
    var children := ResetOthers(u, k);
    r := Dispatch(children, log);
  }

  // -----------------------------------------------------------------------
  // Drawing

  /** What is painted: a state image, or a plain colour for a missing one. */
  datatype Fill = ImageFill(image: Widgets.ButtonImage) | ColourFill(red: int, green: int, blue: int)

  datatype Paint = Paint(fill: Fill, at: Rect)

  /** `Button.draw` of this generation: nothing when invisible; otherwise
      the click, hover or normal image over the render rectangle, or, for
      one not given, black, white or grey. The text is not drawn. */
  function ButtonPaint(visible: bool, hovered: bool, clicked: bool, images: Images, render: Rect): (r: Option<Paint>)
    ensures r.None? <==> !visible
    ensures r.Some? ==> r.value.at == render
  {
    if !visible then None
    else if hovered then
      if clicked then
        Some(Paint(if images.click then ImageFill(Widgets.ClickImage) else ColourFill(0, 0, 0), render))
      else
        Some(Paint(if images.hover then ImageFill(Widgets.HoverImage) else ColourFill(255, 255, 255), render))
    else
      Some(Paint(if images.normal then ImageFill(Widgets.NormalImage) else ColourFill(128, 128, 128), render))
  }

  /** With all three images given, the choice is the newer button's. */
  lemma PaintAgreesWithNewer(hovered: bool, clicked: bool, render: Rect)
    ensures ButtonPaint(true, hovered, clicked, Images(true, true, true), render) ==
            Some(Paint(ImageFill(Widgets.ButtonImageFor(hovered, clicked)), render))
  {
  }

  /** With no image given, the colour says the state: black when hovered
      and clicked, white when hovered, grey otherwise. */
  lemma PaintFallback(hovered: bool, clicked: bool, render: Rect)
    ensures var f := ButtonPaint(true, hovered, clicked, Images(false, false, false), render).value.fill;
      && (f == ColourFill(0, 0, 0) <==> hovered && clicked)
      && (f == ColourFill(255, 255, 255) <==> hovered && !clicked)
      && (f == ColourFill(128, 128, 128) <==> !hovered)
  {
  }

  /** `draw` of a control: a plain control draws nothing. */
  function WidgetPaint(w: Widget): (r: Option<Paint>)
    ensures r.Some? ==> w.visible && w.look.ButtonLook? && r.value.at == w.render
  {
    match w.look
    case PlainLook => None
    case ButtonLook(_, images) => ButtonPaint(w.visible, w.hovered, w.clicked, images, w.render)
  }

  // -----------------------------------------------------------------------
  // The window

  class Window {
    /** The window's own local rectangle, the children's parent origin. */
    var rect: Rect
    var caption: string
    var closable: bool
    var movable: bool
    /** The children in paint order: the last is in front. */
    var children: seq<Widget>
    /** The mouse-up calls of the children, by position. */
    var log: seq<nat>

    /** Every child has the window as its parent and is drawn against the
        window's rectangle. */
    ghost predicate Valid()
      reads this
    {
      forall j | 0 <= j < |children| ::
        children[j].parented && children[j].render == Render(children[j], Some(rect))
    }

    /** `Window.__init__`: no child; `closable` and `movable` are stored
        and nothing reads them. */
    constructor (rect: Rect, caption: string, closable: bool, movable: bool)
      ensures Valid() && children == [] && log == []
      ensures this.rect == rect && this.caption == caption && this.closable == closable && this.movable == movable
    {
      this.rect := rect;
      this.caption := caption;
      this.closable := closable;
      this.movable := movable;
      children := [];
      log := [];
    }

    /** `add_control`: the control is appended, its parent set and its
        render rectangle recomputed against the window. */
    method AddControl(w: Widget)
      requires Valid()
      modifies this
      ensures Valid() && children == old(children) + [w.(parented := true, render := Render(w, Some(rect)))]
      ensures rect == old(rect) && log == old(log)
      ensures caption == old(caption) && closable == old(closable) && movable == old(movable)
    {
      children := children + [w.(parented := true, render := Render(w, Some(rect)))];
    }

    /** The `x`, `y`, `width` and `height` setters of child `i`. */
    method AssignChild(i: nat, f: Setters.Field, v: int)
      requires Valid() && i < |children|
      modifies this
      ensures Valid() && children == old(children)[i := Assigned(old(children)[i], Some(rect), f, v)]
      ensures rect == old(rect) && log == old(log)
      ensures caption == old(caption) && closable == old(closable) && movable == old(movable)
    {
      children := children[i := Assigned(children[i], Some(rect), f, v)];
    }

    /** The `visible` setter of child `i`. */
    method SetChildVisible(i: nat, v: bool)
      requires Valid() && i < |children|
      modifies this
      ensures Valid() && children == old(children)[i := old(children)[i].(visible := v)]
      ensures rect == old(rect) && log == old(log)
      ensures caption == old(caption) && closable == old(closable) && movable == old(movable)
    {
      children := children[i := children[i].(visible := v)];
    }

    /** `set_on_mouse_up` on child `i`. */
    method BindChildMouseUp(i: nat)
      requires Valid() && i < |children|
      modifies this
      ensures Valid() && children == old(children)[i := old(children)[i].(onMouseUp := true)]
      ensures rect == old(rect) && log == old(log)
      ensures caption == old(caption) && closable == old(closable) && movable == old(movable)
    {
      children := children[i := children[i].(onMouseUp := true)];
    }

    /** `Window.update(events)` with the pointer at `pos`. */
    method Update(pos: Point, events: seq<Event>)
      requires Valid()
      modifies this
      ensures Valid() && Dispatch(children, log) == Dispatched(old(children), old(log), pos, events)
      ensures rect == old(rect)
      ensures caption == old(caption) && closable == old(closable) && movable == old(movable)
    {
      var r := Scan(children, log, pos, events);
      children, log := r.children, r.log;
    }

    /** `Window.draw`: each child in list order, so a later child is
        painted over an earlier one. */
    method Draw() returns (ps: seq<Option<Paint>>)
      ensures |ps| == |children| && forall j | 0 <= j < |children| :: ps[j] == WidgetPaint(children[j])
    {
      ps := [];
      for j := 0 to |children|
        invariant |ps| == j && forall m | 0 <= m < j :: ps[m] == WidgetPaint(children[m])
      {
        ps := ps + [WidgetPaint(children[j])];
      }
    }
  }
}

=== FILE: lists.dfy ===
/** Lists built for the log: the same entry recorded several times, as a
    callback called once per change or per release. */
module Lists {

  /** `k` copies of `x`. */
  function Repeat<T>(x: T, k: nat): (r: seq<T>)
    ensures |r| == k && forall i | 0 <= i < k :: r[i] == x
  {
    seq(k, _ => x)
  }
}

=== FILE: nine_slice.dfy ===
/** `generate_surface_byrect`: cut a source image into a 3x3 grid and lay the
    nine pieces out on a new surface of the requested size, corners copied
    as they are, edges stretched along one axis and the centre along both.
    Pixels are not modelled: a composition is the list of blits, each a
    source sub-rectangle, a destination position and an optional stretch
    size, in the order the source issues them. */
module NineSlice {
  import opened Geometry
  import opened Optional

  datatype Size = Size(w: int, h: int)

  /** One `blit`: the piece `src` of the source, optionally scaled to
      `stretch`, drawn with its top-left corner at `dst`. */
  datatype Tile = Tile(src: Rect, dst: Point, stretch: Option<Size>)

  datatype Composition = Composition(size: Size, tiles: seq<Tile>)

  /** The rectangle a tile covers on the new surface. */
  function Drawn(t: Tile): Rect
  {
    match t.stretch
    case None => Rect(t.dst.x, t.dst.y, t.src.w, t.src.h)
    case Some(s) => Rect(t.dst.x, t.dst.y, s.w, s.h)
  }

  /** Which of the three bands of a side of length `n` with borders `t` a
      coordinate falls in: 0 for the first border, 1 for the stretched
      middle, 2 for the last border. */
  function Band(v: int, t: int, n: int): int
  {
    if v < t then 0 else if v < n - t then 1 else 2
  }

  /** The nine blits for borders `tw` x `th` and middles `mw` x `mh` of the
      source (whose top-left piece starts at `src`), laid out on a
      `width` x `height` surface, in the order top row, middle row, bottom
      row, each left to right. `sideH` is the source height of the left and
      right middle pieces. */
  function Grid(src: Point, tw: int, th: int, mw: int, mh: int, sideH: int, width: int, height: int): (r: seq<Tile>)
    ensures |r| == 9
  {
    [ Tile(Rect(src.x, src.y, tw, th), Point(0, 0), None),
      Tile(Rect(src.x + tw, src.y, mw, th), Point(tw, 0), Some(Size(width - 2 * tw, th))),
      Tile(Rect(src.x + tw + mw, src.y, tw, th), Point(width - tw, 0), None),
      Tile(Rect(src.x, src.y + th, tw, sideH), Point(0, th), Some(Size(tw, height - 2 * th))),
      Tile(Rect(src.x + tw, src.y + th, mw, mh), Point(tw, th), Some(Size(width - 2 * tw, height - 2 * th))),
      Tile(Rect(src.x + tw + mw, src.y + th, tw, sideH), Point(width - tw, th), Some(Size(tw, height - 2 * th))),
      Tile(Rect(src.x, src.y + th + mh, tw, th), Point(0, height - th), None),
      Tile(Rect(src.x + tw, src.y + th + mh, mw, th), Point(tw, height - th), Some(Size(width - 2 * tw, th))),
      Tile(Rect(src.x + tw + mw, src.y + th + mh, tw, th), Point(width - tw, height - th), None) ]
  }

  /** The nine-slice composition of a `srcW` x `srcH` source at
      `width` x `height`; `None` where pygame raises, because a stretched
      piece would get a negative size (`transform.scale` refuses it, and so
      does `Surface` for a negative resolution). */
  function GenerateSurfaceByRect(srcW: nat, srcH: nat, width: int, height: int): (r: Option<Composition>)
    ensures r.Some? <==> width >= 2 * (srcW / 3) && height >= 2 * (srcH / 3)
    ensures r.Some? ==> r.value.size == Size(width, height) && |r.value.tiles| == 9
  {
    var tw := srcW / 3;
    var th := srcH / 3;
    var restH := srcW - tw * 2;
    var restV := srcH - th * 2;
    if width - tw * 2 < 0 || height - th * 2 < 0 then None
    else Some(Composition(Size(width, height), Grid(Point(0, 0), tw, th, restH, restV, th, width, height)))
  }

  /** Every point of a `width` x `height` surface is covered by exactly one
      of the nine drawn pieces: the one in its row band and column band. */
  lemma GridTilesCanvas(src: Point, tw: int, th: int, mw: int, mh: int, sideH: int, width: int, height: int, p: Point)
    requires 0 <= tw && 0 <= th && 2 * tw <= width && 2 * th <= height
    requires 0 <= p.x < width && 0 <= p.y < height
    ensures forall i | 0 <= i < 9 ::
      Contains(Drawn(Grid(src, tw, th, mw, mh, sideH, width, height)[i]), p) <==>
      i == 3 * Band(p.y, th, height) + Band(p.x, tw, width)
  {
    var g := Grid(src, tw, th, mw, mh, sideH, width, height);
    forall i | 0 <= i < 9
      ensures Contains(Drawn(g[i]), p) <==> i == 3 * Band(p.y, th, height) + Band(p.x, tw, width)
    {
      var d := Drawn(g[i]);
      assert d.x == [0, tw, width - tw][i % 3] && d.w == [tw, width - 2 * tw, tw][i % 3];
      assert d.y == [0, th, height - th][i / 3] && d.h == [th, height - 2 * th, th][i / 3];
    }
  }

  /** Every drawn piece stays on the new surface. */
  lemma GridInsideCanvas(src: Point, tw: int, th: int, mw: int, mh: int, sideH: int, width: int, height: int)
    requires 0 <= tw && 0 <= th && 2 * tw <= width && 2 * th <= height
    ensures forall i | 0 <= i < 9 ::
      var d := Drawn(Grid(src, tw, th, mw, mh, sideH, width, height)[i]);
      0 <= d.x && d.x + d.w <= width && 0 <= d.y && d.y + d.h <= height && 0 <= d.w && 0 <= d.h
  {
    var g := Grid(src, tw, th, mw, mh, sideH, width, height);
    forall i | 0 <= i < 9
      ensures var d := Drawn(g[i]);
        0 <= d.x && d.x + d.w <= width && 0 <= d.y && d.y + d.h <= height && 0 <= d.w && 0 <= d.h
    {
      var d := Drawn(g[i]);
      assert d.x == [0, tw, width - tw][i % 3] && d.w == [tw, width - 2 * tw, tw][i % 3];
      assert d.y == [0, th, height - th][i / 3] && d.h == [th, height - 2 * th, th][i / 3];
    }
  }

  /** The surface built is exactly `width` x `height` and the nine pieces
      cover it once each: every point lies in exactly one piece. */
  lemma NineSliceCoversOnce(srcW: nat, srcH: nat, width: int, height: int, p: Point)
    requires GenerateSurfaceByRect(srcW, srcH, width, height).Some?
    requires 0 <= p.x < width && 0 <= p.y < height
    ensures var c := GenerateSurfaceByRect(srcW, srcH, width, height).value;
      forall i | 0 <= i < |c.tiles| ::
        Contains(Drawn(c.tiles[i]), p) <==> i == 3 * Band(p.y, srcH / 3, height) + Band(p.x, srcW / 3, width)
  {
    var tw, th := srcW / 3, srcH / 3;
    GridTilesCanvas(Point(0, 0), tw, th, srcW - tw * 2, srcH - th * 2, th, width, height, p);
  }

  /** The source is cut without gaps: left, middle and right source widths
      add up to the source width (likewise the heights), and every piece
      lies inside the source, so `subsurface` never refuses one. */
  lemma NineSliceSourcePartition(srcW: nat, srcH: nat, width: int, height: int)
    requires GenerateSurfaceByRect(srcW, srcH, width, height).Some?
    ensures var t := GenerateSurfaceByRect(srcW, srcH, width, height).value.tiles;
      && t[0].src.w + t[1].src.w + t[2].src.w == srcW
      && t[0].src.h + t[3].src.h + t[6].src.h <= srcH
      && t[1].src.h + t[4].src.h + t[7].src.h == srcH
      && forall i | 0 <= i < 9 ::
           0 <= t[i].src.x && t[i].src.x + t[i].src.w <= srcW &&
           0 <= t[i].src.y && t[i].src.y + t[i].src.h <= srcH
  {
    var t := GenerateSurfaceByRect(srcW, srcH, width, height).value.tiles;
    var tw, th := srcW / 3, srcH / 3;
    forall i | 0 <= i < 9
      ensures 0 <= t[i].src.x && t[i].src.x + t[i].src.w <= srcW &&
              0 <= t[i].src.y && t[i].src.y + t[i].src.h <= srcH
    {
      assert t[i].src.x == [0, tw, srcW - tw][i % 3] && t[i].src.w == [tw, srcW - 2 * tw, tw][i % 3];
      assert t[i].src.y == [0, th, srcH - th][i / 3];
      assert t[i].src.h == [th, if i == 4 then srcH - 2 * th else th, th][i / 3];
    }
  }

  /** Corners are copied unscaled to the four corners of the new surface;
      the edges are stretched to the middle length and the border
      thickness, the centre to both middle lengths. */
  lemma NineSlicePlacement(srcW: nat, srcH: nat, width: int, height: int)
    requires GenerateSurfaceByRect(srcW, srcH, width, height).Some?
    ensures var tw, th := srcW / 3, srcH / 3;
      var t := GenerateSurfaceByRect(srcW, srcH, width, height).value.tiles;
      && t[0].dst == Point(0, 0) && t[2].dst == Point(width - tw, 0)
      && t[6].dst == Point(0, height - th) && t[8].dst == Point(width - tw, height - th)
      && (forall i | i in {0, 2, 6, 8} :: t[i].stretch == None && t[i].src.w == tw && t[i].src.h == th)
      && t[1].stretch == Some(Size(width - 2 * tw, th)) && t[7].stretch == Some(Size(width - 2 * tw, th))
      && t[3].stretch == Some(Size(tw, height - 2 * th)) && t[5].stretch == Some(Size(tw, height - 2 * th))
      && t[4].stretch == Some(Size(width - 2 * tw, height - 2 * th))
  {
  }

  /** The left and right middle pieces are cut `srcH / 3` high while the
      centre piece is cut `srcH - 2 * (srcH / 3)` high: the two differ
      exactly when the source height is not a multiple of three, and then
      the side pieces leave the last rows of the middle band unsampled. */
  lemma SideMiddleHeight(srcW: nat, srcH: nat, width: int, height: int)
    requires GenerateSurfaceByRect(srcW, srcH, width, height).Some?
    ensures var t := GenerateSurfaceByRect(srcW, srcH, width, height).value.tiles;
      && t[3].src.h == t[5].src.h == srcH / 3
      && t[4].src.h == srcH / 3 + srcH % 3
      && (t[3].src.h == t[4].src.h <==> srcH % 3 == 0)
  {
  }
}

=== FILE: nodes.dfy ===
/** The state a control keeps, as a value: its rectangles, its interaction
    flags, the callbacks bound to it and what its kind adds (a button's
    images, a check box's value, a text box's buffer, a form's drag state). */
module Nodes {
  import opened Geometry
  import opened Optional
  import TextboxLogic
  import Widgets
  import NineSlice
  import Forest

  type Id = Forest.Id

  /** What releasing the mouse over a control runs: nothing, the callback
      the program bound with `set_on_mouse_up`, or the close button's own
      action of hiding its form. */
  datatype MouseUpAction = NoAction | Notify | Hide(form: Id)

  datatype Kind =
    | Plain
    | ButtonKind(text: string, images: Widgets.ButtonImages)
    | CheckBoxKind(value: bool, text: string, onChangedValue: bool)
    | TextboxKind(box: TextboxLogic.Textbox, onChangedText: bool)
    | FormKind(caption: string, closable: bool, movable: bool, strip: Rect, moving: bool,
               chrome: seq<NineSlice.Tile>)

  /** A control: its local rectangle, the rectangle it is drawn and hit
      tested at, the hover/click/visible/active flags, whether mouse-down
      and mouse-up callbacks are bound, and its kind. */
  datatype Node = Node(rect: Rect, render: Rect, hovered: bool, clicked: bool, visible: bool,
                       active: bool, onMouseUp: MouseUpAction, onMouseDown: bool, kind: Kind)

  /** The program callbacks the controls run, recorded in order as they
      fire. */
  datatype Slot = MouseDownSlot | MouseUpSlot | ChangedValueSlot | ChangedTextSlot

  datatype Fired = Fired(source: Id, slot: Slot)

  /** `_update_render_rect`: a control without a parent is drawn at its own
      rectangle; one with a parent at its own rectangle shifted by the
      parent's local origin (not by the parent's render rectangle), with its
      own size. */
  function RenderRect(rect: Rect, parentRect: Option<Rect>): (r: Rect)
    ensures r.w == rect.w && r.h == rect.h
    ensures parentRect.None? ==> r == rect
    ensures parentRect.Some? ==> r.x - rect.x == parentRect.value.x && r.y - rect.y == parentRect.value.y
  {
    match parentRect
    case None => rect
    case Some(p) => Moved(rect, p.x, p.y)
  }

  /** A child is hit where its local rectangle holds the pointer taken
      relative to its parent's local origin. */
  lemma HitRelativeToParent(rect: Rect, parentRect: Rect, pos: Point)
    ensures Contains(RenderRect(rect, Some(parentRect)), pos) <==>
            Contains(rect, Point(pos.x - parentRect.x, pos.y - parentRect.y))
  {
  }

  /** A control as `Control.__init__` leaves it: drawn at its own
      rectangle, not hovered, clicked or active, visible, no callbacks. */
  function Fresh(rect: Rect, kind: Kind): (n: Node)
    ensures n.rect == rect && n.render == rect && n.kind == kind && n.visible
    ensures !n.hovered && !n.clicked && !n.active && n.onMouseUp == NoAction && !n.onMouseDown
  {
    Node(rect, rect, false, false, true, false, NoAction, false, kind)
  }

  /** What holds of every control at all times: the render rectangle has
      the control's size, a control without a parent is drawn at its own
      rectangle, a close button's hide action targets its own parent, and a
      text box shows the mask of its text. */
  ghost predicate NodeOk(x: Id, n: Node, parent: map<Id, Id>)
  {
    && n.render.w == n.rect.w && n.render.h == n.rect.h
    && (x !in parent ==> n.render == n.rect)
    && (n.onMouseUp.Hide? ==> x in parent && parent[x] == n.onMouseUp.form)
    && (n.kind.TextboxKind? ==> TextboxLogic.Consistent(n.kind.box))
  }

  /** Storing a control's own state back leaves the map as it was. */
  lemma Unchanged(m: map<Id, Node>, x: Id)
    requires x in m
    ensures m[x := m[x]] == m
  {
  }
}

=== FILE: optional.dfy ===
/** An optional value: a control's parent, a creation that pygame refuses. */
module Optional {

  datatype Option<T> = None | Some(value: T)
}

=== FILE: setters.dfy ===
/** The constructors and the property setters of the controls, as changes
    of the tree value: the `x`, `y`, `width` and `height` setters, the
    `text` and `is_password` setters of `Textbox`, the `closable` setter of
    `Form`, the callback binders, and `__init__` of each kind. */
module Setters {
  import opened Geometry
  import opened Optional
  import opened Nodes
  import opened ControlTree
  import TextboxLogic
  import Widgets
  import FormChrome
  import Interaction
  import Forest

  // -----------------------------------------------------------------------
  // The rectangle setters

  /** The four properties of a control's local rectangle with a setter. */
  datatype Field = PosX | PosY | Width | Height

  function FieldOf(r: Rect, f: Field): int
  {
    match f
    case PosX => r.x
    case PosY => r.y
    case Width => r.w
    case Height => r.h
  }

  /** The rectangle with one property assigned. */
  function WithField(r: Rect, f: Field, v: int): (s: Rect)
    ensures FieldOf(s, f) == v
    ensures forall g | g != f :: FieldOf(s, g) == FieldOf(r, g)
  {
    match f
    case PosX => r.(x := v)
    case PosY => r.(y := v)
    case Width => r.(w := v)
    case Height => r.(h := v)
  }

  /** The `x`, `y`, `width` and `height` setters: one property of the local
      rectangle is assigned and `_update_render_rect` recomputes the render
      rectangle of the control. The children's render rectangles are left
      as they were, still offset by the old origin. */
  function Assign(t: Tree, x: Id, f: Field, v: int): (r: Tree)
    requires x in t.nodes && (x in t.parent ==> t.parent[x] in t.nodes)
    ensures r.nodes.Keys == t.nodes.Keys && r.controls == t.controls && r.parent == t.parent
    ensures r.nextId == t.nextId && r.log == t.log
    ensures FieldOf(r.nodes[x].rect, f) == v
    ensures forall g | g != f :: FieldOf(r.nodes[x].rect, g) == FieldOf(t.nodes[x].rect, g)
    ensures r.nodes[x] == t.nodes[x].(rect := r.nodes[x].rect, render := r.nodes[x].render)
    ensures forall y | y in t.nodes && y != x :: r.nodes[y] == t.nodes[y]
  {
    var m := WithField(t.nodes[x].rect, f, v);
    t.(nodes := t.nodes[x := t.nodes[x].(rect := m, render := RenderRect(m, ParentRect(t, x)))])
  }

  /** After a setter the render rectangle is derived from the new local
      rectangle: the same rectangle without a parent, shifted by the
      parent's local origin with one; the tree stays coherent. */
  lemma AssignRender(t: Tree, depth: map<Id, nat>, bound: nat, x: Id, f: Field, v: int)
    requires Coherent(t, depth, bound) && x in t.nodes
    ensures x in t.parent ==> t.parent[x] in t.nodes
    ensures var r := Assign(t, x, f, v);
      && Coherent(r, depth, bound)
      && r.nodes[x].render.w == r.nodes[x].rect.w && r.nodes[x].render.h == r.nodes[x].rect.h
      && (x !in r.parent ==> r.nodes[x].render == r.nodes[x].rect)
      && (x in r.parent ==>
            && r.nodes[x].render.x == r.nodes[x].rect.x + r.nodes[r.parent[x]].rect.x
            && r.nodes[x].render.y == r.nodes[x].rect.y + r.nodes[r.parent[x]].rect.y)
  {
    ChildrenOfParent(t, depth, bound, x);
    var r := Assign(t, x, f, v);
    assert NodeOk(x, r.nodes[x], t.parent);
    PutCoherent(t, depth, bound, x, r.nodes[x]);
    if x in t.parent {
      assert t.parent[x] != x;
    }
  }

  /** The parent of a control is a control, and not the control itself. */
  lemma ChildrenOfParent(t: Tree, depth: map<Id, nat>, bound: nat, x: Id)
    requires Rooted(t, depth, bound) && x in t.nodes
    ensures x in t.parent ==> t.parent[x] in t.nodes && t.parent[x] != x
  {
    if x in t.parent {
      assert depth[x] == depth[t.parent[x]] + 1;
    }
  }

  /** Setting the `visible` property. */
  function SetVisible(t: Tree, x: Id, v: bool): (r: Tree)
    requires x in t.nodes
    ensures r.nodes.Keys == t.nodes.Keys && r.nodes[x].visible == v && r.nodes[x].(visible := t.nodes[x].visible) == t.nodes[x]
    ensures r == t.(nodes := r.nodes) && forall y | y in t.nodes && y != x :: r.nodes[y] == t.nodes[y]
  {
    t.(nodes := t.nodes[x := t.nodes[x].(visible := v)])
  }

  // -----------------------------------------------------------------------
  // The text box setters

  /** The `text` setter on a text box of the tree: the buffer changes as
      `AssignText` says, and the changed-text callback fires when the text
      differs and one is bound. */
  function SetText(t: Tree, x: Id, s: string): (r: Tree)
    requires x in t.nodes && t.nodes[x].kind.TextboxKind?
    ensures x in r.nodes && r.nodes[x].kind.TextboxKind? && r.nodes[x].kind.box.text == s
    ensures TextboxLogic.Consistent(t.nodes[x].kind.box) ==> TextboxLogic.Consistent(r.nodes[x].kind.box)
    ensures s == t.nodes[x].kind.box.text ==> r == t
    ensures r.log == t.log + if s != t.nodes[x].kind.box.text && t.nodes[x].kind.onChangedText
                             then [Fired(x, ChangedTextSlot)] else []
    ensures r.nodes == t.nodes[x := r.nodes[x]] && r.controls == t.controls && r.parent == t.parent
    ensures r.nextId == t.nextId
  {
    var n := t.nodes[x];
    var o := TextboxLogic.AssignText(n.kind.box, s);
    if o.fired then
      t.(nodes := t.nodes[x := n.(kind := n.kind.(box := o.box))],
         log := t.log + if n.kind.onChangedText then [Fired(x, ChangedTextSlot)] else [])
    else
      Unchanged(t.nodes, x);
      t
  }

  /** The `is_password` setter on a text box of the tree: only the shown
      string is recomputed, and nothing fires. */
  function SetPassword(t: Tree, x: Id, password: bool): (r: Tree)
    requires x in t.nodes && t.nodes[x].kind.TextboxKind?
    ensures x in r.nodes && r.nodes[x].kind.TextboxKind?
    ensures var b := r.nodes[x].kind.box;
      b.password == password && b.shown == TextboxLogic.Mask(b.text, password)
      && b.(shown := t.nodes[x].kind.box.shown, password := t.nodes[x].kind.box.password) == t.nodes[x].kind.box
    ensures r == t.(nodes := t.nodes[x := t.nodes[x].(kind := r.nodes[x].kind)])
  {
    var n := t.nodes[x];
    t.(nodes := t.nodes[x := n.(kind := n.kind.(box := TextboxLogic.SetPassword(n.kind.box, password)))])
  }

  /** Toggling `is_password` twice gives back the box: the shown string
      is always the mask of the text. */
  lemma PasswordTwice(t: Tree, depth: map<Id, nat>, bound: nat, x: Id, password: bool)
    requires Coherent(t, depth, bound) && x in t.nodes && t.nodes[x].kind.TextboxKind?
    ensures SetPassword(SetPassword(t, x, !t.nodes[x].kind.box.password), x, t.nodes[x].kind.box.password) == t
  {
    assert NodeOk(x, t.nodes[x], t.parent);
    var r := SetPassword(SetPassword(t, x, !t.nodes[x].kind.box.password), x, t.nodes[x].kind.box.password);
    assert r.nodes[x] == t.nodes[x];
    Unchanged(t.nodes, x);
  }

  /** The `text` setter keeps the tree coherent. */
  lemma SetTextCoherent(t: Tree, depth: map<Id, nat>, bound: nat, x: Id, s: string)
    requires Coherent(t, depth, bound) && x in t.nodes && t.nodes[x].kind.TextboxKind?
    ensures Coherent(SetText(t, x, s), depth, bound)
  {
    assert NodeOk(x, t.nodes[x], t.parent);
    var r := SetText(t, x, s);
    assert NodeOk(x, r.nodes[x], t.parent);
    assert r == t.(nodes := t.nodes[x := r.nodes[x]], log := r.log);
    PutLogCoherent(t, depth, bound, x, r.nodes[x], r.log);
  }

  /** The `is_password` setter keeps the tree coherent. */
  lemma SetPasswordCoherent(t: Tree, depth: map<Id, nat>, bound: nat, x: Id, password: bool)
    requires Coherent(t, depth, bound) && x in t.nodes && t.nodes[x].kind.TextboxKind?
    ensures Coherent(SetPassword(t, x, password), depth, bound)
  {
    var r := SetPassword(t, x, password);
    assert NodeOk(x, r.nodes[x], t.parent);
    PutCoherent(t, depth, bound, x, r.nodes[x]);
  }

  // -----------------------------------------------------------------------
  // Constructors

  /** `Button.__init__`: a button with the three state images of its
      theme; `None` where the theme cannot be cut to the button's size. */
  function NewButton(t: Tree, rect: Rect, text: string): (r: Option<Tree>)
    ensures r.Some? <==> rect.w >= 10 && rect.h >= 10
    ensures r.Some? ==> t.nextId in r.value.nodes && r.value.nodes[t.nextId].kind.ButtonKind? && r.value.nodes[t.nextId].rect == rect
  {
    match Widgets.ButtonTheme(rect.w, rect.h)
    case None => None
    case Some(images) => Some(Create(t, rect, ButtonKind(text, images)))
  }

  /** `CheckBox.__init__`: a 16 x 16 box at (`x`, `y`), whatever size was
      asked for, with no changed-value callback. */
  function NewCheckBox(t: Tree, x: int, y: int, value: bool, text: string): (r: Tree)
    ensures t.nextId in r.nodes && r.nodes[t.nextId].rect == Rect(x, y, 16, 16)
    ensures r.nodes[t.nextId].kind == CheckBoxKind(value, text, false)
  {
    Create(t, Rect(x, y, 16, 16), CheckBoxKind(value, text, false))
  }

  /** `Textbox.__init__` at tick `now`: the initial text goes through the
      setter while no callback is bound, so nothing fires; `None` where
      the theme cannot be cut to the box's size. */
  function NewTextbox(t: Tree, rect: Rect, text: string, now: int): (r: Option<Tree>)
    ensures r.Some? <==> rect.w >= 10 && rect.h >= 10
    ensures r.Some? ==> t.nextId in r.value.nodes && var n := r.value.nodes[t.nextId];
      && n.kind.TextboxKind? && n.kind.box.text == text && n.kind.box.shown == text
      && n.kind.box.index == 0 && !n.kind.onChangedText && r.value.log == t.log
  {
    if Widgets.TextboxTheme(rect.w, rect.h).None? then None
    else Some(Create(t, rect, TextboxKind(TextboxLogic.NewTextbox(text, now), false)))
  }

  /** A close button for form `f`: a 16 x 16 button at the right end of
      the title row, added to `f`, whose mouse-up hides `f`. */
  function WithCloseButton(t: Tree, f: Id, images: Widgets.ButtonImages): (r: Tree)
    requires f in t.nodes && f in t.controls && t.nextId != f
  {
    BindHide(Attach(Create(t, Rect(t.nodes[f].rect.w - 16, 0, 16, 16), ButtonKind([], images)), f, t.nextId),
             t.nextId, f)
  }

  /** `set_on_mouse_up(lambda: setattr(self, 'visible', False))`. */
  function BindHide(u: Tree, b: Id, f: Id): (r: Tree)
    requires b in u.nodes
  {
    u.(nodes := u.nodes[b := u.nodes[b].(onMouseUp := Hide(f))])
  }

  /** The `closable` setter: the flag is stored, and assigning `True`
      adds a new close button (one more each time), with the images the
      button cuts from its theme. */
  function SetClosable(t: Tree, f: Id, value: bool): (r: Tree)
    requires f in t.nodes && f in t.controls && t.nodes[f].kind.FormKind? && t.nextId != f
    ensures f in r.nodes && r.nodes[f] == t.nodes[f].(kind := t.nodes[f].kind.(closable := value))
    ensures !value ==> r == t.(nodes := t.nodes[f := r.nodes[f]])
  {
    var n := t.nodes[f];
    var u := t.(nodes := t.nodes[f := n.(kind := n.kind.(closable := value))]);
    if value then WithCloseButton(u, f, Widgets.ButtonTheme(16, 16).value) else u
  }

  /** Assigning `closable` stores the flag; `True` appends a fresh close
      button to the form's children, even when it already has one, and a
      release over that button hides the form. */
  lemma SetClosableAdds(t: Tree, f: Id)
    requires f in t.nodes && f in t.controls && t.nodes[f].kind.FormKind? && t.nextId != f
    ensures var r := SetClosable(t, f, true); var b := t.nextId;
      && r.nodes[f] == t.nodes[f].(kind := t.nodes[f].kind.(closable := true))
      && r.controls[f] == t.controls[f] + [b] && r.parent[b] == f
      && r.nodes[b].onMouseUp == Hide(f) && r.nodes[b].kind.ButtonKind?
      && Interaction.Released(r, b).nodes[f] == r.nodes[f].(visible := false)
  {
    var n := t.nodes[f];
    var m := n.(kind := n.kind.(closable := true));
    var u := t.(nodes := t.nodes[f := m]);
    var b := t.nextId;
    var c := Create(u, Rect(m.rect.w - 16, 0, 16, 16), ButtonKind([], Widgets.ButtonTheme(16, 16).value));
    assert c.controls[f] == t.controls[f] && c.nodes[f] == m;
    var a := Attach(c, f, b);
    assert a.controls[f] == t.controls[f] + [b] && a.nodes[f] == m;
    var r := BindHide(a, b, f);
    assert r == SetClosable(t, f, true);
  }

  /** `Form.__init__`: a form with its drag strip along the top and not
      moving, and, when closable, a close button whose images the form's
      theme then replaces by the close cells; `None` where the chrome
      cannot be laid out. */
  function NewForm(t: Tree, rect: Rect, caption: string, closable: bool, movable: bool): (r: Option<Tree>)
  {
    match FormChrome.ChromeTiles(rect.w, rect.h, movable)
    case None => None
    case Some(chrome) =>
      var u := Create(t, rect, FormKind(caption, closable, movable, Rect(rect.x, rect.y, rect.w, 16), false, chrome));
      Some(if closable then WithCloseButton(u, t.nextId, Widgets.CloseButtonImages()) else u)
  }

  /** A new form has the title strip (x, y, width, 16), is not moving and
      is drawn at its own rectangle; a closable one has exactly one child,
      the close button, at local (width - 16, 0), 16 x 16, drawn at the
      right end of the title row, whose release hides the form; a form
      that is not closable has no child. */
  lemma NewFormShape(t: Tree, depth: map<Id, nat>, bound: nat, rect: Rect, caption: string, closable: bool, movable: bool)
    requires Coherent(t, depth, bound)
    ensures var r := NewForm(t, rect, caption, closable, movable);
      && (r.Some? <==> rect.w >= 32 && rect.h >= 32)
      && (r.Some? ==>
            var f := t.nextId; var n := r.value.nodes[f];
            && n.kind.FormKind? && n.rect == rect && n.render == rect && n.visible
            && n.kind.strip == Rect(rect.x, rect.y, rect.w, 16) && !n.kind.moving
            && n.kind.closable == closable && n.kind.movable == movable
            && (closable ==>
                  var b := t.nextId + 1;
                  && r.value.controls[f] == [b] && r.value.parent[b] == f
                  && r.value.nodes[b].rect == Rect(rect.w - 16, 0, 16, 16)
                  && r.value.nodes[b].render == Rect(rect.x + rect.w - 16, rect.y, 16, 16)
                  && r.value.nodes[b].onMouseUp == Hide(f)
                  && r.value.nodes[b].kind == ButtonKind([], Widgets.CloseButtonImages())
                  && Interaction.Released(r.value, b).nodes[f] == n.(visible := false))
            && (!closable ==> r.value.controls[f] == []))
  {
    CreateFresh(t, depth, bound, rect, Plain);
  }

  /** Adding a close button keeps the tree coherent, with the button one
      level below the form. */
  lemma CloseButtonCoherent(t: Tree, depth: map<Id, nat>, bound: nat, f: Id, images: Widgets.ButtonImages)
    returns (depth': map<Id, nat>, bound': nat)
    requires Coherent(t, depth, bound) && f in t.nodes
    ensures t.nextId != f && f in t.controls
    ensures Coherent(WithCloseButton(t, f, images), depth', bound')
  {
    depth', bound' := ButtonAttached(t, depth, bound, f, images);
    HideCoherent(Attach(Create(t, Rect(t.nodes[f].rect.w - 16, 0, 16, 16), ButtonKind([], images)), f, t.nextId),
                 depth', bound', f, t.nextId);
  }

  /** The close button, created and added to the form, before its action
      is bound. */
  lemma ButtonAttached(t: Tree, depth: map<Id, nat>, bound: nat, f: Id, images: Widgets.ButtonImages)
    returns (depth': map<Id, nat>, bound': nat)
    requires Coherent(t, depth, bound) && f in t.nodes
    ensures t.nextId != f && f in t.controls
    ensures var u := Attach(Create(t, Rect(t.nodes[f].rect.w - 16, 0, 16, 16), ButtonKind([], images)), f, t.nextId);
      Coherent(u, depth', bound') && t.nextId in u.nodes && t.nextId in u.parent && u.parent[t.nextId] == f
  {
    var b := t.nextId;
    var c := Create(t, Rect(t.nodes[f].rect.w - 16, 0, 16, 16), ButtonKind([], images));
    var d := CreatedRoot(t, depth, bound, f, images);
    depth', bound' := AttachCoherent(c, d, bound + 1, f, b);
  }

  /** The button just created is a root, not above the form. */
  lemma CreatedRoot(t: Tree, depth: map<Id, nat>, bound: nat, f: Id, images: Widgets.ButtonImages)
    returns (d: map<Id, nat>)
    requires Coherent(t, depth, bound) && f in t.nodes
    ensures t.nextId != f && f in t.controls
    ensures var c := Create(t, Rect(t.nodes[f].rect.w - 16, 0, 16, 16), ButtonKind([], images));
      && d == depth[t.nextId := 0] && Coherent(c, d, bound + 1) && f in c.nodes && t.nextId in c.nodes
      && t.nextId !in c.parent && !Under(c, d, f, t.nextId)
  {
    var b := t.nextId;
    var kind := ButtonKind([], images);
    var rect := Rect(t.nodes[f].rect.w - 16, 0, 16, 16);
    CreateFresh(t, depth, bound, rect, kind);
    CreateCoherent(t, depth, bound, rect, kind);
    var c := Create(t, rect, kind);
    d := depth[b := 0];
    if Under(c, d, f, b) {
      Forest.LeafOnlyItself(c.parent, c.controls, d, bound + 1, f, b);
    }
  }

  /** Binding the hide action to a button whose parent is the form keeps
      the tree coherent. */
  lemma HideCoherent(u: Tree, depth: map<Id, nat>, bound: nat, f: Id, b: Id)
    requires Coherent(u, depth, bound) && b in u.nodes && b in u.parent && u.parent[b] == f
    ensures Coherent(BindHide(u, b, f), depth, bound)
  {
    assert NodeOk(b, u.nodes[b], u.parent);
    PutCoherent(u, depth, bound, b, u.nodes[b].(onMouseUp := Hide(f)));
  }

  // -----------------------------------------------------------------------
  // The callback binders

  /** The callbacks a program can bind: `set_on_mouse_up`,
      `set_on_mouse_down`, `CheckBox.set_on_changed_value` and
      `Textbox.set_on_changed_text`. */
  datatype Handler = MouseUpHandler | MouseDownHandler | ChangedValueHandler | ChangedTextHandler

  /** The control may take the handler: every control has the mouse
      callbacks, only a check box a changed-value one and only a text box
      a changed-text one. */
  predicate Accepts(n: Node, h: Handler)
  {
    match h
    case MouseUpHandler => true
    case MouseDownHandler => true
    case ChangedValueHandler => n.kind.CheckBoxKind?
    case ChangedTextHandler => n.kind.TextboxKind?
  }

  /** Binding a callback: the handler replaces whatever was bound before,
      including a close button's hide action. */
  function Bind(t: Tree, x: Id, h: Handler): (r: Tree)
    requires x in t.nodes && Accepts(t.nodes[x], h)
    ensures x in r.nodes && r == t.(nodes := t.nodes[x := r.nodes[x]])
    ensures r.nodes[x].rect == t.nodes[x].rect && r.nodes[x].render == t.nodes[x].render
    ensures r.nodes[x].visible == t.nodes[x].visible
  {
    var n := t.nodes[x];
    var m := match h
      case MouseUpHandler => n.(onMouseUp := Notify)
      case MouseDownHandler => n.(onMouseDown := true)
      case ChangedValueHandler => n.(kind := n.kind.(onChangedValue := true))
      case ChangedTextHandler => n.(kind := n.kind.(onChangedText := true));
    t.(nodes := t.nodes[x := m])
  }

  /** Binding a callback keeps the tree coherent. */
  lemma BindCoherent(t: Tree, depth: map<Id, nat>, bound: nat, x: Id, h: Handler)
    requires Coherent(t, depth, bound) && x in t.nodes && Accepts(t.nodes[x], h)
    ensures Coherent(Bind(t, x, h), depth, bound)
  {
    assert NodeOk(x, t.nodes[x], t.parent);
    PutCoherent(t, depth, bound, x, Bind(t, x, h).nodes[x]);
  }

  /** Once bound, a callback fires where the code calls it: a release
      over the control logs the mouse-up call, a change of the check box's
      value the changed-value call and a change of the text box's text
      the changed-text call; the same value or text fires nothing. */
  lemma BoundFires(t: Tree, x: Id, value: bool, s: string)
    requires x in t.nodes
    ensures Interaction.Released(Bind(t, x, MouseUpHandler), x).log == t.log + [Fired(x, MouseUpSlot)]
    ensures Bind(t, x, MouseDownHandler).nodes[x].onMouseDown
    ensures t.nodes[x].kind.CheckBoxKind? ==>
      Interaction.AssignValue(Bind(t, x, ChangedValueHandler), x, value).log ==
        t.log + if value != t.nodes[x].kind.value then [Fired(x, ChangedValueSlot)] else []
    ensures t.nodes[x].kind.TextboxKind? ==>
      SetText(Bind(t, x, ChangedTextHandler), x, s).log ==
        t.log + if s != t.nodes[x].kind.box.text then [Fired(x, ChangedTextSlot)] else []
  {
  }

  // -----------------------------------------------------------------------
  // The other setters keep the tree coherent

  /** The `visible` setter keeps the tree coherent. */
  lemma SetVisibleCoherent(t: Tree, depth: map<Id, nat>, bound: nat, x: Id, v: bool)
    requires Coherent(t, depth, bound) && x in t.nodes
    ensures Coherent(SetVisible(t, x, v), depth, bound)
  {
    assert NodeOk(x, t.nodes[x], t.parent);
    PutCoherent(t, depth, bound, x, t.nodes[x].(visible := v));
  }

  /** The `value` setter of a check box keeps the tree coherent. */
  lemma AssignValueCoherent(t: Tree, depth: map<Id, nat>, bound: nat, x: Id, value: bool)
    requires Coherent(t, depth, bound) && x in t.nodes && t.nodes[x].kind.CheckBoxKind?
    ensures Coherent(Interaction.AssignValue(t, x, value), depth, bound)
  {
    var r := Interaction.AssignValue(t, x, value);
    assert NodeOk(x, t.nodes[x], t.parent);
    PutLogCoherent(t, depth, bound, x, r.nodes[x], r.log);
  }

  /** A new form keeps the tree coherent, with the form a root. */
  lemma NewFormCoherent(t: Tree, depth: map<Id, nat>, bound: nat, rect: Rect, caption: string, closable: bool, movable: bool)
    returns (depth': map<Id, nat>, bound': nat)
    requires Coherent(t, depth, bound)
    ensures var r := NewForm(t, rect, caption, closable, movable);
      r.Some? ==> Coherent(r.value, depth', bound')
  {
    depth', bound' := depth, bound;
    match FormChrome.ChromeTiles(rect.w, rect.h, movable)
    case None =>
    case Some(chrome) =>
      var kind := FormKind(caption, closable, movable, Rect(rect.x, rect.y, rect.w, 16), false, chrome);
      CreateCoherent(t, depth, bound, rect, kind);
      depth', bound' := depth[t.nextId := 0], bound + 1;
      if closable {
        var u := Create(t, rect, kind);
        depth', bound' := CloseButtonCoherent(u, depth', bound', t.nextId, Widgets.CloseButtonImages());
      }
  }

  /** The `closable` setter keeps the tree coherent. */
  lemma SetClosableCoherent(t: Tree, depth: map<Id, nat>, bound: nat, f: Id, value: bool)
    returns (depth': map<Id, nat>, bound': nat)
    requires Coherent(t, depth, bound) && f in t.nodes && t.nodes[f].kind.FormKind?
    ensures f in t.controls && t.nextId != f
    ensures Coherent(SetClosable(t, f, value), depth', bound')
  {
    var n := t.nodes[f];
    assert NodeOk(f, n, t.parent);
    var m := n.(kind := n.kind.(closable := value));
    PutCoherent(t, depth, bound, f, m);
    depth', bound' := depth, bound;
    if value {
      depth', bound' := CloseButtonCoherent(t.(nodes := t.nodes[f := m]), depth, bound, f, Widgets.ButtonTheme(16, 16).value);
    }
  }
}

=== FILE: step.dfy ===
/** `Control.update` for one event: the hover and click state machine, the
    activation a press causes, the callbacks a release fires, and the check
    box's override of the mouse-down call. The pointer position, which the
    code polls with `mouse.get_pos()`, is a parameter. */
module Interaction {
  import opened Geometry
  import opened Nodes
  import opened ControlTree
  import opened Events
  import Activation
  import Forest

  // -----------------------------------------------------------------------
  // What handling events at a control leaves alone

  /** The child lists outside the subtree of `c` are as they were, except
      that a control above `c` may have brought the child towards `c` to
      the front (the end of its list), as `set_active(True)` does. */
  ghost predicate ListsKept(t: Tree, r: Tree, depth: map<Id, nat>, c: Id)
    requires Activation.Ranks(t, depth) && c in t.nodes && r.controls.Keys == t.controls.Keys
  {
    forall a | a in t.controls && !Under(t, depth, a, c) ::
      r.controls[a] == t.controls[a] ||
      (Under(t, depth, c, a) &&
       r.controls[a] == Forest.MoveToEnd(t.controls[a], Forest.Branch(t.parent, depth, t.controls.Keys, c, a)))
  }

  /** The controls outside the subtree of `c` keep their state, except the
      `active` flag (which activation switches) and the visibility of the
      parent of `c` (which a close button hides). */
  ghost predicate NodesKept(t: Tree, r: Tree, depth: map<Id, nat>, c: Id)
    requires r.nodes.Keys == t.nodes.Keys
  {
    forall y | y in t.nodes && !Under(t, depth, y, c) ::
      r.nodes[y] == t.nodes[y].(active := r.nodes[y].active,
                                visible := if c in t.parent && y == t.parent[c] then r.nodes[y].visible
                                           else t.nodes[y].visible)
  }

  /** What an update of `c` keeps: the controls, the links and the ids, the
      callbacks already fired (the log only grows), and the lists and
      controls outside the subtree of `c` up to the changes above. */
  ghost predicate Kept(t: Tree, r: Tree, depth: map<Id, nat>, c: Id)
    requires Activation.Ranks(t, depth) && c in t.nodes
  {
    && r.nodes.Keys == t.nodes.Keys && r.controls.Keys == t.controls.Keys
    && r.parent == t.parent && r.nextId == t.nextId && t.log <= r.log
    && ListsKept(t, r, depth, c) && NodesKept(t, r, depth, c)
  }

  /** What `update` keeps of the control itself: all but the hover, click
      and active flags and a check box's value. */
  ghost predicate OwnKept(n: Node, m: Node)
  {
    && m == n.(hovered := m.hovered, clicked := m.clicked, active := m.active, kind := m.kind)
    && (if n.kind.CheckBoxKind? then m.kind.CheckBoxKind? && m.kind == n.kind.(value := m.kind.value)
        else m.kind == n.kind)
  }

  /** Two updates of `c` in a row keep what each keeps: bringing the same
      child to the front twice is bringing it once. */
  lemma KeptTrans(t: Tree, u: Tree, r: Tree, depth: map<Id, nat>, bound: nat, c: Id)
    requires Shaped(t, depth, bound) && c in t.nodes
    requires Kept(t, u, depth, c) && Activation.Ranks(u, depth) && Kept(u, r, depth, c)
    ensures Kept(t, r, depth, c)
  {
    forall a | a in t.controls && !Under(t, depth, a, c) && u.controls[a] != t.controls[a]
      ensures r.controls[a] == u.controls[a]
    {
      Forest.MoveToEndTwice(t.controls[a], Forest.Branch(t.parent, depth, t.controls.Keys, c, a));
    }
    assert ListsKept(t, r, depth, c);
    LogTrans(t.log, u.log, r.log);
  }

  lemma LogTrans(a: seq<Fired>, b: seq<Fired>, c: seq<Fired>)
    requires a <= b && b <= c
    ensures a <= c
  {
    assert c[..|a|] == b[..|b|][..|a|];
  }

  /** What an update of a child `d` of `c` keeps, an update of `c` keeps. */
  lemma KeptNarrow(t: Tree, r: Tree, depth: map<Id, nat>, bound: nat, d: Id, c: Id)
    requires Rooted(t, depth, bound) && d in t.nodes && d in t.parent && t.parent[d] == c
    requires Kept(t, r, depth, d)
    ensures c in t.nodes && Kept(t, r, depth, c)
  {
    var keys := t.controls.Keys;
    forall y | y in t.nodes && !Under(t, depth, y, c) ensures !Under(t, depth, y, d) {
      if Under(t, depth, y, d) {
        Forest.WithinUp(t.parent, depth, keys, d, c);
        Forest.WithinTrans(t.parent, depth, keys, y, d, c);
      }
    }
    forall a | a in t.controls && !Under(t, depth, a, c) && r.controls[a] != t.controls[a]
      ensures Under(t, depth, c, a) &&
        r.controls[a] == Forest.MoveToEnd(t.controls[a], Forest.Branch(t.parent, depth, keys, c, a))
    {
      Forest.WithinUp(t.parent, depth, keys, d, a);
      Forest.BranchOfChild(t.parent, depth, keys, d, a);
    }
  }

  // -----------------------------------------------------------------------
  // The parts of one step

  /** The hover part of `update`: hovered becomes whether the render
      rectangle holds the pointer, and leaving hover also clears clicked. */
  function Hover(n: Node, pos: Point): (m: Node)
    ensures m.hovered == Contains(n.render, pos)
    ensures m.clicked == (n.clicked && (Contains(n.render, pos) || !n.hovered))
    ensures m == n.(hovered := m.hovered, clicked := m.clicked)
  {
    if Contains(n.render, pos) then n.(hovered := true)
    else if n.hovered then n.(hovered := false, clicked := false)
    else n
  }

  /** The `value` setter of `CheckBox`: a different value is stored and
      fires the changed-value callback when one is bound; the same value
      changes nothing. */
  function AssignValue(t: Tree, x: Id, value: bool): (r: Tree)
    requires x in t.nodes && t.nodes[x].kind.CheckBoxKind?
    ensures x in r.nodes && r.nodes[x].kind == t.nodes[x].kind.(value := value)
    ensures r.nodes == t.nodes[x := t.nodes[x].(kind := r.nodes[x].kind)]
    ensures r.controls == t.controls && r.parent == t.parent && r.nextId == t.nextId
    ensures r.log == t.log + if value != t.nodes[x].kind.value && t.nodes[x].kind.onChangedValue
                             then [Fired(x, ChangedValueSlot)] else []
  {
    var n := t.nodes[x];
    if n.kind.value != value then
      t.(nodes := t.nodes[x := n.(kind := n.kind.(value := value))],
         log := t.log + if n.kind.onChangedValue then [Fired(x, ChangedValueSlot)] else [])
    else
      Unchanged(t.nodes, x);
      t
  }

  /** `CheckBox._call_on_mouse_down` begins with `value = not value`; other
      controls do not. */
  function Toggled(t: Tree, x: Id): (r: Tree)
    requires x in t.nodes
  {
    if t.nodes[x].kind.CheckBoxKind? then AssignValue(t, x, !t.nodes[x].kind.value) else t
  }

  /** The kind after a press: a check box's value negated. */
  function Flipped(k: Kind): Kind
  {
    if k.CheckBoxKind? then k.(value := !k.value) else k
  }

  /** Two presses on a check box restore its value; the changed-value
      callback fires on each when bound. */
  lemma ToggleTwice(t: Tree, x: Id)
    requires x in t.nodes && t.nodes[x].kind.CheckBoxKind?
    ensures var r := Toggled(Toggled(t, x), x);
      && r.nodes == t.nodes && r.controls == t.controls && r.parent == t.parent
      && r.log == t.log + if t.nodes[x].kind.onChangedValue
                          then [Fired(x, ChangedValueSlot), Fired(x, ChangedValueSlot)] else []
  {
    var r := Toggled(Toggled(t, x), x);
    assert r.nodes.Keys == t.nodes.Keys;
    forall y | y in t.nodes ensures r.nodes[y] == t.nodes[y] {
    }
    Activation.SameNodes(r.nodes, t.nodes);
  }

  /** `_call_on_mouse_down` (after `clicked` is set): the check box toggles,
      then `set_active(True)`, then the mouse-down callback when bound. */
  ghost function Pressed(t: Tree, depth: map<Id, nat>, x: Id): (r: Tree)
    requires Activation.Ranks(t, depth) && x in t.nodes
  {
    var w := Activation.Activated(Toggled(t, x), depth, x);
    if t.nodes[x].onMouseDown then w.(log := w.log + [Fired(x, MouseDownSlot)]) else w
  }

  /** `_call_on_mouse_up` (after `clicked` is cleared): the bound callback
      fires, or a close button hides its form. */
  function Released(t: Tree, x: Id): (r: Tree)
    requires x in t.nodes
    requires t.nodes[x].onMouseUp.Hide? ==> t.nodes[x].onMouseUp.form in t.nodes
    ensures r.controls == t.controls && r.parent == t.parent && r.nextId == t.nextId
    ensures r.log == t.log + if t.nodes[x].onMouseUp.Notify? then [Fired(x, MouseUpSlot)] else []
    ensures t.nodes[x].onMouseUp.Hide? ==>
              r.nodes == t.nodes[t.nodes[x].onMouseUp.form := t.nodes[t.nodes[x].onMouseUp.form].(visible := false)]
    ensures !t.nodes[x].onMouseUp.Hide? ==> r.nodes == t.nodes
  {
    match t.nodes[x].onMouseUp
    case NoAction => t
    case Notify => t.(log := t.log + [Fired(x, MouseUpSlot)])
    case Hide(f) => t.(nodes := t.nodes[f := t.nodes[f].(visible := false)])
  }

  /** What a step needs: the ranks, and a close button's form is its
      parent. */
  ghost predicate Steppable(t: Tree, depth: map<Id, nat>, x: Id)
  {
    && Activation.Ranks(t, depth) && x in t.nodes
    && (t.nodes[x].onMouseUp.Hide? ==> x in t.parent && t.nodes[x].onMouseUp.form == t.parent[x])
  }

  /** A coherent tree can step any of its controls. */
  lemma HideTarget(t: Tree, depth: map<Id, nat>, bound: nat, x: Id)
    requires Coherent(t, depth, bound) && x in t.nodes
    ensures Steppable(t, depth, x)
  {
    assert NodeOk(x, t.nodes[x], t.parent);
  }

  /** What `update` does with one event: nothing when invisible; otherwise
      the hover update, then a press while hovered and not clicked sets
      clicked and runs the mouse-down call, a release while hovered and
      clicked clears clicked and runs the mouse-up call, and a press while
      not hovered switches the control and its subtree off. */
  ghost function Stepped(t: Tree, depth: map<Id, nat>, x: Id, pos: Point, e: Event): (r: Tree)
    requires Steppable(t, depth, x)
  {
    var n := t.nodes[x];
    if !n.visible then t
    else
      var h := Hover(n, pos);
      if h.hovered && e.MouseDown? && !h.clicked then
        Pressed(t.(nodes := t.nodes[x := h.(clicked := true)]), depth, x)
      else if h.hovered && e.MouseUp? && h.clicked then
        Released(t.(nodes := t.nodes[x := h.(clicked := false)]), x)
      else if !h.hovered && e.MouseDown? then
        Activation.Deactivated(t.(nodes := t.nodes[x := h]), depth, x)
      else t.(nodes := t.nodes[x := h])
  }

  // -----------------------------------------------------------------------
  // The step as the code runs it

  /** `_call_on_mouse_down`, with the check box's override. */
  method Press(t: Tree, ghost depth: map<Id, nat>, ghost bound: nat, x: Id) returns (r: Tree)
    requires Rooted(t, depth, bound) && x in t.nodes
    ensures r == Pressed(t, depth, x)
  {
    r := Toggled(t, x);
    r := Activation.Activate(r, depth, bound, x);
    if t.nodes[x].onMouseDown {
      r := r.(log := r.log + [Fired(x, MouseDownSlot)]);
    }
  }

  /** `Control.update` for one event. */
  method Step(t: Tree, ghost depth: map<Id, nat>, ghost bound: nat, x: Id, pos: Point, e: Event) returns (r: Tree)
    requires Coherent(t, depth, bound) && x in t.nodes
    ensures r == Stepped(t, depth, x, pos, e)
    ensures !t.nodes[x].visible ==> r == t
  {
    var n := t.nodes[x];
    if !n.visible {
      return t;
    }
    var h := Hover(n, pos);
    r := t.(nodes := t.nodes[x := h]);
    HideTarget(t, depth, bound, x);
    if h.hovered {
      if e.MouseDown? {
        if !h.clicked {
          r := t.(nodes := t.nodes[x := h.(clicked := true)]);
          r := Press(r, depth, bound, x);
        }
      } else if e.MouseUp? {
        if h.clicked {
          r := Released(t.(nodes := t.nodes[x := h.(clicked := false)]), x);
        }
      }
    } else if e.MouseDown? {
      r := Activation.Deactivate(r, depth, bound, x);
    }
  }

  // -----------------------------------------------------------------------
  // What one step keeps

  /** The log is not part of the shape invariant. */
  lemma LogCoherent(t: Tree, depth: map<Id, nat>, bound: nat, log: seq<Fired>)
    requires Coherent(t, depth, bound)
    ensures Coherent(t.(log := log), depth, bound)
  {
  }

  /** A press keeps the tree coherent. */
  lemma PressedCoherent(t: Tree, depth: map<Id, nat>, bound: nat, x: Id)
    requires Coherent(t, depth, bound) && x in t.nodes
    ensures Coherent(Pressed(t, depth, x), depth, bound)
  {
    var v := Toggled(t, x);
    if t.nodes[x].kind.CheckBoxKind? {
      assert NodeOk(x, t.nodes[x], t.parent);
      PutCoherent(t, depth, bound, x, v.nodes[x]);
      LogCoherent(t.(nodes := v.nodes), depth, bound, v.log);
      assert v == t.(nodes := v.nodes).(log := v.log);
    }
    Activation.ActivatedCoherent(v, depth, bound, x);
    var w := Activation.Activated(v, depth, x);
    LogCoherent(w, depth, bound, w.log + [Fired(x, MouseDownSlot)]);
  }

  /** One step keeps the tree coherent. */
  lemma SteppedCoherent(t: Tree, depth: map<Id, nat>, bound: nat, x: Id, pos: Point, e: Event)
    requires Coherent(t, depth, bound) && x in t.nodes
    ensures Coherent(Stepped(t, depth, x, pos, e), depth, bound)
  {
    var n := t.nodes[x];
    if n.visible {
      var h := Hover(n, pos);
      HideTarget(t, depth, bound, x);
      assert NodeOk(x, n, t.parent);
      if h.hovered && e.MouseDown? && !h.clicked {
        PutCoherent(t, depth, bound, x, h.(clicked := true));
        PressedCoherent(t.(nodes := t.nodes[x := h.(clicked := true)]), depth, bound, x);
      } else if h.hovered && e.MouseUp? && h.clicked {
        var u := t.(nodes := t.nodes[x := h.(clicked := false)]);
        PutCoherent(t, depth, bound, x, h.(clicked := false));
        match n.onMouseUp
        case NoAction =>
        case Notify => LogCoherent(u, depth, bound, u.log + [Fired(x, MouseUpSlot)]);
        case Hide(f) =>
          assert NodeOk(f, u.nodes[f], u.parent);
          PutCoherent(u, depth, bound, f, u.nodes[f].(visible := false));
      } else if !h.hovered && e.MouseDown? {
        PutCoherent(t, depth, bound, x, h);
        Activation.DeactivatedCoherent(t.(nodes := t.nodes[x := h]), depth, bound, x);
      } else {
        PutCoherent(t, depth, bound, x, h);
      }
    }
  }

  /** Changing the state of `x` alone keeps what an update of `x` keeps. */
  lemma PutKept(t: Tree, depth: map<Id, nat>, x: Id, m: Node, log: seq<Fired>)
    requires Activation.Ranks(t, depth) && x in t.nodes && t.log <= log
    ensures Kept(t, t.(nodes := t.nodes[x := m], log := log), depth, x)
  {
  }

  /** An update of `x` followed by a change to the state of `x` alone
      keeps what an update of `x` keeps. */
  lemma PutOwnKept(t: Tree, u: Tree, depth: map<Id, nat>, bound: nat, x: Id, m: Node, log: seq<Fired>)
    requires Shaped(t, depth, bound) && x in t.nodes && Kept(t, u, depth, x) && Activation.Ranks(u, depth)
    requires u.log <= log
    ensures Kept(t, u.(nodes := u.nodes[x := m], log := log), depth, x)
  {
    PutKept(u, depth, x, m, log);
    KeptTrans(t, u, u.(nodes := u.nodes[x := m], log := log), depth, bound, x);
  }

  /** A press, after any change to the state of `x`, keeps what an update
      of `x` keeps. */
  lemma PressedKept(t: Tree, depth: map<Id, nat>, x: Id, m: Node)
    requires Activation.Ranks(t, depth) && x in t.nodes
    ensures Activation.Ranks(t.(nodes := t.nodes[x := m]), depth)
    ensures Kept(t, Pressed(t.(nodes := t.nodes[x := m]), depth, x), depth, x)
  {
    Activation.KeysAfterPut(t.nodes, x, m);
    PressedLists(t, depth, x, m);
    PressedNodes(t, depth, x, m);
  }

  lemma PressedLists(t: Tree, depth: map<Id, nat>, x: Id, m: Node)
    requires Activation.Ranks(t, depth) && x in t.nodes
    requires Activation.Ranks(t.(nodes := t.nodes[x := m]), depth)
    ensures var r := Pressed(t.(nodes := t.nodes[x := m]), depth, x);
      && r.controls.Keys == t.controls.Keys && r.parent == t.parent && r.nextId == t.nextId && t.log <= r.log
      && ListsKept(t, r, depth, x)
  {
    var v := Toggled(t.(nodes := t.nodes[x := m]), x);
    assert v.controls == t.controls && v.parent == t.parent;
  }

  lemma PressedNodes(t: Tree, depth: map<Id, nat>, x: Id, m: Node)
    requires Activation.Ranks(t, depth) && x in t.nodes
    requires Activation.Ranks(t.(nodes := t.nodes[x := m]), depth)
    ensures var r := Pressed(t.(nodes := t.nodes[x := m]), depth, x);
      r.nodes.Keys == t.nodes.Keys && NodesKept(t, r, depth, x)
  {
    var v := Toggled(t.(nodes := t.nodes[x := m]), x);
    assert v.parent == t.parent && v.nodes.Keys == t.nodes.Keys;
    var r := Pressed(t.(nodes := t.nodes[x := m]), depth, x);
    forall y | y in t.nodes && !Under(t, depth, y, x)
      ensures r.nodes[y] == t.nodes[y].(active := r.nodes[y].active)
    {
      assert v.nodes[y] == t.nodes[y];
    }
  }

  /** A release keeps what an update of `x` keeps. */
  lemma ReleasedKept(t: Tree, depth: map<Id, nat>, x: Id, m: Node)
    requires Activation.Ranks(t, depth) && x in t.nodes
    requires m.onMouseUp == t.nodes[x].onMouseUp
    requires m.onMouseUp.Hide? ==> x in t.parent && m.onMouseUp.form == t.parent[x] && t.parent[x] in t.nodes
    ensures Kept(t, Released(t.(nodes := t.nodes[x := m]), x), depth, x)
  {
    var r := Released(t.(nodes := t.nodes[x := m]), x);
    assert NodesKept(t, r, depth, x);
  }

  /** A press outside keeps what an update of `x` keeps. */
  lemma OutsideKept(t: Tree, depth: map<Id, nat>, x: Id, m: Node)
    requires Activation.Ranks(t, depth) && x in t.nodes
    ensures Kept(t, Activation.Deactivated(t.(nodes := t.nodes[x := m]), depth, x), depth, x)
  {
    var r := Activation.Deactivated(t.(nodes := t.nodes[x := m]), depth, x);
    assert NodesKept(t, r, depth, x);
  }

  /** One step keeps what an update of `x` keeps. */
  lemma SteppedKept(t: Tree, depth: map<Id, nat>, x: Id, pos: Point, e: Event)
    requires Steppable(t, depth, x)
    ensures Kept(t, Stepped(t, depth, x, pos, e), depth, x)
  {
    var n := t.nodes[x];
    if n.visible {
      var h := Hover(n, pos);
      if h.hovered && e.MouseDown? && !h.clicked {
        PressedKept(t, depth, x, h.(clicked := true));
      } else if h.hovered && e.MouseUp? && h.clicked {
        ReleasedKept(t, depth, x, h.(clicked := false));
      } else if !h.hovered && e.MouseDown? {
        OutsideKept(t, depth, x, h);
      } else {
        PutKept(t, depth, x, h, t.log);
      }
    } else {
      PutKept(t, depth, x, n, t.log);
      Unchanged(t.nodes, x);
    }
  }

  // -----------------------------------------------------------------------
  // What one step does

  /** A press changes only the active flag of the control itself (and a
      check box's value). */
  lemma PressedOwn(t: Tree, depth: map<Id, nat>, x: Id)
    requires Activation.Ranks(t, depth) && x in t.nodes
    ensures var r := Pressed(t, depth, x); var n := t.nodes[x];
      x in r.nodes && r.nodes[x] == n.(active := true, kind := Flipped(n.kind))
  {
    var v := Toggled(t, x);
    assert Activation.Ranks(v, depth);
    assert Activation.ActiveAfter(v, depth, x, x);
  }

  /** A release leaves the control itself as it is. */
  lemma ReleasedOwn(t: Tree, depth: map<Id, nat>, x: Id)
    requires Activation.Ranks(t, depth) && x in t.nodes
    requires t.nodes[x].onMouseUp.Hide? ==> x in t.parent && t.nodes[x].onMouseUp.form == t.parent[x]
    ensures x in Released(t, x).nodes && Released(t, x).nodes[x] == t.nodes[x]
  {
    if t.nodes[x].onMouseUp.Hide? {
      Forest.WithinDepth(t.parent, depth, t.controls.Keys, x, t.parent[x]);
    }
  }

  /** A step changes only the hover, click and active flags of the control
      itself (and a check box's value); hovered becomes whether the render
      rectangle holds the pointer, and leaving hover clears clicked. */
  lemma StepOwn(t: Tree, depth: map<Id, nat>, x: Id, pos: Point, e: Event)
    requires Steppable(t, depth, x)
    ensures var r := Stepped(t, depth, x, pos, e); var n := t.nodes[x];
      && x in r.nodes
      && OwnKept(n, r.nodes[x])
      && (n.visible ==> r.nodes[x].hovered == Contains(n.render, pos))
      && (n.visible && n.hovered && !Contains(n.render, pos) ==> !r.nodes[x].clicked)
  {
    var n := t.nodes[x];
    if n.visible {
      var h := Hover(n, pos);
      if h.hovered && e.MouseDown? && !h.clicked {
        Activation.KeysAfterPut(t.nodes, x, h.(clicked := true));
        PressedOwn(t.(nodes := t.nodes[x := h.(clicked := true)]), depth, x);
      } else if h.hovered && e.MouseUp? && h.clicked {
        Activation.KeysAfterPut(t.nodes, x, h.(clicked := false));
        ReleasedOwn(t.(nodes := t.nodes[x := h.(clicked := false)]), depth, x);
      }
    }
  }

  /** A press while hovered and not clicked: the control is clicked and
      active, so is every control above it, a check box has toggled, and
      the log gains the changed-value call (a check box with a callback)
      and then the mouse-down call (when bound). A control with a parent
      also switches off every control below it. */
  lemma StepPress(t: Tree, depth: map<Id, nat>, x: Id, pos: Point, e: Event)
    requires Steppable(t, depth, x)
    requires t.nodes[x].visible && Contains(t.nodes[x].render, pos) && e.MouseDown? && !t.nodes[x].clicked
    ensures var r := Stepped(t, depth, x, pos, e); var n := t.nodes[x];
      && r.nodes.Keys == t.nodes.Keys && r.nodes[x].clicked && r.nodes[x].active
      && (forall a | a in t.nodes && Under(t, depth, x, a) :: r.nodes[a].active)
      && (x in t.parent ==> forall y | y in t.nodes && Under(t, depth, y, x) && y != x :: !r.nodes[y].active)
      && r.nodes[x].kind == Flipped(n.kind)
      && r.log == t.log + (if n.kind.CheckBoxKind? && n.kind.onChangedValue then [Fired(x, ChangedValueSlot)] else [])
                        + (if n.onMouseDown then [Fired(x, MouseDownSlot)] else [])
  {
    var n := t.nodes[x];
    var m := Hover(n, pos).(clicked := true);
    var u := t.(nodes := t.nodes[x := m]);
    StepIsPress(t, depth, x, pos, e);
    Activation.KeysAfterPut(t.nodes, x, m);
    PressedOwn(u, depth, x);
    PressedFlags(u, depth, x);
    PressedLog(u, depth, x);
  }

  lemma StepIsPress(t: Tree, depth: map<Id, nat>, x: Id, pos: Point, e: Event)
    requires Steppable(t, depth, x)
    requires t.nodes[x].visible && Contains(t.nodes[x].render, pos) && e.MouseDown? && !t.nodes[x].clicked
    ensures Stepped(t, depth, x, pos, e) == Pressed(t.(nodes := t.nodes[x := Hover(t.nodes[x], pos).(clicked := true)]), depth, x)
  {
  }

  /** A release while hovered and clicked: the control is no longer
      clicked, the mouse-up call is logged when bound, a close button's
      form is hidden, and nothing else changes. */
  lemma StepRelease(t: Tree, depth: map<Id, nat>, x: Id, pos: Point, e: Event)
    requires Steppable(t, depth, x)
    requires t.nodes[x].visible && Contains(t.nodes[x].render, pos) && e.MouseUp? && t.nodes[x].clicked
    ensures var r := Stepped(t, depth, x, pos, e); var n := t.nodes[x];
      && r.nodes.Keys == t.nodes.Keys && r.controls == t.controls && r.parent == t.parent
      && r.nodes[x] == n.(hovered := true, clicked := false)
      && r.log == t.log + (if n.onMouseUp.Notify? then [Fired(x, MouseUpSlot)] else [])
      && (n.onMouseUp.Hide? ==> !r.nodes[n.onMouseUp.form].visible)
      && (forall y | y in t.nodes && y != x && !(n.onMouseUp.Hide? && y == n.onMouseUp.form) :: r.nodes[y] == t.nodes[y])
  {
    var n := t.nodes[x];
    var u := t.(nodes := t.nodes[x := n.(hovered := true, clicked := false)]);
    assert Stepped(t, depth, x, pos, e) == Released(u, x);
    ReleasedOwn(u, depth, x);
  }

  /** A press while the pointer is outside: the control leaves hover (and
      with it the click), it and every control below it are inactive, and
      nothing else changes. */
  lemma StepPressOutside(t: Tree, depth: map<Id, nat>, x: Id, pos: Point, e: Event)
    requires Steppable(t, depth, x)
    requires t.nodes[x].visible && !Contains(t.nodes[x].render, pos) && e.MouseDown?
    ensures var r := Stepped(t, depth, x, pos, e); var n := t.nodes[x];
      && r.nodes.Keys == t.nodes.Keys && r.controls == t.controls && r.parent == t.parent && r.log == t.log
      && r.nodes[x] == n.(hovered := false, clicked := n.clicked && !n.hovered, active := false)
      && (forall y | y in t.nodes && Under(t, depth, y, x) :: !r.nodes[y].active)
      && (forall y | y in t.nodes && y != x :: r.nodes[y] == if Under(t, depth, y, x) then t.nodes[y].(active := false) else t.nodes[y])
  {
    var n := t.nodes[x];
    var u := t.(nodes := t.nodes[x := Hover(n, pos)]);
    assert Stepped(t, depth, x, pos, e) == Activation.Deactivated(u, depth, x);
    assert Under(t, depth, x, x);
  }

  /** Any other event only updates hover: nothing is pressed or released. */
  lemma StepOnlyHovers(t: Tree, depth: map<Id, nat>, x: Id, pos: Point, e: Event)
    requires Steppable(t, depth, x) && t.nodes[x].visible
    requires !e.MouseDown? && !(e.MouseUp? && Contains(t.nodes[x].render, pos) && t.nodes[x].clicked)
    ensures Stepped(t, depth, x, pos, e) == t.(nodes := t.nodes[x := Hover(t.nodes[x], pos)])
    ensures Stepped(t, depth, x, pos, e).log == t.log
  {
  }

  /** A press logs the check box's changed-value call, then the
      mouse-down call, each when bound. */
  lemma PressedLog(t: Tree, depth: map<Id, nat>, x: Id)
    requires Activation.Ranks(t, depth) && x in t.nodes
    ensures var n := t.nodes[x];
      Pressed(t, depth, x).log
        == t.log + (if n.kind.CheckBoxKind? && n.kind.onChangedValue then [Fired(x, ChangedValueSlot)] else [])
                 + (if n.onMouseDown then [Fired(x, MouseDownSlot)] else [])
  {
    assert Activation.Activated(Toggled(t, x), depth, x).log == Toggled(t, x).log;
  }

  /** After a press on `x`: every control above `x` is active, and when
      `x` has a parent every control below it is inactive. */
  lemma PressedFlags(t: Tree, depth: map<Id, nat>, x: Id)
    requires Activation.Ranks(t, depth) && x in t.nodes
    ensures var r := Pressed(t, depth, x);
      && r.nodes.Keys == t.nodes.Keys
      && (forall a | a in t.nodes && Under(t, depth, x, a) :: r.nodes[a].active)
      && (x in t.parent ==> forall y | y in t.nodes && Under(t, depth, y, x) && y != x :: !r.nodes[y].active)
  {
    var v := Toggled(t, x);
    assert Activation.Ranks(v, depth) && v.parent == t.parent && v.nodes.Keys == t.nodes.Keys;
    forall a | a in t.nodes && Under(t, depth, x, a) ensures Activation.ActivatedNodes(v, depth, x)[a].active {
      if x in t.parent {
        Activation.SetActiveAncestors(v, depth, x, a);
      } else {
        Forest.RootWithinOnlyItself(t.parent, depth, t.controls.Keys, x, a);
      }
    }
    if x in t.parent {
      forall y | y in t.nodes && Under(t, depth, y, x) && y != x ensures !Activation.ActivatedNodes(v, depth, x)[y].active {
        Activation.SetActiveBelow(v, depth, x, y);
      }
    }
  }
  // -----------------------------------------------------------------------
  // A list of events

  /** The events handled one after the other, in order. (The code hands
      `Control.update` the whole event list, which it reads as one event;
      the model gives it the events one at a time.) */
  ghost function StepAll(t: Tree, depth: map<Id, nat>, bound: nat, x: Id, pos: Point, events: seq<Event>): (r: Tree)
    requires Coherent(t, depth, bound) && x in t.nodes
    ensures Coherent(r, depth, bound) && x in r.nodes && OwnKept(t.nodes[x], r.nodes[x])
    decreases |events|
  {
    if events == [] then t
    else
      HideTarget(t, depth, bound, x);
      SteppedCoherent(t, depth, bound, x, pos, events[0]);
      StepOwn(t, depth, x, pos, events[0]);
      StepAll(Stepped(t, depth, x, pos, events[0]), depth, bound, x, pos, events[1..])
  }

  /** Over a list of events, nothing outside the control changes but the
      activation flags above and below it. */
  lemma {:induction false} StepAllKept(t: Tree, depth: map<Id, nat>, bound: nat, x: Id, pos: Point, events: seq<Event>)
    requires Coherent(t, depth, bound) && x in t.nodes
    ensures Kept(t, StepAll(t, depth, bound, x, pos, events), depth, x)
    decreases |events|
  {
    var r := StepAll(t, depth, bound, x, pos, events);
    if events == [] {
      assert NodesKept(t, t, depth, x);
    } else {
      HideTarget(t, depth, bound, x);
      var u := Stepped(t, depth, x, pos, events[0]);
      SteppedCoherent(t, depth, bound, x, pos, events[0]);
      SteppedKept(t, depth, x, pos, events[0]);
      StepOwn(t, depth, x, pos, events[0]);
      StepAllKept(u, depth, bound, x, pos, events[1..]);
      KeptTrans(t, u, r, depth, bound, x);
    }
  }

  /** An invisible control ignores every event. */
  lemma {:induction false} StepAllInvisible(t: Tree, depth: map<Id, nat>, bound: nat, x: Id, pos: Point, events: seq<Event>)
    requires Coherent(t, depth, bound) && x in t.nodes && !t.nodes[x].visible
    ensures StepAll(t, depth, bound, x, pos, events) == t
    decreases |events|
  {
    if events != [] {
      HideTarget(t, depth, bound, x);
      StepAllInvisible(t, depth, bound, x, pos, events[1..]);
    }
  }

  /** After at least one event, a visible control is hovered exactly when
      its render rectangle holds the pointer. */
  lemma {:induction false} StepAllHover(t: Tree, depth: map<Id, nat>, bound: nat, x: Id, pos: Point, events: seq<Event>)
    requires Coherent(t, depth, bound) && x in t.nodes && t.nodes[x].visible && events != []
    ensures StepAll(t, depth, bound, x, pos, events).nodes[x].hovered == Contains(t.nodes[x].render, pos)
    decreases |events|
  {
    HideTarget(t, depth, bound, x);
    StepOwn(t, depth, x, pos, events[0]);
    SteppedCoherent(t, depth, bound, x, pos, events[0]);
    if |events| > 1 {
      StepAllHover(Stepped(t, depth, x, pos, events[0]), depth, bound, x, pos, events[1..]);
    }
  }

  /** The first event is handled first, and the step keeps the tree coherent. */
  lemma StepAllFirst(t: Tree, depth: map<Id, nat>, bound: nat, x: Id, pos: Point, events: seq<Event>)
    requires Coherent(t, depth, bound) && x in t.nodes && events != []
    ensures Steppable(t, depth, x)
    ensures var u := Stepped(t, depth, x, pos, events[0]);
      && Coherent(u, depth, bound) && x in u.nodes
      && StepAll(t, depth, bound, x, pos, events) == StepAll(u, depth, bound, x, pos, events[1..])
  {
    HideTarget(t, depth, bound, x);
    SteppedCoherent(t, depth, bound, x, pos, events[0]);
    SteppedKept(t, depth, x, pos, events[0]);
  }

  /** `Control.update` over a list of events. */
  method ControlUpdate(t: Tree, ghost depth: map<Id, nat>, ghost bound: nat, x: Id, pos: Point, events: seq<Event>)
    returns (r: Tree)
    requires Coherent(t, depth, bound) && x in t.nodes
    ensures r == StepAll(t, depth, bound, x, pos, events)
    decreases |events|
  {
    if events == [] {
      return t;
    }
    StepAllFirst(t, depth, bound, x, pos, events);
    r := Step(t, depth, bound, x, pos, events[0]);
    r := ControlUpdate(r, depth, bound, x, pos, events[1..]);
  }
}

=== FILE: textbox_logic.dfy ===
/** The editing logic of `Textbox`, apart from the control tree: the text
    buffer and the string it shows, the cursor index, click-to-cursor
    placement against a prefix-width function, backspace and insertion at
    the cursor, and the 500-tick cursor blink. */
module TextboxLogic {
  import opened Events

  /** What the box shows for `text`: the text itself, or one `'*'` per
      character when it is a password. */
  function Mask(text: string, password: bool): (v: string)
    ensures |v| == |text|
    ensures password ==> forall i | 0 <= i < |v| :: v[i] == '*'
    ensures !password ==> v == text
  {
    if password then seq(|text|, _ => '*') else text
  }

  /** Python's `s[:i]` for a non-negative `i`, which may run past the end. */
  function Before(s: string, i: nat): (r: string)
    ensures |r| == if i <= |s| then i else |s|
    ensures r <= s
  {
    if i <= |s| then s[..i] else s
  }

  /** Python's `s[i:]` for a non-negative `i`; empty past the end. */
  function After(s: string, i: nat): (r: string)
    ensures Before(s, i) + r == s
    ensures i >= |s| ==> r == []
  {
    if i <= |s| then s[i..] else []
  }

  /** The state of a text box: its text, whether it is a password, the
      string it shows, the cursor index (which the code never clamps to the
      text), whether the blinking cursor is currently drawn and the tick of
      its last flip. */
  datatype Textbox = Textbox(text: string, password: bool, shown: string, index: nat,
                             cursorVisible: bool, lastTick: int)

  /** The shown string is always the mask of the text. */
  ghost predicate Consistent(t: Textbox)
  {
    t.shown == Mask(t.text, t.password)
  }

  /** A new box: empty text, not a password, cursor at 0 and drawn, last
      flip at `now`, then the initial text assigned through the setter. */
  function NewTextbox(text: string, now: int): (r: Textbox)
    ensures Consistent(r) && r.text == text && r.shown == text
    ensures r.index == 0 && r.cursorVisible && r.lastTick == now && !r.password
  {
    AssignText(Textbox([], false, [], 0, true, now), text).box
  }

  /** A new state and whether the changed-text callback fired. */
  datatype Outcome = Outcome(box: Textbox, fired: bool)

  /** The `text` setter: a different string replaces the text, recomputes
      the shown string and fires the changed-text callback; an equal string
      changes nothing. */
  function AssignText(t: Textbox, s: string): (r: Outcome)
    ensures r.fired <==> s != t.text
    ensures r.box.text == s && Consistent(r.box) == (r.fired || Consistent(t))
    ensures r.box == (if r.fired then t.(text := s, shown := Mask(s, t.password)) else t)
  {
    if t.text != s then Outcome(t.(text := s, shown := Mask(s, t.password)), true)
    else Outcome(t, false)
  }

  /** The `is_password` setter: the shown string is recomputed from the
      text, nothing else changes and nothing fires. */
  function SetPassword(t: Textbox, password: bool): (r: Textbox)
    ensures Consistent(r) && r.password == password
    ensures r.(shown := t.shown, password := t.password) == t
  {
    t.(password := password, shown := Mask(t.text, password))
  }

  /** A key press while the box is active: backspace deletes the character
      before the cursor and moves the cursor back (nothing at index 0); any
      other key splices its `unicode` in at the cursor and moves the cursor
      one place on, whatever the length of `unicode`. */
  function TypeKey(t: Textbox, key: Key, unicode: string): (r: Outcome)
    ensures Consistent(t) ==> Consistent(r.box)
    ensures r.box.password == t.password && r.box.cursorVisible == t.cursorVisible && r.box.lastTick == t.lastTick
    ensures key.Backspace? && t.index == 0 ==> r == Outcome(t, false)
    ensures key.Backspace? && 0 < t.index <= |t.text| ==>
              && r.box.text == t.text[..t.index - 1] + t.text[t.index..]
              && |r.box.text| == |t.text| - 1 && r.box.index == t.index - 1 && r.fired
    ensures !key.Backspace? && t.index <= |t.text| ==>
              && r.box.text == t.text[..t.index] + unicode + t.text[t.index..]
              && r.box.index == t.index + 1 && (r.fired <==> unicode != [])
    ensures !key.Backspace? && |unicode| == 1 && t.index <= |t.text| ==>
              |r.box.text| == |t.text| + 1 && r.box.text[t.index] == unicode[0]
  {
    if key.Backspace? then
      if t.index > 0 then
        var o := AssignText(t, Before(t.text, t.index - 1) + After(t.text, t.index));
        Outcome(o.box.(index := t.index - 1), o.fired)
      else Outcome(t, false)
    else
      var o := AssignText(t, Before(t.text, t.index) + unicode + After(t.text, t.index));
      assert t.index <= |t.text| ==> t.text[..t.index] + t.text[t.index..] == t.text;
      Outcome(o.box.(index := t.index + 1), o.fired)
  }

  /** Typing one character and then pressing backspace restores the box,
      provided the cursor was within the text. */
  lemma TypeThenBackspace(t: Textbox, code: int, c: char)
    requires Consistent(t) && t.index <= |t.text|
    ensures TypeKey(TypeKey(t, OtherKey(code), [c]).box, Backspace, []).box == t
  {
    var u := TypeKey(t, OtherKey(code), [c]).box;
    var i := t.index;
    assert u.text == t.text[..i] + [c] + t.text[i..];
    assert u.text[..i] == t.text[..i];
    assert u.text[i + 1..] == t.text[i..];
    assert t.text[..i] + t.text[i..] == t.text;
  }

  /** Keys with one-character text (and backspace) keep the cursor within
      the text. */
  lemma SingleCharsKeepCursorInText(t: Textbox, key: Key, unicode: string)
    requires t.index <= |t.text|
    requires key.Backspace? || |unicode| == 1
    ensures TypeKey(t, key, unicode).box.index <= |TypeKey(t, key, unicode).box.text|
  {
  }

  /** A key whose text is empty (a modifier such as Shift) still moves the
      cursor one place on, past the end of the text; a character typed next
      is appended, and the backspace that follows does not delete it. */
  lemma EmptyKeyTextLeavesCursorPastEnd(t: Textbox, shift: int, code: int, c: char)
    requires Consistent(t) && t.index == |t.text|
    ensures var a := TypeKey(t, OtherKey(shift), []);
      var b := TypeKey(a.box, OtherKey(code), [c]);
      var d := TypeKey(b.box, Backspace, []);
      && a.box.text == t.text && !a.fired && a.box.index == |t.text| + 1
      && b.box.text == t.text + [c] && b.box.index == |t.text| + 2
      && d.box.text == t.text + [c] && !d.fired && d.box.index == |t.text| + 1
  {
    var a := TypeKey(t, OtherKey(shift), []);
    assert t.text[..t.index] + [] + t.text[t.index..] == t.text;
    var b := TypeKey(a.box, OtherKey(code), [c]);
    assert Before(a.box.text, a.box.index) + [c] + After(a.box.text, a.box.index) == t.text + [c];
    var d := TypeKey(b.box, Backspace, []);
    assert Before(b.box.text, b.box.index - 1) + After(b.box.text, b.box.index) == t.text + [c];
  }

  // ---------------------------------------------------------------------
  // Click placement

  /** Where a click `click` pixels right of the text's left edge puts the
      cursor, scanning from index `from`: the first `i` whose prefix of
      length `i + 1` is at least `click` wide, or the end of the shown
      string when there is none. `width` is the font's width of a string. */
  function CursorAt(click: int, shown: string, width: string -> int, from: nat): (r: nat)
    requires from <= |shown|
    ensures from <= r <= |shown|
    ensures forall j | from < j <= r :: width(shown[..j]) < click
    ensures r < |shown| ==> click <= width(shown[..r + 1])
    decreases |shown| - from
  {
    if from == |shown| then |shown|
    else if click <= width(shown[..from + 1]) then from
    else CursorAt(click, shown, width, from + 1)
  }

  /** The placement loop of `Textbox.update`: the index starts at 0, is set
      to the end whenever a prefix is still narrower than the click, and the
      first prefix at least as wide stops the scan. */
  method PlaceCursor(click: int, shown: string, width: string -> int) returns (index: nat)
    ensures index == CursorAt(click, shown, width, 0)
  {
    index := 0;
    var i := 0;
    while i < |shown|
      invariant 0 <= i <= |shown|
      invariant CursorAt(click, shown, width, i) == CursorAt(click, shown, width, 0)
      invariant index == if i == 0 then 0 else |shown|
    {
      var size := width(shown[..i + 1]);
      if click <= size {
        index := i;
        return;
      } else if click > size {
        index := |shown|;
      }
      i := i + 1;
    }
  }

  /** Prefix widths that never shrink as the prefix grows. */
  ghost predicate MonotoneWidths(shown: string, width: string -> int)
  {
    forall k, l | 0 <= k <= l <= |shown| :: width(shown[..k]) <= width(shown[..l])
  }

  /** With widths that grow with the prefix, a click further right never
      puts the cursor further left. */
  lemma {:induction false} CursorMonotone(c1: int, c2: int, shown: string, width: string -> int, from: nat)
    requires from <= |shown| && c1 <= c2
    requires MonotoneWidths(shown, width)
    ensures CursorAt(c1, shown, width, from) <= CursorAt(c2, shown, width, from)
    decreases |shown| - from
  {
    if from < |shown| && !(c2 <= width(shown[..from + 1])) {
      CursorMonotone(c1, c2, shown, width, from + 1);
    }
  }

  /** A click at or left of the text's left edge, with non-negative widths,
      puts the cursor at 0; one beyond the whole shown string puts it at the
      end. */
  lemma CursorEnds(click: int, shown: string, width: string -> int)
    ensures click <= 0 && (forall k | 0 <= k <= |shown| :: width(shown[..k]) >= 0) ==>
              CursorAt(click, shown, width, 0) == 0
    ensures MonotoneWidths(shown, width) && click > width(shown) ==>
              CursorAt(click, shown, width, 0) == |shown|
  {
    assert shown[..|shown|] == shown;
  }

  // ---------------------------------------------------------------------
  // The event loop of `Textbox.update`

  /** A click of button 1 while hovered places the cursor and shows it. */
  function Click(t: Textbox, click: int, width: string -> int): (r: Textbox)
    ensures r.index <= |t.shown| && r.cursorVisible
    ensures r.(index := t.index, cursorVisible := t.cursorVisible) == t
  {
    t.(index := CursorAt(click, t.shown, width, 0), cursorVisible := true)
  }

  /** One event of the loop: a press while hovered (placing the cursor only
      for button 1), else a key press while active; everything else is
      ignored. */
  function TypeEvent(t: Textbox, hovered: bool, active: bool, click: int, width: string -> int, e: Event): (r: Outcome)
    ensures Consistent(t) ==> Consistent(r.box)
    ensures r.box.password == t.password && r.box.lastTick == t.lastTick
    ensures !(e.MouseDown? && hovered) && !(e.KeyDown? && active) ==> r == Outcome(t, false)
    ensures r.box.text != t.text ==> e.KeyDown? && active && r.fired
  {
    if e.MouseDown? && hovered then
      if e.button == 1 then Outcome(Click(t, click, width), false) else Outcome(t, false)
    else if e.KeyDown? && active then TypeKey(t, e.key, e.unicode)
    else Outcome(t, false)
  }

  /** The final state and the number of changed-text notifications. */
  datatype Typed = Typed(box: Textbox, changes: nat)

  /** The loop of `Textbox.update` over one frame's events. `hovered` and
      `active` are the flags the base update left; the loop does not change
      them. */
  function TypeEvents(t: Textbox, hovered: bool, active: bool, click: int, width: string -> int, events: seq<Event>): (r: Typed)
    ensures Consistent(t) ==> Consistent(r.box)
    ensures r.box.password == t.password && r.box.lastTick == t.lastTick
    ensures r.changes <= |events|
    decreases |events|
  {
    if events == [] then Typed(t, 0)
    else
      var o := TypeEvent(t, hovered, active, click, width, events[0]);
      var rest := TypeEvents(o.box, hovered, active, click, width, events[1..]);
      Typed(rest.box, rest.changes + if o.fired then 1 else 0)
  }

  /** The loop unrolled once: the first event, then the rest. */
  lemma TypeEventsCons(t: Textbox, hovered: bool, active: bool, click: int, width: string -> int, e: Event, rest: seq<Event>)
    ensures var o := TypeEvent(t, hovered, active, click, width, e);
      var r := TypeEvents(o.box, hovered, active, click, width, rest);
      TypeEvents(t, hovered, active, click, width, [e] + rest) == Typed(r.box, r.changes + if o.fired then 1 else 0)
  {
    assert ([e] + rest)[0] == e;
    assert ([e] + rest)[1..] == rest;
  }

  /** Events processed in two batches give the same result as in one. */
  lemma {:induction false} TypeEventsAppend(t: Textbox, hovered: bool, active: bool, click: int, width: string -> int, a: seq<Event>, b: seq<Event>)
    ensures var x := TypeEvents(t, hovered, active, click, width, a);
      var y := TypeEvents(x.box, hovered, active, click, width, b);
      TypeEvents(t, hovered, active, click, width, a + b) == Typed(y.box, x.changes + y.changes)
    decreases |a|
  {
    if a == [] {
      assert a + b == b;
    } else {
      assert a == [a[0]] + a[1..];
      assert a + b == [a[0]] + (a[1..] + b);
      TypeEventsCons(t, hovered, active, click, width, a[0], a[1..]);
      TypeEventsCons(t, hovered, active, click, width, a[0], a[1..] + b);
      TypeEventsAppend(TypeEvent(t, hovered, active, click, width, a[0]).box, hovered, active, click, width, a[1..], b);
    }
  }

  /** While the box is not active its text never changes and nothing
      fires, whatever the events. */
  lemma {:induction false} InactiveKeepsText(t: Textbox, hovered: bool, click: int, width: string -> int, events: seq<Event>)
    ensures TypeEvents(t, hovered, false, click, width, events).box.text == t.text
    ensures TypeEvents(t, hovered, false, click, width, events).changes == 0
    decreases |events|
  {
    if events != [] {
      InactiveKeepsText(TypeEvent(t, hovered, false, click, width, events[0]).box, hovered, click, width, events[1..]);
    }
  }

  /** The key presses that type `s` one character at a time. */
  function Typing(code: int, s: string): (r: seq<Event>)
    ensures |r| == |s| && forall i | 0 <= i < |s| :: r[i] == KeyDown(OtherKey(code), [s[i]])
  {
    seq(|s|, i requires 0 <= i < |s| => KeyDown(OtherKey(code), [s[i]]))
  }

  /** `n` presses of backspace. */
  function Backspaces(n: nat): (r: seq<Event>)
    ensures |r| == n && forall i | 0 <= i < n :: r[i] == KeyDown(Backspace, [])
  {
    seq(n, _ => KeyDown(Backspace, []))
  }

  /** Inserting `c` at `i` and then `s` right after it inserts `[c] + s`. */
  lemma SpliceStep(text: string, i: nat, c: char, s: string)
    requires i <= |text|
    ensures var u := text[..i] + [c] + text[i..];
      u[..i + 1] + s + u[i + 1..] == text[..i] + ([c] + s) + text[i..]
  {
    var u := text[..i] + [c] + text[i..];
    assert u[..i + 1] == text[..i] + [c];
    assert u[i + 1..] == text[i..];
  }

  /** The box with the `n` characters before the cursor removed and the
      cursor moved back over them. */
  function Erased(t: Textbox, n: nat): Textbox
    requires n <= t.index <= |t.text|
  {
    var text := t.text[..t.index - n] + t.text[t.index..];
    t.(text := text, shown := Mask(text, t.password), index := t.index - n)
  }

  /** Removing one character and then `n - 1` more removes `n`. */
  lemma EraseStep(t: Textbox, n: nat)
    requires 0 < n <= t.index <= |t.text|
    ensures Erased(t, 1).index == t.index - 1 && |Erased(t, 1).text| == |t.text| - 1
    ensures Erased(Erased(t, 1), n - 1) == Erased(t, n)
  {
    var i := t.index;
    var u := Erased(t, 1);
    assert u.text[..i - n] == t.text[..i - n];
    assert u.text[i - 1..] == t.text[i..];
  }

  /** Typing `s` into an active box splices it in at the cursor, moves the
      cursor past it and notifies once per character. */
  lemma {:induction false} TypingSplices(t: Textbox, hovered: bool, click: int, width: string -> int, code: int, s: string)
    requires Consistent(t) && t.index <= |t.text|
    ensures var r := TypeEvents(t, hovered, true, click, width, Typing(code, s));
      var text := t.text[..t.index] + s + t.text[t.index..];
      && r.box == t.(text := text, shown := Mask(text, t.password), index := t.index + |s|)
      && r.changes == |s|
    decreases |s|
  {
    var i := t.index;
    if s == [] {
      assert Typing(code, s) == [];
      assert t.text[..i] + s + t.text[i..] == t.text;
    } else {
      var e := KeyDown(OtherKey(code), [s[0]]);
      assert Typing(code, s) == [e] + Typing(code, s[1..]);
      TypeEventsCons(t, hovered, true, click, width, e, Typing(code, s[1..]));
      var o := TypeKey(t, OtherKey(code), [s[0]]);
      TypingSplices(o.box, hovered, click, width, code, s[1..]);
      SpliceStep(t.text, i, s[0], s[1..]);
      assert [s[0]] + s[1..] == s;
    }
  }

  /** One backspace with the cursor inside the text, as a whole state. */
  lemma BackspaceBox(t: Textbox)
    requires Consistent(t) && 0 < t.index <= |t.text|
    ensures TypeKey(t, Backspace, []) == Outcome(Erased(t, 1), true) && Consistent(Erased(t, 1))
  {
  }

  /** `n` backspaces with the cursor at least `n` into the text delete the
      `n` characters before it. */
  lemma {:induction false} BackspacesDelete(t: Textbox, hovered: bool, click: int, width: string -> int, n: nat)
    requires Consistent(t) && n <= t.index <= |t.text|
    ensures var r := TypeEvents(t, hovered, true, click, width, Backspaces(n));
      r.box == Erased(t, n) && r.changes == n
    decreases n, 1
  {
    if n == 0 {
      assert Backspaces(n) == [];
      assert t.text[..t.index] + t.text[t.index..] == t.text;
    } else {
      BackspacesDeleteMore(t, hovered, click, width, n);
    }
  }

  /** The step of `BackspacesDelete`: one backspace, then `n - 1` more. */
  lemma {:induction false} BackspacesDeleteMore(t: Textbox, hovered: bool, click: int, width: string -> int, n: nat)
    requires Consistent(t) && 0 < n <= t.index <= |t.text|
    ensures var r := TypeEvents(t, hovered, true, click, width, Backspaces(n));
      r.box == Erased(t, n) && r.changes == n
    decreases n, 0
  {
    var e := KeyDown(Backspace, []);
    assert Backspaces(n) == [e] + Backspaces(n - 1);
    TypeEventsCons(t, hovered, true, click, width, e, Backspaces(n - 1));
    BackspaceBox(t);
    EraseStep(t, n);
    var u := Erased(t, 1);
    assert TypeEvent(t, hovered, true, click, width, e) == Outcome(u, true);
    BackspacesDelete(u, hovered, click, width, n - 1);
  }

  /** Typing a string into an active box and pressing backspace once per
      character restores the box exactly, with two notifications per
      character. */
  lemma TypeThenEraseRestores(t: Textbox, hovered: bool, click: int, width: string -> int, code: int, s: string)
    requires Consistent(t) && t.index <= |t.text|
    ensures var r := TypeEvents(t, hovered, true, click, width, Typing(code, s) + Backspaces(|s|));
      r.box == t && r.changes == 2 * |s|
  {
    TypeEventsAppend(t, hovered, true, click, width, Typing(code, s), Backspaces(|s|));
    TypingSplices(t, hovered, click, width, code, s);
    var m := TypeEvents(t, hovered, true, click, width, Typing(code, s)).box;
    BackspacesDelete(m, hovered, click, width, |s|);
    SpliceErased(t, s);
  }

  /** Removing the `|s|` characters before the cursor of a box into which
      `s` was just spliced gives the box back. */
  lemma SpliceErased(t: Textbox, s: string)
    requires Consistent(t) && t.index <= |t.text|
    ensures var text := t.text[..t.index] + s + t.text[t.index..];
      var m := t.(text := text, shown := Mask(text, t.password), index := t.index + |s|);
      |s| <= m.index <= |m.text| && Erased(m, |s|) == t
  {
    var i := t.index;
    var text := t.text[..i] + s + t.text[i..];
    assert text[..i] == t.text[..i];
    assert text[i + |s|..] == t.text[i..];
    assert t.text[..i] + t.text[i..] == t.text;
  }

  // ---------------------------------------------------------------------
  // Blink

  /** The blink at the end of `Textbox.update`: while active, once 500 ticks
      have passed since the last flip the cursor flips and the flip time is
      `now`; otherwise nothing changes. */
  function Blink(t: Textbox, active: bool, now: int): (r: Textbox)
    ensures r.(cursorVisible := t.cursorVisible, lastTick := t.lastTick) == t
    ensures r != t ==> active && now - t.lastTick >= 500 && r.lastTick == now
    ensures active && now - t.lastTick >= 500 ==> r.cursorVisible == !t.cursorVisible
  {
    if active && now - t.lastTick >= 500 then t.(cursorVisible := !t.cursorVisible, lastTick := now)
    else t
  }

  /** The cursor flips at most once per 500 ticks: right after a flip, a
      frame less than 500 ticks later leaves it alone. */
  lemma BlinkSpacing(t: Textbox, now: int, later: int)
    requires Blink(t, true, now) != t && later < now + 500
    ensures Blink(Blink(t, true, now), true, later) == Blink(t, true, now)
  {
  }
}

=== FILE: textbox_update.dfy ===
/** `Textbox.update`: the base update of the control, then the loop that
    places the cursor on a left click and edits the text on key presses,
    then the cursor blink. The pointer position, the tick count and the
    font's width function are parameters. */
module TextInput {
  import opened Geometry
  import opened Nodes
  import opened ControlTree
  import opened Events
  import opened TextboxLogic
  import Interaction
  import opened Lists
  import Widgets

  /** The editing loop of `Textbox.update` on the control the base update
      left: the hover and active flags are the ones it left, the click is
      measured from the text's left edge. */
  function Typing(n: Node, pos: Point, events: seq<Event>, width: string -> int): (r: Typed)
    requires n.kind.TextboxKind?
    ensures Consistent(n.kind.box) ==> Consistent(r.box)
  {
    TypeEvents(n.kind.box, n.hovered, n.active, pos.x - (n.render.x + Widgets.TextInset), width, events)
  }

  /** The control after the editing loop and the blink. */
  function EditedNode(n: Node, pos: Point, events: seq<Event>, now: int, width: string -> int): (m: Node)
    requires n.kind.TextboxKind?
    ensures m == n.(kind := m.kind) && m.kind.TextboxKind?
    ensures m.kind == n.kind.(box := m.kind.box)
    ensures Consistent(n.kind.box) ==> Consistent(m.kind.box)
  {
    n.(kind := n.kind.(box := Blink(Typing(n, pos, events, width).box, n.active, now)))
  }

  /** The changed-text calls the editing loop makes: one per change when a
      handler is bound. */
  function TextCalls(x: Id, n: Node, pos: Point, events: seq<Event>, width: string -> int): (r: seq<Fired>)
    requires n.kind.TextboxKind?
    ensures forall i | 0 <= i < |r| :: r[i] == Fired(x, ChangedTextSlot)
    ensures !n.kind.onChangedText ==> r == []
  {
    Repeat(Fired(x, ChangedTextSlot), if n.kind.onChangedText then Typing(n, pos, events, width).changes else 0)
  }

  /** What `Textbox.update` does after the base update: the editing loop,
      its changed-text calls, then the blink. */
  function Edited(u: Tree, x: Id, pos: Point, events: seq<Event>, now: int, width: string -> int): (r: Tree)
    requires x in u.nodes && u.nodes[x].kind.TextboxKind?
    ensures r.controls == u.controls && r.parent == u.parent && r.nextId == u.nextId
  {
    u.(nodes := u.nodes[x := EditedNode(u.nodes[x], pos, events, now, width)],
       log := u.log + TextCalls(x, u.nodes[x], pos, events, width))
  }

  /** What `Textbox.update` does with one frame's events. */
  ghost function TextboxUpdated(t: Tree, depth: map<Id, nat>, bound: nat, x: Id, pos: Point,
                                events: seq<Event>, now: int, width: string -> int): (r: Tree)
    requires Coherent(t, depth, bound) && x in t.nodes && t.nodes[x].kind.TextboxKind?
  {
    Edited(Interaction.StepAll(t, depth, bound, x, pos, events), x, pos, events, now, width)
  }

  /** The editing keeps the tree coherent: the text box stays consistent. */
  lemma EditedCoherent(u: Tree, depth: map<Id, nat>, bound: nat, x: Id, pos: Point,
                       events: seq<Event>, now: int, width: string -> int)
    requires Coherent(u, depth, bound) && x in u.nodes && u.nodes[x].kind.TextboxKind?
    ensures Coherent(Edited(u, x, pos, events, now, width), depth, bound)
  {
    var n := u.nodes[x];
    assert NodeOk(x, n, u.parent);
    PutLogCoherent(u, depth, bound, x, EditedNode(n, pos, events, now, width),
                   u.log + TextCalls(x, n, pos, events, width));
  }

  /** The text box update keeps the tree coherent and changes nothing
      outside the text box but the activation flags above it. */
  lemma TextboxUpdatedKept(t: Tree, depth: map<Id, nat>, bound: nat, x: Id, pos: Point,
                           events: seq<Event>, now: int, width: string -> int)
    requires Coherent(t, depth, bound) && x in t.nodes && t.nodes[x].kind.TextboxKind?
    ensures var r := TextboxUpdated(t, depth, bound, x, pos, events, now, width);
      Coherent(r, depth, bound) && Interaction.Kept(t, r, depth, x)
  {
    var u := Interaction.StepAll(t, depth, bound, x, pos, events);
    Interaction.StepAllKept(t, depth, bound, x, pos, events);
    EditedCoherent(u, depth, bound, x, pos, events, now, width);
    var n := u.nodes[x];
    Interaction.PutOwnKept(t, u, depth, bound, x, EditedNode(n, pos, events, now, width),
                           u.log + TextCalls(x, n, pos, events, width));
  }

  /** An event other than a press leaves the control's active flag alone. */
  lemma StepKeepsActive(t: Tree, depth: map<Id, nat>, x: Id, pos: Point, e: Event)
    requires Interaction.Steppable(t, depth, x) && !e.MouseDown?
    ensures Interaction.Stepped(t, depth, x, pos, e).nodes[x].active == t.nodes[x].active
  {
    var n := t.nodes[x];
    if n.visible {
      if e.MouseUp? && Contains(n.render, pos) && n.clicked {
        Interaction.StepRelease(t, depth, x, pos, e);
      } else {
        Interaction.StepOnlyHovers(t, depth, x, pos, e);
      }
    }
  }

  /** Without a press among the events the control's active flag stays. */
  lemma {:induction false} NoPressKeepsActive(t: Tree, depth: map<Id, nat>, bound: nat, x: Id, pos: Point, events: seq<Event>)
    requires Coherent(t, depth, bound) && x in t.nodes
    requires forall i | 0 <= i < |events| :: !events[i].MouseDown?
    ensures Interaction.StepAll(t, depth, bound, x, pos, events).nodes[x].active == t.nodes[x].active
    decreases |events|
  {
    if events != [] {
      Interaction.StepAllFirst(t, depth, bound, x, pos, events);
      StepKeepsActive(t, depth, x, pos, events[0]);
      NoPressKeepsActive(Interaction.Stepped(t, depth, x, pos, events[0]), depth, bound, x, pos, events[1..]);
    }
  }

  /** An inactive text box keeps its text through the editing loop and
      the blink, and makes no changed-text call. */
  lemma InactiveEditKeepsText(x: Id, n: Node, pos: Point, events: seq<Event>, now: int, width: string -> int)
    requires n.kind.TextboxKind? && !n.active
    ensures EditedNode(n, pos, events, now, width).kind.box.text == n.kind.box.text
    ensures TextCalls(x, n, pos, events, width) == []
  {
    InactiveKeepsText(n.kind.box, n.hovered, pos.x - (n.render.x + Widgets.TextInset), width, events);
  }

  /** A text box that is not active, and that no press among the events
      could activate, keeps its text and fires no changed-text call. */
  lemma InactiveTextboxKeepsText(t: Tree, depth: map<Id, nat>, bound: nat, x: Id, pos: Point,
                                 events: seq<Event>, now: int, width: string -> int)
    requires Coherent(t, depth, bound) && x in t.nodes && t.nodes[x].kind.TextboxKind? && !t.nodes[x].active
    requires forall i | 0 <= i < |events| :: !events[i].MouseDown?
    ensures var r := TextboxUpdated(t, depth, bound, x, pos, events, now, width);
      && r.nodes[x].kind.box.text == t.nodes[x].kind.box.text
      && r.log == Interaction.StepAll(t, depth, bound, x, pos, events).log
  {
    NoPressKeepsActive(t, depth, bound, x, pos, events);
    var u := Interaction.StepAll(t, depth, bound, x, pos, events);
    InactiveEditKeepsText(x, u.nodes[x], pos, events, now, width);
  }

  /** The editing loop of `Textbox.update`: a press while hovered (of
      button 1) places the cursor with the placement scan, a key press
      while active edits through the `text` setter, whose changed-text call
      is logged as `f` when `notify`. */
  method TypeLoop(box: Textbox, hovered: bool, active: bool, click: int, width: string -> int,
                  events: seq<Event>, f: Fired, notify: bool, log: seq<Fired>)
    returns (b: Textbox, l: seq<Fired>)
    ensures var ty := TypeEvents(box, hovered, active, click, width, events);
      b == ty.box && l == log + Repeat(f, if notify then ty.changes else 0)
  {
    b, l := box, log;
    ghost var changes := 0;
    for i := 0 to |events|
      invariant var rest := TypeEvents(b, hovered, active, click, width, events[i..]);
        TypeEvents(box, hovered, active, click, width, events) == Typed(rest.box, changes + rest.changes)
      invariant l == log + Repeat(f, if notify then changes else 0)
    {
      var e := events[i];
      assert events[i..] == [e] + events[i + 1..];
      TypeEventsCons(b, hovered, active, click, width, e, events[i + 1..]);
      if e.MouseDown? && hovered {
        if e.button == 1 {
          var index := PlaceCursor(click, b.shown, width);
          b := b.(index := index, cursorVisible := true);
        }
      } else if e.KeyDown? && active {
        var o := TypeKey(b, e.key, e.unicode);
        b := o.box;
        if o.fired {
          changes := changes + 1;
          if notify {
            l := l + [f];
            assert Repeat(f, changes) == Repeat(f, changes - 1) + [f];
          }
        }
      }
    }
    assert events[|events|..] == [];
  }

  /** The rest of `Textbox.update` after the base update, on the control
      the base update left: the editing loop, then the blink. */
  method Edit(x: Id, n: Node, pos: Point, events: seq<Event>, now: int, width: string -> int, log: seq<Fired>)
    returns (m: Node, l: seq<Fired>)
    requires n.kind.TextboxKind?
    ensures m == EditedNode(n, pos, events, now, width)
    ensures l == log + TextCalls(x, n, pos, events, width)
  {
    var box;
    box, l := TypeLoop(n.kind.box, n.hovered, n.active, pos.x - (n.render.x + Widgets.TextInset), width,
                       events, Fired(x, ChangedTextSlot), n.kind.onChangedText, log);
    box := Blink(box, n.active, now);
    m := n.(kind := n.kind.(box := box));
  }

  /** `Textbox.update` as the code runs it. */
  method TextboxUpdate(t: Tree, ghost depth: map<Id, nat>, ghost bound: nat, x: Id, pos: Point,
                       events: seq<Event>, now: int, width: string -> int) returns (r: Tree)
    requires Coherent(t, depth, bound) && x in t.nodes && t.nodes[x].kind.TextboxKind?
    ensures r == TextboxUpdated(t, depth, bound, x, pos, events, now, width)
  {
    r := Interaction.ControlUpdate(t, depth, bound, x, pos, events);
    var m, log := Edit(x, r.nodes[x], pos, events, now, width, r.log);
    r := r.(nodes := r.nodes[x := m], log := log);
  }
}

=== FILE: tree.dfy ===
/** The control tree of `Control`, `Button`, `CheckBox`, `Textbox` and
    `Form` as one value: every control is an id with a `Node`, its ordered
    child list (`_controls`, in paint order) and its parent link
    (`_parent`). Program callbacks are not run; each one that fires is
    appended to a log. */
module ControlTree {
  import opened Geometry
  import opened Optional
  import opened Nodes
  import Forest
  import TextboxLogic

  /** The arena: the state of each control, the child lists, the parent
      links, the next id to hand out and the callbacks fired so far. */
  datatype Tree = Tree(nodes: map<Id, Node>, controls: map<Id, seq<Id>>, parent: map<Id, Id>,
                       nextId: nat, log: seq<Fired>)

  /** One child list per control, and lists and parent links that agree,
      with `depth` ranking the controls below `bound`: what the walks over
      the tree rely on. */
  ghost predicate Rooted(t: Tree, depth: map<Id, nat>, bound: nat)
  {
    t.nodes.Keys == t.controls.Keys && Forest.Linkage(t.parent, t.controls, depth, bound)
  }

  /** The shape invariant: a well-formed forest, each child listed once. */
  ghost predicate Shaped(t: Tree, depth: map<Id, nat>, bound: nat)
  {
    Rooted(t, depth, bound) && Forest.Distinct(t.controls)
  }

  /** Ids in use lie below the next one, and every control is consistent. */
  ghost predicate NodesOk(t: Tree)
  {
    forall x | x in t.nodes :: x < t.nextId && NodeOk(x, t.nodes[x], t.parent)
  }

  ghost predicate Coherent(t: Tree, depth: map<Id, nat>, bound: nat)
  {
    Shaped(t, depth, bound) && NodesOk(t)
  }

  /** `y` is `a` or lies below it. */
  ghost predicate Under(t: Tree, depth: map<Id, nat>, y: Id, a: Id)
  {
    Forest.Within(t.parent, depth, y, a)
  }

  /** The local rectangle of the parent of `x`, which `_update_render_rect`
      offsets it by; `None` for a control without a parent. */
  function ParentRect(t: Tree, x: Id): (r: Option<Rect>)
    requires x in t.parent ==> t.parent[x] in t.nodes
    ensures r.Some? <==> x in t.parent
  {
    if x in t.parent then Some(t.nodes[t.parent[x]].rect) else None
  }

  /** The children of `x` are controls linked to `x`, one level below it
      (so `x` is not among them); every control linked to `x` is listed. */
  lemma ChildrenOf(t: Tree, depth: map<Id, nat>, bound: nat, x: Id)
    requires Rooted(t, depth, bound) && x in t.nodes
    ensures forall i | 0 <= i < |t.controls[x]| ::
      var c := t.controls[x][i];
      c in t.nodes && c in t.parent && t.parent[c] == x && c != x && depth[c] == depth[x] + 1
    ensures forall y | y in t.parent && t.parent[y] == x :: y in t.controls[x]
  {
  }

  // -----------------------------------------------------------------------
  // Building the tree

  /** The empty arena. */
  function Empty(): (t: Tree)
    ensures Coherent(t, map[], 0) && t.nodes == map[] && t.log == []
  {
    Tree(map[], map[], map[], 0, [])
  }

  /** `Control.__init__`: a new control under the next free id, without
      parent or children. */
  function Create(t: Tree, rect: Rect, kind: Kind): Tree
  {
    t.(nodes := t.nodes[t.nextId := Fresh(rect, kind)], controls := t.controls[t.nextId := []],
       nextId := t.nextId + 1)
  }

  /** A created control has an id not in use before, no parent and no
      children, and the others keep their state. */
  lemma CreateFresh(t: Tree, depth: map<Id, nat>, bound: nat, rect: Rect, kind: Kind)
    requires Coherent(t, depth, bound)
    ensures var r := Create(t, rect, kind);
      && t.nextId !in t.nodes && t.nextId !in r.parent && r.controls[t.nextId] == []
      && r.nodes[t.nextId] == Fresh(rect, kind)
      && (forall y | y in t.nodes :: y in r.nodes && r.nodes[y] == t.nodes[y] && r.controls[y] == t.controls[y])
      && r.parent == t.parent && r.log == t.log
  {
  }

  /** Creating a control keeps the arena coherent, the new control a root
      at depth 0. */
  lemma CreateCoherent(t: Tree, depth: map<Id, nat>, bound: nat, rect: Rect, kind: Kind)
    requires Coherent(t, depth, bound)
    requires kind.TextboxKind? ==> TextboxLogic.Consistent(kind.box)
    ensures Coherent(Create(t, rect, kind), depth[t.nextId := 0], bound + 1)
  {
    Forest.AddRootWf(t.parent, t.controls, depth, bound, t.nextId);
  }

  /** `add_control`: `c` is appended to the children of `p`, its parent
      becomes `p`, and its render rectangle is recomputed against `p`. */
  function Attach(t: Tree, p: Id, c: Id): Tree
    requires p in t.nodes && c in t.nodes && p in t.controls
  {
    t.(nodes := t.nodes[c := t.nodes[c].(render := RenderRect(t.nodes[c].rect, Some(t.nodes[p].rect)))],
       controls := t.controls[p := t.controls[p] + [c]], parent := t.parent[c := p])
  }

  /** Attaching makes `c` the last child of `p`, after the children `p`
      had, with `p` as its parent and drawn relative to `p`. */
  lemma AttachAppends(t: Tree, p: Id, c: Id)
    requires p in t.nodes && c in t.nodes && p in t.controls
    ensures var r := Attach(t, p, c);
      && |r.controls[p]| == |t.controls[p]| + 1 && r.controls[p][|t.controls[p]|] == c
      && r.controls[p][..|t.controls[p]|] == t.controls[p]
      && r.parent[c] == p && r.nodes[c].render == RenderRect(t.nodes[c].rect, Some(t.nodes[p].rect))
  {
    assert Attach(t, p, c).controls[p][..|t.controls[p]|] == t.controls[p];
  }

  /** Attaching a control without a parent, not above `p`, keeps the arena
      coherent, with the attached tree moved down under `p`. */
  lemma AttachCoherent(t: Tree, depth: map<Id, nat>, bound: nat, p: Id, c: Id)
    returns (depth': map<Id, nat>, bound': nat)
    requires Coherent(t, depth, bound) && p in t.nodes && c in t.nodes
    requires c !in t.parent && !Under(t, depth, p, c)
    ensures Coherent(Attach(t, p, c), depth', bound')
  {
    Forest.AttachWf(t.parent, t.controls, depth, bound, p, c);
    depth' := Forest.AttachedDepth(t.parent, depth, p, c);
    bound' := bound + depth[p] + 1;
    AttachNodesOk(t, p, c);
  }

  lemma AttachNodesOk(t: Tree, p: Id, c: Id)
    requires NodesOk(t) && p in t.nodes && c in t.nodes && p in t.controls && c !in t.parent
    ensures NodesOk(Attach(t, p, c))
  {
    var r := Attach(t, p, c);
    forall x | x in r.nodes ensures x < r.nextId && NodeOk(x, r.nodes[x], r.parent) {
      assert NodeOk(x, t.nodes[x], t.parent);
    }
  }

  /** Replacing the state of one control by a consistent one keeps the
      arena coherent. */
  lemma PutCoherent(t: Tree, depth: map<Id, nat>, bound: nat, x: Id, n: Node)
    requires Coherent(t, depth, bound) && x in t.nodes && NodeOk(x, n, t.parent)
    ensures Coherent(t.(nodes := t.nodes[x := n]), depth, bound)
  {
  }

  /** The same, with the log replaced as well: the log is not part of the
      shape invariant. */
  lemma PutLogCoherent(t: Tree, depth: map<Id, nat>, bound: nat, x: Id, n: Node, log: seq<Fired>)
    requires Coherent(t, depth, bound) && x in t.nodes && NodeOk(x, n, t.parent)
    ensures Coherent(t.(nodes := t.nodes[x := n], log := log), depth, bound)
  {
  }

  /** Changes that touch only the interaction flags of the controls keep the
      arena coherent. */
  lemma FlagsCoherent(t: Tree, r: Tree, depth: map<Id, nat>, bound: nat)
    requires Coherent(t, depth, bound)
    requires r.controls.Keys == t.controls.Keys && Forest.Wf(r.parent, r.controls, depth, bound)
    requires r.parent == t.parent && r.nextId == t.nextId && r.nodes.Keys == t.nodes.Keys
    requires forall y | y in t.nodes ::
      r.nodes[y] == t.nodes[y].(hovered := r.nodes[y].hovered, clicked := r.nodes[y].clicked,
                                active := r.nodes[y].active, visible := r.nodes[y].visible)
    ensures Coherent(r, depth, bound)
  {
    forall y | y in r.nodes ensures y < r.nextId && NodeOk(y, r.nodes[y], r.parent) {
      assert NodeOk(y, t.nodes[y], t.parent);
    }
  }
}

=== FILE: updates.dfy ===
/** The update of a whole tree of controls: `Form.update` drags a movable
    form, then updates its children from the front of the paint order to
    the back and, at the first child whose rectangle holds the pointer,
    resets every other child and stops; every other control runs its own
    `update`. */
module Updates {
  import opened Geometry
  import opened Optional
  import opened Nodes
  import opened ControlTree
  import opened Events
  import Activation
  import Interaction
  import TextInput
  import FormDrag
  import FormChrome
  import Forest

  // -----------------------------------------------------------------------
  // Resetting the other children

  /** Below `x`, the controls in the subtree of a child other than `c`. */
  ghost predicate OtherBranch(t: Tree, depth: map<Id, nat>, x: Id, c: Id, y: Id)
    requires Activation.Ranks(t, depth) && y in t.nodes
  {
    y != x && Under(t, depth, y, x) && Forest.Branch(t.parent, depth, t.controls.Keys, y, x) != c
  }

  /** `for c in self._controls: if c != control: c.reset()`: every control
      in the subtree of a child of `x` other than `c` is neither hovered nor
      active; nothing else changes. */
  ghost function OthersCleared(t: Tree, depth: map<Id, nat>, x: Id, c: Id): (r: Tree)
    requires Activation.Ranks(t, depth)
    ensures r.nodes.Keys == t.nodes.Keys && r.controls == t.controls
    ensures r.parent == t.parent && r.nextId == t.nextId && r.log == t.log
  {
    t.(nodes := map y | y in t.nodes ::
         if OtherBranch(t, depth, x, c, y) then t.nodes[y].(hovered := false, active := false) else t.nodes[y])
  }

  /** The states after the first `k` children of `x` have been visited. */
  ghost function OthersUpTo(t: Tree, depth: map<Id, nat>, x: Id, c: Id, k: nat): (ns: map<Id, Node>)
    requires Activation.Ranks(t, depth) && x in t.controls && k <= |t.controls[x]|
    ensures ns.Keys == t.nodes.Keys
  {
    map y | y in t.nodes ::
      if OtherBranch(t, depth, x, c, y) && Forest.Branch(t.parent, depth, t.controls.Keys, y, x) in t.controls[x][..k]
      then t.nodes[y].(hovered := false, active := false) else t.nodes[y]
  }

  /** The reset loop of `Form.update`, proved against `OthersCleared`. */
  method ResetOthers(t: Tree, ghost depth: map<Id, nat>, ghost bound: nat, x: Id, c: Id) returns (r: Tree)
    requires Rooted(t, depth, bound) && x in t.nodes
    ensures r == OthersCleared(t, depth, x, c)
  {
    var cs := t.controls[x];
    ChildrenOf(t, depth, bound, x);
    var ns := t.nodes;
    Activation.SameNodes(ns, OthersUpTo(t, depth, x, c, 0));
    for k := 0 to |cs|
      invariant ns == OthersUpTo(t, depth, x, c, k)
    {
      OthersStep(t, depth, x, c, k);
      if cs[k] != c {
        var u := Activation.Reset(t.(nodes := ns), depth, bound, cs[k]);
        ns := u.nodes;
      }
    }
    OthersAll(t, depth, bound, x, c);
    r := t.(nodes := ns);
  }

  /** Visiting the next child resets it unless it is `c`. */
  lemma OthersStep(t: Tree, depth: map<Id, nat>, x: Id, c: Id, k: nat)
    requires Activation.Ranks(t, depth) && x in t.controls && k < |t.controls[x]|
    requires t.controls[x][k] in t.parent && t.parent[t.controls[x][k]] == x && t.controls[x][k] != x
    ensures t.controls[x][k] != c ==>
      Activation.Cleared(t.(nodes := OthersUpTo(t, depth, x, c, k)), depth, t.controls[x][k]).nodes
        == OthersUpTo(t, depth, x, c, k + 1)
    ensures t.controls[x][k] == c ==> OthersUpTo(t, depth, x, c, k) == OthersUpTo(t, depth, x, c, k + 1)
  {
    var ns := OthersUpTo(t, depth, x, c, k + 1);
    var u := if t.controls[x][k] != c
             then Activation.Cleared(t.(nodes := OthersUpTo(t, depth, x, c, k)), depth, t.controls[x][k]).nodes
             else OthersUpTo(t, depth, x, c, k);
    forall y | y in t.nodes ensures u[y] == ns[y] {
      OthersStepAt(t, depth, x, c, k, y);
    }
    Activation.SameNodes(u, ns);
  }

  lemma OthersStepAt(t: Tree, depth: map<Id, nat>, x: Id, c: Id, k: nat, y: Id)
    requires Activation.Ranks(t, depth) && x in t.controls && k < |t.controls[x]|
    requires t.controls[x][k] in t.parent && t.parent[t.controls[x][k]] == x && t.controls[x][k] != x
    requires y in t.nodes
    ensures t.controls[x][k] != c ==>
      Activation.Cleared(t.(nodes := OthersUpTo(t, depth, x, c, k)), depth, t.controls[x][k]).nodes[y]
        == OthersUpTo(t, depth, x, c, k + 1)[y]
    ensures t.controls[x][k] == c ==> OthersUpTo(t, depth, x, c, k)[y] == OthersUpTo(t, depth, x, c, k + 1)[y]
  {
    Forest.InPrefixNext(t.controls[x], k);
    Forest.BelowChild(t.parent, depth, t.controls.Keys, y, x, t.controls[x][k]);
  }

  /** Once every child is visited, the others are reset. */
  lemma OthersAll(t: Tree, depth: map<Id, nat>, bound: nat, x: Id, c: Id)
    requires Rooted(t, depth, bound) && x in t.nodes
    ensures t.(nodes := OthersUpTo(t, depth, x, c, |t.controls[x]|)) == OthersCleared(t, depth, x, c)
  {
    Forest.InPrefixAll(t.controls[x]);
    assert forall y | y in t.nodes && y != x && Under(t, depth, y, x) ::
      Forest.Branch(t.parent, depth, t.controls.Keys, y, x) in t.controls[x];
  }

  /** Resetting the other children keeps the tree coherent and touches
      only the subtree of `x`. */
  lemma OthersClearedKept(t: Tree, depth: map<Id, nat>, bound: nat, x: Id, c: Id)
    requires Coherent(t, depth, bound) && x in t.nodes
    ensures Coherent(OthersCleared(t, depth, x, c), depth, bound)
    ensures Interaction.Kept(t, OthersCleared(t, depth, x, c), depth, x)
  {
    var r := OthersCleared(t, depth, x, c);
    FlagsCoherent(t, r, depth, bound);
    assert Interaction.ListsKept(t, r, depth, x);
    assert Interaction.NodesKept(t, r, depth, x);
  }

  // -----------------------------------------------------------------------
  // The scan over the children

  /** What the scan of the children of `x` at the positions below `i`
      (from `i - 1` down) promises, `hit` being the position where it
      stopped: the child at `hit` holds the pointer in its rectangle, and
      every child scanned before it (every child below `i`, when the scan
      did not stop) does not; for the rest, see `DispatchedAt`. */
  ghost predicate Dispatched(t: Tree, r: Tree, depth: map<Id, nat>, x: Id, pos: Point,
                             i: nat, hit: Option<nat>)
    requires Activation.Ranks(t, depth) && x in t.nodes && ChildrenIn(t, x) && i <= |t.controls[x]|
    requires r.nodes.Keys == t.nodes.Keys
  {
    var cs := t.controls[x];
    && (hit.Some? ==> hit.value < i && Contains(r.nodes[cs[hit.value]].rect, pos))
    && (forall j | (if hit.Some? then hit.value < j else 0 <= j) && j < i :: !Contains(r.nodes[cs[j]].rect, pos))
    && (forall y | y in t.nodes :: DispatchedAt(t, r, depth, x, i, hit, y))
  }

  /** What the scan promises of each control `y`: when it stopped,
      everything under the other children is neither hovered nor active,
      and the children it never reached (those before `hit` in the list)
      are as they were apart from those two flags; the children it did not
      scan keep their rectangles, and `x` keeps all but its active and
      visible flags. */
  ghost predicate DispatchedAt(t: Tree, r: Tree, depth: map<Id, nat>, x: Id, i: nat,
                               hit: Option<nat>, y: Id)
    requires Activation.Ranks(t, depth) && x in t.nodes && i <= |t.controls[x]|
    requires r.nodes.Keys == t.nodes.Keys && y in t.nodes && (hit.Some? ==> hit.value < i)
  {
    var cs := t.controls[x];
    && (hit.Some? && OtherBranch(t, depth, x, cs[hit.value], y) ==> !r.nodes[y].hovered && !r.nodes[y].active)
    && (hit.Some? && y != x && Under(t, depth, y, x) &&
        Forest.Branch(t.parent, depth, t.controls.Keys, y, x) in cs[..hit.value] ==>
          r.nodes[y] == t.nodes[y].(hovered := false, active := false))
    && (y in t.parent && t.parent[y] == x && y !in cs[..i] ==> r.nodes[y].rect == t.nodes[y].rect)
    && (y == x ==> r.nodes[x] == t.nodes[x].(active := r.nodes[x].active, visible := r.nodes[x].visible))
  }

  /** The children of `x` are controls. */
  ghost predicate ChildrenIn(t: Tree, x: Id)
    requires x in t.controls
  {
    forall j | 0 <= j < |t.controls[x]| :: t.controls[x][j] in t.nodes
  }

  /** What the update of a child `c` of `x` left for the scan to rely on:
      the same controls and links, and the controls outside the subtree of
      `c` as they were but for their active flags and the visibility of
      `x`. */
  ghost predicate ChildFrame(t: Tree, u: Tree, depth: map<Id, nat>, x: Id, c: Id)
    requires Activation.Ranks(t, depth) && c in t.nodes
  {
    && Activation.Ranks(u, depth) && u.nodes.Keys == t.nodes.Keys && u.controls.Keys == t.controls.Keys
    && u.parent == t.parent && c in t.parent && t.parent[c] == x
    && Interaction.NodesKept(t, u, depth, c)
  }

  /** One control after the other children are reset, in the case that
      the child at `i - 1` holds the pointer. */
  lemma HitAt(t: Tree, u: Tree, depth: map<Id, nat>, x: Id, i: nat, y: Id)
    requires Activation.Ranks(t, depth) && x in t.controls && ChildrenIn(t, x) && 0 < i <= |t.controls[x]|
    requires t.controls[x][i - 1] in t.nodes && t.controls[x][i - 1] !in t.controls[x][..i - 1]
    requires ChildFrame(t, u, depth, x, t.controls[x][i - 1]) && y in t.nodes
    ensures var r := OthersCleared(u, depth, x, t.controls[x][i - 1]);
      && DispatchedAt(t, r, depth, x, i, Some(i - 1), y)
      && (y == t.controls[x][i - 1] ==> r.nodes[y] == u.nodes[y])
  {
    var cs := t.controls[x];
    var c := cs[i - 1];
    var keys := t.controls.Keys;
    if y != x && Under(t, depth, y, x) {
      Forest.BelowChild(t.parent, depth, keys, y, x, c);
    }
    if Under(t, depth, y, c) && y !in cs[..i] {
      Forest.InPrefixNext(cs, i - 1);
      Forest.WithinDepth(t.parent, depth, keys, y, c);
    }
    if y == x && Under(t, depth, x, c) {
      Forest.WithinDepth(t.parent, depth, keys, x, c);
    }
  }

  /** The child at `i - 1` holds the pointer after its update: the others
      are reset and the scan stops there. */
  lemma HitCase(t: Tree, u: Tree, depth: map<Id, nat>, x: Id, pos: Point, i: nat)
    requires Activation.Ranks(t, depth) && x in t.controls && ChildrenIn(t, x) && 0 < i <= |t.controls[x]|
    requires t.controls[x][i - 1] in t.nodes && t.controls[x][i - 1] !in t.controls[x][..i - 1]
    requires ChildFrame(t, u, depth, x, t.controls[x][i - 1])
    requires Contains(u.nodes[t.controls[x][i - 1]].rect, pos)
    ensures Dispatched(t, OthersCleared(u, depth, x, t.controls[x][i - 1]), depth, x, pos, i, Some(i - 1))
  {
    var cs := t.controls[x];
    var r := OthersCleared(u, depth, x, cs[i - 1]);
    forall y | y in t.nodes {
      HitAt(t, u, depth, x, i, y);
    }
    assert Contains(r.nodes[cs[i - 1]].rect, pos);
  }

  /** The child at `i - 1` does not hold the pointer: the scan goes on
      with the positions below, which its update left in place. */
  lemma ScanPrefix(t: Tree, u: Tree, depth: map<Id, nat>, bound: nat, x: Id, i: nat)
    requires Coherent(t, depth, bound) && x in t.nodes && 0 < i <= |t.controls[x]|
    requires t.controls[x][i - 1] in t.nodes && t.controls[x][i - 1] in t.parent && t.parent[t.controls[x][i - 1]] == x
    requires Interaction.Kept(t, u, depth, t.controls[x][i - 1])
    ensures x in u.controls && i - 1 <= |u.controls[x]| && u.controls[x][..i - 1] == t.controls[x][..i - 1]
  {
    var c := t.controls[x][i - 1];
    var keys := t.controls.Keys;
    if Under(t, depth, x, c) {
      Forest.WithinDepth(t.parent, depth, keys, x, c);
    }
    Forest.WithinUp(t.parent, depth, keys, c, x);
    if u.controls[x] != t.controls[x] {
      assert Forest.Branch(t.parent, depth, keys, c, x) == c;
      Forest.MoveToEndAt(t.controls[x], i - 1);
    }
  }

  /** One control after the scan below `i - 1`, in terms of the tree
      before the update of the child at `i - 1`. */
  lemma ScanAt(t: Tree, u: Tree, r: Tree, depth: map<Id, nat>, x: Id, i: nat,
               hit: Option<nat>, y: Id)
    requires Activation.Ranks(t, depth) && x in t.controls && ChildrenIn(t, x) && 0 < i <= |t.controls[x]|
    requires t.controls[x][i - 1] in t.nodes && t.controls[x][i - 1] !in t.controls[x][..i - 1]
    requires ChildFrame(t, u, depth, x, t.controls[x][i - 1]) && ChildrenIn(u, x)
    requires i - 1 <= |u.controls[x]| && u.controls[x][..i - 1] == t.controls[x][..i - 1]
    requires hit.Some? ==> hit.value < i - 1
    requires hit.Some? ==> u.controls[x][hit.value] == t.controls[x][hit.value]
    requires hit.Some? ==> u.controls[x][..hit.value] == t.controls[x][..hit.value]
    requires y in t.nodes && r.nodes.Keys == u.nodes.Keys && DispatchedAt(u, r, depth, x, i - 1, hit, y)
    ensures DispatchedAt(t, r, depth, x, i, hit, y)
    ensures y == t.controls[x][i - 1] ==> r.nodes[y].rect == u.nodes[y].rect
  {
    var cs := t.controls[x];
    var c := cs[i - 1];
    var keys := t.controls.Keys;
    if y != x && Under(t, depth, y, x) {
      Forest.BelowChild(t.parent, depth, keys, y, x, c);
      if hit.Some? && Forest.Branch(t.parent, depth, keys, y, x) in cs[..hit.value] {
        assert cs[..hit.value] == cs[..i - 1][..hit.value];
      }
    }
    if y in t.parent && t.parent[y] == x && y !in cs[..i] {
      Forest.InPrefixNext(cs, i - 1);
      if Under(t, depth, y, c) {
        Forest.WithinDepth(t.parent, depth, keys, y, c);
      }
    }
    if y == x && Under(t, depth, x, c) {
      Forest.WithinDepth(t.parent, depth, keys, x, c);
    }
  }

  /** Two lists that agree up to `k` agree at each position and on each
      shorter prefix. */
  lemma PrefixAgree(us: seq<Id>, cs: seq<Id>, k: nat)
    requires k <= |us| && k <= |cs| && us[..k] == cs[..k]
    ensures forall j | 0 <= j < k :: us[j] == cs[j]
    ensures forall h | 0 <= h <= k :: us[..h] == cs[..h]
  {
    forall j | 0 <= j < k ensures us[j] == cs[j] {
      assert us[..k][j] == cs[..k][j];
    }
    forall h | 0 <= h <= k ensures us[..h] == cs[..h] {
      assert us[..h] == us[..k][..h];
      assert cs[..h] == cs[..k][..h];
    }
  }

  /** The scan below `i - 1` composed with the update of the child at
      `i - 1`, which did not hold the pointer. */
  lemma ScanCase(t: Tree, u: Tree, r: Tree, depth: map<Id, nat>, x: Id, pos: Point, i: nat, hit: Option<nat>)
    requires Activation.Ranks(t, depth) && x in t.controls && ChildrenIn(t, x) && 0 < i <= |t.controls[x]|
    requires t.controls[x][i - 1] in t.nodes && t.controls[x][i - 1] !in t.controls[x][..i - 1]
    requires ChildFrame(t, u, depth, x, t.controls[x][i - 1]) && ChildrenIn(u, x)
    requires !Contains(u.nodes[t.controls[x][i - 1]].rect, pos)
    requires i - 1 <= |u.controls[x]| && u.controls[x][..i - 1] == t.controls[x][..i - 1]
    requires r.nodes.Keys == u.nodes.Keys && Dispatched(u, r, depth, x, pos, i - 1, hit)
    ensures Dispatched(t, r, depth, x, pos, i, hit)
  {
    PrefixAgree(u.controls[x], t.controls[x], i - 1);
    ScanEach(t, u, r, depth, x, pos, i, hit);
    assert r.nodes[t.controls[x][i - 1]].rect == u.nodes[t.controls[x][i - 1]].rect;
    MissesStep(t.controls[x], u.controls[x], r.nodes, pos, i, hit);
  }

  /** The hit and the misses of a scan that reached `i - 1` carry over to
      the list whose first `i - 1` entries agree, once the entry at `i - 1`
      is a miss too. */
  lemma MissesStep(cs: seq<Id>, us: seq<Id>, nodes: map<Id, Node>, pos: Point, i: nat, hit: Option<nat>)
    requires 0 < i <= |cs| && i - 1 <= |us| && us[..i - 1] == cs[..i - 1]
    requires forall j | 0 <= j < i :: cs[j] in nodes
    requires !Contains(nodes[cs[i - 1]].rect, pos)
    requires hit.Some? ==> hit.value < i - 1 && us[hit.value] in nodes && Contains(nodes[us[hit.value]].rect, pos)
    requires forall j | (if hit.Some? then hit.value < j else 0 <= j) && j < i - 1 ::
      us[j] in nodes && !Contains(nodes[us[j]].rect, pos)
    ensures hit.Some? ==> hit.value < i && Contains(nodes[cs[hit.value]].rect, pos)
    ensures forall j | (if hit.Some? then hit.value < j else 0 <= j) && j < i :: !Contains(nodes[cs[j]].rect, pos)
  {
    if hit.Some? {
      assert us[hit.value] == us[..i - 1][hit.value];
    }
    forall j | (if hit.Some? then hit.value < j else 0 <= j) && j < i
      ensures !Contains(nodes[cs[j]].rect, pos)
    {
      if j < i - 1 {
        assert us[j] == us[..i - 1][j];
      }
    }
  }

  lemma ScanEach(t: Tree, u: Tree, r: Tree, depth: map<Id, nat>, x: Id, pos: Point, i: nat, hit: Option<nat>)
    requires Activation.Ranks(t, depth) && x in t.controls && ChildrenIn(t, x) && 0 < i <= |t.controls[x]|
    requires t.controls[x][i - 1] in t.nodes && t.controls[x][i - 1] !in t.controls[x][..i - 1]
    requires ChildFrame(t, u, depth, x, t.controls[x][i - 1]) && ChildrenIn(u, x)
    requires i - 1 <= |u.controls[x]| && u.controls[x][..i - 1] == t.controls[x][..i - 1]
    requires forall j | 0 <= j < i - 1 :: u.controls[x][j] == t.controls[x][j]
    requires forall h | 0 <= h <= i - 1 :: u.controls[x][..h] == t.controls[x][..h]
    requires r.nodes.Keys == u.nodes.Keys && Dispatched(u, r, depth, x, pos, i - 1, hit)
    ensures forall y | y in t.nodes :: DispatchedAt(t, r, depth, x, i, hit, y)
    ensures r.nodes[t.controls[x][i - 1]].rect == u.nodes[t.controls[x][i - 1]].rect
  {
    forall y | y in t.nodes {
      ScanAt(t, u, r, depth, x, i, hit, y);
    }
  }

  /** An update that changes nothing keeps what an update keeps. */
  lemma KeptRefl(t: Tree, depth: map<Id, nat>, x: Id)
    requires Activation.Ranks(t, depth) && x in t.nodes
    ensures Interaction.Kept(t, t, depth, x)
  {
    assert Interaction.NodesKept(t, t, depth, x);
  }

  // -----------------------------------------------------------------------
  // The updates, as functions

  /** What a scan of the children leaves: the tree, and the position of
      the child where it stopped, if any. */
  datatype Scan = Scan(tree: Tree, hit: Option<nat>)

  /** `control.update(events)` for any kind of control: a form runs
      `Form.update`, a text box `Textbox.update`, every other control
      `Control.update`. The update keeps the tree coherent and changes
      nothing outside the subtree of `x` but the activation flags above
      it, the order of the lists above it and the visibility of its parent. */
  ghost function Updated(t: Tree, depth: map<Id, nat>, bound: nat, x: Id, pos: Point,
                         events: seq<Event>, now: int, width: string -> int): (r: Tree)
    requires Coherent(t, depth, bound) && x in t.nodes
    ensures Coherent(r, depth, bound) && Interaction.Kept(t, r, depth, x)
    decreases bound - depth[x], 2, 0
  {
    var k := t.nodes[x].kind;
    if k.FormKind? then
      FormUpdated(t, depth, bound, x, pos, events, now, width).tree
    else if k.TextboxKind? then
      TextInput.TextboxUpdatedKept(t, depth, bound, x, pos, events, now, width);
      TextInput.TextboxUpdated(t, depth, bound, x, pos, events, now, width)
    else
      Interaction.StepAllKept(t, depth, bound, x, pos, events);
      Interaction.StepAll(t, depth, bound, x, pos, events)
  }

  /** The drag of `Form.update`: the drag loop on a movable form, nothing
      on a fixed one. */
  ghost function DragIfMovableOf(t: Tree, x: Id, pos: Point, events: seq<Event>): Tree
    requires FormDrag.Draggable(t, x)
  {
    if t.nodes[x].kind.movable then FormDrag.Dragged(t, x, pos, events) else t
  }

  /** The drag keeps the tree coherent, changes nothing outside the form's
      subtree and takes the form's drag state as `DragAll` says. */
  lemma DragIfMovableKept(t: Tree, depth: map<Id, nat>, bound: nat, x: Id, pos: Point, events: seq<Event>)
    requires Coherent(t, depth, bound) && x in t.nodes && t.nodes[x].kind.FormKind?
    ensures var d := DragIfMovableOf(t, x, pos, events);
      && Coherent(d, depth, bound) && Interaction.Kept(t, d, depth, x)
      && d.nodes[x].kind.FormKind? && FormDrag.StateOf(d.nodes[x]) ==
           (if t.nodes[x].kind.movable then FormChrome.DragAll(FormDrag.StateOf(t.nodes[x]), pos, events)
            else FormDrag.StateOf(t.nodes[x]))
  {
    KeptRefl(t, depth, x);
    if t.nodes[x].kind.movable {
      FormDrag.DraggedCoherent(t, depth, bound, x, pos, events);
      FormDrag.DraggedKept(t, depth, bound, x, pos, events);
      FormDrag.DraggedState(t, x, pos, events);
    }
  }

  /** `Form.update`: an invisible form does nothing; otherwise the drag,
      then the scan of all the children from the front of the list. */
  ghost function FormUpdated(t: Tree, depth: map<Id, nat>, bound: nat, x: Id, pos: Point,
                             events: seq<Event>, now: int, width: string -> int): (s: Scan)
    requires Coherent(t, depth, bound) && x in t.nodes && t.nodes[x].kind.FormKind?
    ensures Coherent(s.tree, depth, bound) && Interaction.Kept(t, s.tree, depth, x)
    decreases bound - depth[x], 1, 0
  {
    if !t.nodes[x].visible then
      KeptRefl(t, depth, x);
      Scan(t, None)
    else
      var d := DragIfMovableOf(t, x, pos, events);
      DragIfMovableKept(t, depth, bound, x, pos, events);
      var s := ScanFrom(d, depth, bound, x, pos, events, now, width, |d.controls[x]|);
      Interaction.KeptTrans(t, d, s.tree, depth, bound, x);
      s
  }

  /** `for control in reversed(self._controls)` over the positions below
      `i`, from `i - 1` down: the child there, as the list stands then, runs
      its own update on the tree the scan has reached; when its rectangle
      then holds the pointer every other child is reset and the scan stops
      there, and otherwise the scan goes on below. */
  ghost function ScanFrom(t: Tree, depth: map<Id, nat>, bound: nat, x: Id, pos: Point,
                          events: seq<Event>, now: int, width: string -> int, i: nat): (s: Scan)
    requires Coherent(t, depth, bound) && x in t.nodes && i <= |t.controls[x]|
    ensures Coherent(s.tree, depth, bound) && Interaction.Kept(t, s.tree, depth, x)
    decreases bound - depth[x], 0, i
  {
    if i == 0 then
      KeptRefl(t, depth, x);
      Scan(t, None)
    else
      ChildrenOf(t, depth, bound, x);
      var c := t.controls[x][i - 1];
      var u := Updated(t, depth, bound, c, pos, events, now, width);
      Interaction.KeptNarrow(t, u, depth, bound, c, x);
      if Contains(u.nodes[c].rect, pos) then
        OthersClearedKept(u, depth, bound, x, c);
        Interaction.KeptTrans(t, u, OthersCleared(u, depth, x, c), depth, bound, x);
        Scan(OthersCleared(u, depth, x, c), Some(i - 1))
      else
        ScanPrefix(t, u, depth, bound, x, i);
        var s := ScanFrom(u, depth, bound, x, pos, events, now, width, i - 1);
        Interaction.KeptTrans(t, u, s.tree, depth, bound, x);
        s
  }

  /** The scan meets `Scanned`: the child where it stopped holds the
      pointer, every child scanned before it does not, and the resets and
      the untouched children are as `DispatchedAt` says. */
  lemma {:induction false} ScanFromScanned(t: Tree, depth: map<Id, nat>, bound: nat, x: Id, pos: Point,
                                           events: seq<Event>, now: int, width: string -> int, i: nat)
    requires Coherent(t, depth, bound) && x in t.nodes && i <= |t.controls[x]|
    ensures var s := ScanFrom(t, depth, bound, x, pos, events, now, width, i);
      Scanned(t, s.tree, depth, bound, x, pos, i, s.hit)
    decreases i
  {
    if i == 0 {
      ScannedNone(t, depth, bound, x, pos);
    } else {
      ChildrenOf(t, depth, bound, x);
      var c := t.controls[x][i - 1];
      var u := Updated(t, depth, bound, c, pos, events, now, width);
      ScanFromStep(t, depth, bound, x, pos, events, now, width, i);
      if Contains(u.nodes[c].rect, pos) {
        ScannedHit(t, u, depth, bound, x, pos, i);
      } else {
        var s := ScanFrom(u, depth, bound, x, pos, events, now, width, i - 1);
        ScanFromScanned(u, depth, bound, x, pos, events, now, width, i - 1);
        ScannedMiss(t, u, s.tree, depth, bound, x, pos, i, s.hit);
      }
    }
  }

  /** What `Form.update` promises: an invisible form is left alone; a
      visible one drags as `DragAll` says when it is movable, and its
      children are then scanned as `Dispatched` says. */
  lemma FormUpdatedDispatched(t: Tree, depth: map<Id, nat>, bound: nat, x: Id, pos: Point,
                              events: seq<Event>, now: int, width: string -> int)
    requires Coherent(t, depth, bound) && x in t.nodes && t.nodes[x].kind.FormKind?
    ensures var s := FormUpdated(t, depth, bound, x, pos, events, now, width);
      && (!t.nodes[x].visible ==> s == Scan(t, None))
      && (t.nodes[x].visible ==>
            var d := DragIfMovableOf(t, x, pos, events);
            && Activation.Ranks(d, depth) && x in d.nodes && ChildrenIn(d, x) && s.tree.nodes.Keys == d.nodes.Keys
            && Dispatched(d, s.tree, depth, x, pos, |d.controls[x]|, s.hit))
      && (t.nodes[x].visible ==>
            && s.tree.nodes[x].kind.FormKind?
            && FormDrag.StateOf(s.tree.nodes[x]) ==
                 (if t.nodes[x].kind.movable then FormChrome.DragAll(FormDrag.StateOf(t.nodes[x]), pos, events)
                  else FormDrag.StateOf(t.nodes[x])))
  {
    if t.nodes[x].visible {
      var d := DragIfMovableOf(t, x, pos, events);
      DragIfMovableKept(t, depth, bound, x, pos, events);
      ChildrenOf(d, depth, bound, x);
      var s := ScanFrom(d, depth, bound, x, pos, events, now, width, |d.controls[x]|);
      ScanFromScanned(d, depth, bound, x, pos, events, now, width, |d.controls[x]|);
      assert DispatchedAt(d, s.tree, depth, x, |d.controls[x]|, s.hit, x);
    }
  }

  /** One step of the scan: the child at `i - 1` runs its update; a hit
      there ends the scan with the others reset, and a miss leaves the
      scan below `i - 1` of the tree that update left, whose list agrees
      with the old one below `i - 1`. */
  lemma ScanFromStep(t: Tree, depth: map<Id, nat>, bound: nat, x: Id, pos: Point,
                     events: seq<Event>, now: int, width: string -> int, i: nat)
    requires Coherent(t, depth, bound) && x in t.nodes && 0 < i <= |t.controls[x]|
    ensures t.controls[x][i - 1] in t.nodes
    ensures var c := t.controls[x][i - 1];
      var u := Updated(t, depth, bound, c, pos, events, now, width);
      && Interaction.Kept(t, u, depth, c) && x in u.nodes
      && i - 1 <= |u.controls[x]| && u.controls[x][..i - 1] == t.controls[x][..i - 1]
      && ScanFrom(t, depth, bound, x, pos, events, now, width, i) ==
           if Contains(u.nodes[c].rect, pos) then Scan(OthersCleared(u, depth, x, c), Some(i - 1))
           else ScanFrom(u, depth, bound, x, pos, events, now, width, i - 1)
  {
    ChildrenOf(t, depth, bound, x);
    var u := Updated(t, depth, bound, t.controls[x][i - 1], pos, events, now, width);
    ScanPrefix(t, u, depth, bound, x, i);
  }

  // -----------------------------------------------------------------------
  // The updates, as the code runs them

  /** `control.update(events)`, proved equal to `Updated`. */
  method Update(t: Tree, ghost depth: map<Id, nat>, ghost bound: nat, x: Id, pos: Point,
                events: seq<Event>, now: int, width: string -> int) returns (r: Tree)
    requires Coherent(t, depth, bound) && x in t.nodes
    ensures r == Updated(t, depth, bound, x, pos, events, now, width)
    decreases bound - depth[x], 2, 0, 0
  {
    var n := t.nodes[x];
    if n.kind.FormKind? {
      r := FormUpdate(t, depth, bound, x, pos, events, now, width);
    } else if n.kind.TextboxKind? {
      r := TextInput.TextboxUpdate(t, depth, bound, x, pos, events, now, width);
    } else {
      r := Interaction.ControlUpdate(t, depth, bound, x, pos, events);
    }
  }

  /** `Form.update`, proved equal to `FormUpdated`. */
  method FormUpdate(t: Tree, ghost depth: map<Id, nat>, ghost bound: nat, x: Id, pos: Point,
                    events: seq<Event>, now: int, width: string -> int) returns (r: Tree)
    requires Coherent(t, depth, bound) && x in t.nodes && t.nodes[x].kind.FormKind?
    ensures r == FormUpdated(t, depth, bound, x, pos, events, now, width).tree
    decreases bound - depth[x], 1, 0, 0
  {
    var n := t.nodes[x];
    if !n.visible {
      return t;
    }
    var d := DragIfMovable(t, depth, bound, x, pos, events);
    ChildrenOf(d, depth, bound, x);
    var hit;
    r, hit := DispatchFrom(d, depth, bound, x, pos, events, now, width, |d.controls[x]|);
  }

  /** The drag loop of `Form.update`, run only on a movable form. */
  method DragIfMovable(t: Tree, ghost depth: map<Id, nat>, ghost bound: nat, x: Id, pos: Point,
                       events: seq<Event>) returns (d: Tree)
    requires Coherent(t, depth, bound) && x in t.nodes && t.nodes[x].kind.FormKind?
    ensures d == DragIfMovableOf(t, x, pos, events)
    ensures Coherent(d, depth, bound) && Interaction.Kept(t, d, depth, x)
  {
    DragIfMovableKept(t, depth, bound, x, pos, events);
    d := t;
    if t.nodes[x].kind.movable {
      d := FormDrag.Drag(t, depth, bound, x, pos, events);
    }
  }

  /** The scan below `i` took `t` to `r`, stopping at `hit`: the tree
      stays coherent, nothing outside the subtree of `x` changes but what
      an update of `x` may change, and `Dispatched` holds. */
  ghost predicate Scanned(t: Tree, r: Tree, depth: map<Id, nat>, bound: nat, x: Id, pos: Point,
                          i: nat, hit: Option<nat>)
    requires x in t.nodes && x in t.controls && i <= |t.controls[x]|
  {
    && Coherent(t, depth, bound) && Coherent(r, depth, bound) && Interaction.Kept(t, r, depth, x)
    && ChildrenIn(t, x) && Dispatched(t, r, depth, x, pos, i, hit)
  }

  /** An empty scan changes nothing. */
  lemma ScannedNone(t: Tree, depth: map<Id, nat>, bound: nat, x: Id, pos: Point)
    requires Coherent(t, depth, bound) && x in t.nodes
    ensures Scanned(t, t, depth, bound, x, pos, 0, None)
  {
    ChildrenOf(t, depth, bound, x);
    KeptRefl(t, depth, x);
  }

  /** The child at `i - 1` holds the pointer after its update: resetting
      the others ends the scan. */
  lemma ScannedHit(t: Tree, u: Tree, depth: map<Id, nat>, bound: nat, x: Id, pos: Point, i: nat)
    requires Coherent(t, depth, bound) && x in t.nodes && 0 < i <= |t.controls[x]| && t.controls[x][i - 1] in t.nodes
    requires Coherent(u, depth, bound) && Interaction.Kept(t, u, depth, t.controls[x][i - 1])
    requires Contains(u.nodes[t.controls[x][i - 1]].rect, pos)
    ensures Scanned(t, OthersCleared(u, depth, x, t.controls[x][i - 1]), depth, bound, x, pos, i, Some(i - 1))
  {
    var c := t.controls[x][i - 1];
    ChildrenOf(t, depth, bound, x);
    assert c !in t.controls[x][..i - 1];
    Interaction.KeptNarrow(t, u, depth, bound, c, x);
    assert ChildFrame(t, u, depth, x, c);
    OthersClearedKept(u, depth, bound, x, c);
    HitCase(t, u, depth, x, pos, i);
    Interaction.KeptTrans(t, u, OthersCleared(u, depth, x, c), depth, bound, x);
  }

  /** The child at `i - 1` does not hold the pointer after its update:
      whatever the scan below it does completes the scan below `i`. */
  lemma ScannedMiss(t: Tree, u: Tree, r: Tree, depth: map<Id, nat>, bound: nat, x: Id, pos: Point, i: nat, hit: Option<nat>)
    requires Coherent(t, depth, bound) && x in t.nodes && 0 < i <= |t.controls[x]| && t.controls[x][i - 1] in t.nodes
    requires Coherent(u, depth, bound) && Interaction.Kept(t, u, depth, t.controls[x][i - 1])
    requires !Contains(u.nodes[t.controls[x][i - 1]].rect, pos)
    requires x in u.controls && i - 1 <= |u.controls[x]| && u.controls[x][..i - 1] == t.controls[x][..i - 1]
    requires Scanned(u, r, depth, bound, x, pos, i - 1, hit)
    ensures Scanned(t, r, depth, bound, x, pos, i, hit)
  {
    var c := t.controls[x][i - 1];
    ChildrenOf(t, depth, bound, x);
    assert c !in t.controls[x][..i - 1];
    Interaction.KeptNarrow(t, u, depth, bound, c, x);
    assert ChildFrame(t, u, depth, x, c);
    ScanCase(t, u, r, depth, x, pos, i, hit);
    Interaction.KeptTrans(t, u, r, depth, bound, x);
  }

  /** The scan of `Form.update` over the children at the positions below
      `i`, from `i - 1` down, proved equal to `ScanFrom`. The list is read
      at each position as it stands then, since an update may bring the
      child to the end of it; the positions below are never moved. */
  method DispatchFrom(t: Tree, ghost depth: map<Id, nat>, ghost bound: nat, x: Id, pos: Point,
                      events: seq<Event>, now: int, width: string -> int, i: nat) returns (r: Tree, hit: Option<nat>)
    requires Coherent(t, depth, bound) && x in t.nodes && i <= |t.controls[x]|
    ensures Scan(r, hit) == ScanFrom(t, depth, bound, x, pos, events, now, width, i)
    decreases bound - depth[x], 0, i, 1
  {
    if i == 0 {
      return t, None;
    }
    var c := t.controls[x][i - 1];
    ChildrenOf(t, depth, bound, x);
    var u := Update(t, depth, bound, c, pos, events, now, width);
    if Contains(u.nodes[c].rect, pos) {
      r := ResetOthers(u, depth, bound, x, c);
      hit := Some(i - 1);
    } else {
      ScanPrefix(t, u, depth, bound, x, i);
      r, hit := DispatchFrom(u, depth, bound, x, pos, events, now, width, i - 1);
    }
  }
}

=== FILE: widgets.dfy ===
/** The drawing decisions of the leaf controls, apart from pixels: which
    state image a button, check box or text box paints, where its text
    goes, and which atlas cells its theme cuts. */
module Widgets {
  import opened Geometry
  import opened Optional
  import NineSlice
  import TextboxLogic

  /** pygame halves a rectangle's size for its centre with C integer
      division, which truncates toward zero. */
  function Half(n: int): (h: int)
    ensures 0 <= n - 2 * h <= 1 || (n < 0 && n - 2 * h == -1)
    ensures n >= 0 ==> 0 <= h <= n
    ensures n <= 0 ==> n <= h <= 0
  {
    if n >= 0 then n / 2 else -((-n) / 2)
  }

  /** An image from the theme atlas: a cell drawn as it is, or a cell
      nine-sliced to a control's size. */
  datatype Picture = Cell(at: Point) | Sliced(at: Point, comp: NineSlice.Composition)

  datatype ButtonImages = ButtonImages(normal: Picture, hover: Picture, click: Picture)

  /** `Button.set_surface_theme`: the 16 x 16 cells at (48, 16), (64, 16)
      and (80, 16), each nine-sliced to the button's size; `None` where the
      slicing fails, i.e. below 10 pixels (twice the 5-pixel border) in
      either direction. */
  function ButtonTheme(width: int, height: int): (r: Option<ButtonImages>)
    ensures r.Some? <==> width >= 10 && height >= 10
    ensures r.Some? ==>
      && r.value.normal.Sliced? && r.value.hover.Sliced? && r.value.click.Sliced?
      && r.value.normal.at == Point(48, 16) && r.value.hover.at == Point(64, 16) && r.value.click.at == Point(80, 16)
      && r.value.normal.comp.size == r.value.hover.comp.size == r.value.click.comp.size == NineSlice.Size(width, height)
  {
    var c := NineSlice.GenerateSurfaceByRect(16, 16, width, height);
    if c.None? then None
    else Some(ButtonImages(Sliced(Point(48, 16), c.value), Sliced(Point(64, 16), c.value), Sliced(Point(80, 16), c.value)))
  }

  /** The images a form gives its close button: the cell at (96, 0) for the
      normal and pressed states and the one at (112, 0) for hover, unscaled. */
  function CloseButtonImages(): (r: ButtonImages)
    ensures r.normal == r.click && r.hover != r.normal
    ensures r.normal.Cell? && r.hover.Cell?
  {
    ButtonImages(Cell(Point(96, 0)), Cell(Point(112, 0)), Cell(Point(96, 0)))
  }

  datatype ButtonImage = NormalImage | HoverImage | ClickImage

  /** `Button.draw`'s choice of state image. */
  function ButtonImageFor(hovered: bool, clicked: bool): (r: ButtonImage)
    ensures r == ClickImage <==> hovered && clicked
    ensures r == HoverImage <==> hovered && !clicked
    ensures r == NormalImage <==> !hovered
  {
    if hovered then (if clicked then ClickImage else HoverImage) else NormalImage
  }

  function Pick(images: ButtonImages, i: ButtonImage): Picture
  {
    match i
    case NormalImage => images.normal
    case HoverImage => images.hover
    case ClickImage => images.click
  }

  /** What `Button.draw` paints: a state image over the render rectangle and,
      for a non-empty text rendered `textW` x `textH`, the text's top-left
      corner. */
  datatype ButtonPaint = ButtonPaint(image: Picture, at: Rect, textAt: Option<Point>)

  function ButtonDraw(visible: bool, hovered: bool, clicked: bool, images: ButtonImages, render: Rect,
                      text: string, textW: nat, textH: nat): (r: Option<ButtonPaint>)
    ensures r.Some? <==> visible
    ensures visible ==> r.value.image == Pick(images, ButtonImageFor(hovered, clicked)) && r.value.at == render
    ensures visible ==> (r.value.textAt.Some? <==> |text| > 0)
  {
    if !visible then None
    else
      var textAt :=
        if |text| > 0 then
          Some(Point(render.x + Half(render.w) - Half(textW),
                     render.y + Half(render.h) - Half(textH) - (if clicked then 0 else 1)))
        else None;
      Some(ButtonPaint(Pick(images, ButtonImageFor(hovered, clicked)), render, textAt))
  }

  /** The text is centred across the button: its left and right margins
      differ by at most one pixel. */
  lemma ButtonTextCentred(hovered: bool, clicked: bool, images: ButtonImages, render: Rect, text: string, textW: nat, textH: nat)
    requires |text| > 0 && render.w >= 0
    ensures var at := ButtonDraw(true, hovered, clicked, images, render, text, textW, textH).value.textAt.value;
      var left := at.x - render.x;
      var right := render.x + render.w - (at.x + textW);
      -1 <= left - right <= 1
  {
    var at := ButtonDraw(true, hovered, clicked, images, render, text, textW, textH).value.textAt.value;
    assert at.x == render.x + Half(render.w) - Half(textW);
  }

  /** Pressing drops the text by one pixel and does not move it sideways. */
  lemma ButtonTextDropsWhenClicked(hovered: bool, images: ButtonImages, render: Rect, text: string, textW: nat, textH: nat)
    requires |text| > 0
    ensures var up := ButtonDraw(true, hovered, false, images, render, text, textW, textH).value.textAt.value;
      var down := ButtonDraw(true, hovered, true, images, render, text, textW, textH).value.textAt.value;
      down.x == up.x && down.y == up.y + 1
  {
  }

  /** `CheckBox.draw`: the hover cell (64, 32) or the normal cell (48, 32),
      then the tick cell (80, 32) exactly when checked; a non-empty label
      goes 18 pixels right of the box. The check box draws even when
      invisible. */
  datatype CheckBoxPaint = CheckBoxPaint(cells: seq<Point>, at: Rect, labelAt: Option<Point>)

  function CheckBoxDraw(hovered: bool, value: bool, render: Rect, text: string, textH: nat): (r: CheckBoxPaint)
    ensures |r.cells| == (if value then 2 else 1) && r.at == render
    ensures r.cells[0] == (if hovered then Point(64, 32) else Point(48, 32))
    ensures Point(80, 32) in r.cells <==> value
    ensures r.labelAt.Some? <==> |text| > 0
    ensures |text| > 0 ==> r.labelAt.value.x == render.x + 18
  {
    var base := if hovered then Point(64, 32) else Point(48, 32);
    var labelAt := if |text| > 0 then Some(Point(render.x + 18, render.y + Half(render.h) - Half(textH) + 1)) else None;
    CheckBoxPaint([base] + (if value then [Point(80, 32)] else []), render, labelAt)
  }

  /** `Textbox.set_surface_theme`: the cells at (96, 16) (normal) and
      (112, 16) (active), nine-sliced to the box's size; `None` below 10
      pixels in either direction. */
  function TextboxTheme(width: int, height: int): (r: Option<(Picture, Picture)>)
    ensures r.Some? <==> width >= 10 && height >= 10
    ensures r.Some? ==> r.value.0.Sliced? && r.value.1.Sliced? && r.value.0.at == Point(96, 16) && r.value.1.at == Point(112, 16)
  {
    var c := NineSlice.GenerateSurfaceByRect(16, 16, width, height);
    if c.None? then None else Some((Sliced(Point(96, 16), c.value), Sliced(Point(112, 16), c.value)))
  }

  /** The text of a text box starts 8 pixels right of the render
      rectangle's left edge: the alignment `('left', 8)` its constructor
      fixes. */
  const TextInset: int := 8

  /** `Textbox.draw`: the active image while active and the normal one
      otherwise, at the render rectangle; the shown string at the text's
      left edge; and, only while active and in the visible blink phase, the
      `'|'` one pixel left of the end of the shown prefix up to the cursor.
      Like the check box, the text box draws even when invisible. */
  datatype TextboxPaint = TextboxPaint(activeImage: bool, at: Rect, text: string, textX: int, cursorX: Option<int>)

  function TextboxDraw(active: bool, render: Rect, box: TextboxLogic.Textbox, width: string -> int): (r: TextboxPaint)
    ensures r.activeImage == active && r.at == render && r.text == box.shown
    ensures r.cursorX.Some? <==> active && box.cursorVisible
  {
    var textX := render.x + TextInset;
    TextboxPaint(active, render, box.shown, textX,
                 if active && box.cursorVisible
                 then Some(textX + width(TextboxLogic.Before(box.shown, box.index)) - 1) else None)
  }

  /** The cursor is drawn one pixel left of the end of the shown prefix up
      to the index: at the text's left edge, less one, for index 0 when the
      empty string has no width, and past the last character's end for an
      index at or past the end. */
  lemma CursorDrawnAtPrefix(render: Rect, box: TextboxLogic.Textbox, width: string -> int)
    requires box.cursorVisible
    ensures var r := TextboxDraw(true, render, box, width);
      && r.cursorX.Some?
      && r.cursorX.value == render.x + TextInset + width(box.shown[..if box.index <= |box.shown| then box.index else |box.shown|]) - 1
      && (box.index == 0 ==> r.cursorX.value == render.x + TextInset + width([]) - 1)
      && (box.index >= |box.shown| ==> r.cursorX.value == render.x + TextInset + width(box.shown) - 1)
  {
    assert box.shown[..|box.shown|] == box.shown;
  }

  /** With prefix widths that never shrink, a cursor further along the
      text is drawn no further left. */
  lemma CursorDrawnMonotone(render: Rect, box: TextboxLogic.Textbox, width: string -> int, i: nat, j: nat)
    requires i <= j && box.cursorVisible && TextboxLogic.MonotoneWidths(box.shown, width)
    ensures TextboxDraw(true, render, box.(index := i), width).cursorX.value
         <= TextboxDraw(true, render, box.(index := j), width).cursorX.value
  {
    var n := |box.shown|;
    var k := if i <= n then i else n;
    var l := if j <= n then j else n;
    assert TextboxLogic.Before(box.shown, i) == box.shown[..k];
    assert TextboxLogic.Before(box.shown, j) == box.shown[..l];
  }

  /** After a click `px` on the screen, the cursor is drawn where the click
      fell: left of the pointer unless it is at the start, and before the
      end of the character that follows it unless it is at the end. */
  lemma ClickedCursorAtPointer(render: Rect, box: TextboxLogic.Textbox, width: string -> int, px: int)
    ensures var b := TextboxLogic.Click(box, px - (render.x + TextInset), width);
      var x := TextboxDraw(true, render, b, width).cursorX.value;
      && (b.index > 0 ==> x + 1 < px)
      && (b.index < |b.shown| ==> px <= render.x + TextInset + width(b.shown[..b.index + 1]))
  {
    var b := TextboxLogic.Click(box, px - (render.x + TextInset), width);
    assert TextboxLogic.Before(b.shown, b.index) == b.shown[..b.index];
  }
}
